=== FILE: README.md ===
# ESP32-BLECollector core, modelled in Dafny

ESP32-BLECollector is firmware for an ESP32 board. It scans for Bluetooth Low Energy advertisements,
names each device by its manufacturer id (the vendor table) and by the first three bytes of its MAC
address (the OUI table), and shows the devices on a screen. It also keeps them in an SQLite database
on an SD card or flash file system.

This project models the part of the firmware that decides what happens to the data:

- **Settings** (`settings.dfy`): the tuning constants, plus the `substr` and `strpos` string helpers.
- **Text** (`text.dfy`): the C-string and `String` operations the core relies on: `isEmpty`,
  `strstr`, quote doubling for SQL literals, character removal, `tolower`/`toupper`, and the copy
  into a fixed-size field.
- **BLECache** (`blecache.dfy`): the device record and the record helpers the core calls (reset,
  merge, store, ring cursor, the timestamp refresh).
- **Lookup** (`lookup.dfy`): how a vendor name and an OUI name are looked up.
  - Without external RAM there is a small circular heap cache per table, with a database query on a
    miss.
  - With external RAM the whole table is loaded once and searched linearly.
- **Engine** (`engine.dfy`): the outcome SQLite gives a statement, shared by the collector
  database and the two reference databases.
- **DB** (`db.dfy`): the collector database seen as a store of rows.
  - `error()` and its flags; insert, delete and "update" (delete, then re-insert).
  - Replication of the device ring, `deviceExists`, the dated file name, file checks and `clean`.
- **Maintenance** (`maintain.dfy`): `maintain()`, which runs before every scan (pruning, reset,
  day/hour change, replication, restart), together with `cacheState`, `getEntries`, `pruneDB`,
  `resetDB` and `createDB`.
- **Scan** (`scan.dfy`): the scan pipeline.
  - `onResult` fills the scan buffer, and `onBeforeScan`/`onAfterScan` adapt the scan duration.
  - Four post-scan steps run per device (populate, if-exists, render, propagate), driven by
    `onAfterScanSteps`.
- **Serial** (`serial.dfy`): reading serial input into a 64-byte line buffer, and splitting and
  dispatching a command line. The `toggle` command flips a named flag.

The model is functional.

- Each global of the firmware becomes a field of an immutable record, and each routine becomes a
  function from the old record to the new one.
- The SQLite engine becomes a `Disk`:
  - a map from file names to sizes;
  - a map from database paths to tables, each a sequence of rows in insertion order;
  - the one outcome every statement on that disk gets (`ExecOk`, or a failure with an optional
    message);
  - whether opening the file fails.
- A missing table makes every statement fail with `no such table: blemacs`, as SQLite does.
- The clock (`TimeIsSet`, `nowDateTime`) is a parameter.
- External RAM (`hasPsram`) is a flag of the lookup state.

Quirks of the code kept as written:

- On a day change, `maintain()` switches to the new dated file (`setBLEDBPath`, `createDB`) *before* it
  replicates the device ring. The ring is therefore written into the new day's file, not the old one
  (`ESP32-BLECollector/DB.h:522-551`).
- `error()` tests `strstr("no such column", msg)`, with the arguments reversed. So an empty message or
  a prefix such as `"no such"` requests a reset, while a real `"no such column: x"` message does not.
- `insertBTDevice` writes `created_at` into both timestamp columns.
- `onScanIfExists` treats a failed `deviceExists` query (-2) like "not in the database", so the device
  is inserted again later.
- When `maintain()` sees `needsReset`, it deletes the database file and restarts. It never clears the
  flag first.

## Model

| member | source | states |
|---|---|---|
| Text.CountZeroIffAbsent | ESP32-BLECollector/DB.h:797-800 | a character occurs zero times exactly when it is absent, which the escaping and removal lengths rely on |
| Text.DoubleQuotes | ESP32-BLECollector/DB.h:797-800 | escaping a field for an SQL literal adds exactly one character per single quote |
| Text.UnescapeDoubleQuotes | ESP32-BLECollector/DB.h:797-800 | reading back an escaped literal the way SQLite does gives the original text, so quoted names survive the insert |
| Text.DoubleQuotesPaired | ESP32-BLECollector/DB.h:797-800 | an escaped field never contains a lone quote that would close the literal early |
| Text.RemoveChar | ESP32-BLECollector/DB.h:1097 | removing quotes from a looked-up name leaves no quote and shortens it by the number removed |
| Text.RemoveAbsentChar | ESP32-BLECollector/DB.h:1199 | removing a character that does not occur leaves the text unchanged |
| Text.RemoveCharIdempotent | ESP32-BLECollector/DB.h:1199 | removing quotes twice is the same as removing them once |
| Text.ToLower | ESP32-BLECollector/DB.h:1228-1233 | lower-casing keeps the length and maps every character through `tolower` |
| Text.ToUpper | ESP32-BLECollector/DB.h:102 | upper-casing the key (SQL `UPPER`) keeps the length and maps every character through `toupper` |
| Text.Truncate | ESP32-BLECollector/DB.h:1087-1094 | a value copied into an n-byte field keeps at most n-1 characters: short values are kept whole, long ones keep their first n-1 |
| Settings.ScanDurationConstants | ESP32-BLECollector/Settings.h:65-69 | the initial scan duration lies in the adaptive range, and the heap ring sizes from Settings.h take precedence over DB.h's defaults |
| Settings.Substr | ESP32-BLECollector/Settings.h:142-152 | `substr` returns nothing exactly when len <= 0; otherwise it returns a prefix of the tail at pos, of length len unless the source ends first |
| Settings.SubstrAdjacent | ESP32-BLECollector/Settings.h:142-152 | two adjacent substrings concatenate to the substring covering both |
| Settings.FindFrom | ESP32-BLECollector/Settings.h:157 | `strstr` semantics: the first occurrence at or after a position, or -1 exactly when there is none |
| Settings.StrPos | ESP32-BLECollector/Settings.h:153-161 | the intended `strpos`: the first position at or after offset where the needle occurs (no earlier one), or -1 exactly when there is none |
| Settings.StrPosAsWrittenNoJunk | ESP32-BLECollector/Settings.h:153-161 | when the byte after the unterminated copy happens to be NUL, the as-written `strpos` agrees with the intended one |
| Settings.StrPosUnterminatedCopy | ESP32-BLECollector/Settings.h:155-157 | counterexample: the as-written `strpos` reports a match that is not in the haystack when the bytes after the copy continue the needle |
| BLECache.Reset | ESP32-BLECollector/BLE.h:1313 | a reset record is a free slot: empty address, not in the database, not anonymous, zero hits |
| BLECache.Merge | ESP32-BLECollector/BLE.h:1306-1307 | merging scan data into a known record keeps the known identity, hits, timestamps and flags, and takes the fresh name only when the scan has one |
| BLECache.StoreAdvert | ESP32-BLECollector/BLE.h:196-198 | storing an advertisement copies address, address type and manufacturer id and marks the names as still to be looked up ("[random]" OUI for random addresses) |
| BLECache.NextCacheIndex | ESP32-BLECollector/BLE.h:1312 | the next ring index is always inside the ring |
| BLECache.Touch | ESP32-BLECollector/BLE.h:1300-1305 | with the clock set, a re-sighting sets `updated_at` to now and fills `created_at` only when it was unset (year <= 1970); otherwise nothing changes, and no other field ever changes |
| Lookup.FreshVendorHeap | ESP32-BLECollector/DB.h:110-125 | the vendor heap ring is well formed, has VENDORCACHE_SIZE slots and starts with the cursor at 0 |
| Lookup.FreshOuiHeap | ESP32-BLECollector/DB.h:146-168 | the OUI heap ring is well formed, has OUICACHE_SIZE slots and starts with the cursor at 0 |
| Lookup.FindSlot | ESP32-BLECollector/DB.h:1056-1066 | `vendorHeapExists`/`OUIHeapExists`: the first slot holding the key, or -1 exactly when no slot does |
| Lookup.MissValue | ESP32-BLECollector/DB.h:1084-1101 | on a miss the cached name is the database value cut to 31 characters with quotes removed, or the sentinel ("[unknown]"/"[private]") when the query returned nothing |
| Lookup.HeapLookup | ESP32-BLECollector/DB.h:1069-1104 | a hit (iff the key is in a slot) returns the first matching slot's name and leaves the ring alone; a miss advances the cursor by one modulo the ring size and overwrites that slot with the key and its looked-up name |
| Lookup.RepeatLookupHits | ESP32-BLECollector/DB.h:1069-1104 | looking up the same key twice in a row hits the second time, with the same name and no change to the ring, whatever the database says |
| Lookup.FirstVendorMiss | ESP32-BLECollector/DB.h:1079-1101 | the first lookup on a fresh vendor ring misses and writes slot 1, not slot 0: the cursor is advanced before the write |
| Lookup.UnusedVendorSlotNeverMatches | ESP32-BLECollector/DB.h:1056-1066 | a valid 16-bit devid never hits an unused slot (devid -1) |
| Lookup.LookupAll | ESP32-BLECollector/DB.h:1069-1104 | a run of lookups keeps the ring well formed and its size fixed |
| Lookup.MissRun | ESP32-BLECollector/DB.h:1041-1066 | a key held only in the cursor slot is gone from the ring after a run of distinct missing keys as long as the ring |
| Lookup.AdvanceWithinTurn | ESP32-BLECollector/DB.h:1048-1053 | advancing the cursor t <= n times wraps at most once |
| Lookup.CyclicEviction | ESP32-BLECollector/DB.h:1041-1066 | after as many distinct misses as there are slots, a previously cached key misses again (round-robin eviction) |
| Lookup.FirstEntry | ESP32-BLECollector/DB.h:1107-1118 | `vendorPsramExists`/`OUIPsramExists`: the first table entry accepted, or -1 exactly when none is |
| Lookup.PsramLookup | ESP32-BLECollector/DB.h:1121-1133 | a hit (iff some entry matches) returns the first matching entry's name and increments only that entry's hit count; a miss returns the sentinel and changes nothing |
| Lookup.LoadPsram | ESP32-BLECollector/DB.h:1268-1321 | loading reports the number of rows read and fills slot i from row i; every slot either was loaded with zero hits or lies beyond the rows and is still blank |
| Lookup.U16 | ESP32-BLECollector/DB.h:855 | a devid passed as `uint16_t` wraps into 0..65535 and keeps in-range values unchanged |
| Lookup.BlankOuiTable | ESP32-BLECollector/DB.h:178 | the external-RAM OUI table has OUIDBSize entries |
| Lookup.OuiPrefixFit | ESP32-BLECollector/DB.h:1307-1309 | a loaded OUI prefix is cut to at most SHORT_MAC_LEN characters, which fit its SHORT_MAC_LEN+1-byte field |
| Lookup.LoadedOuiLookup | ESP32-BLECollector/DB.h:1209-1244 | after loading, an OUI lookup hits exactly when some loaded row's (cut) prefix contains the key |
| Lookup.ShortMac | ESP32-BLECollector/DB.h:1166-1173 | the OUI key is built from the first nine characters of the MAC with the colons dropped: no colon and at most nine characters |
| Lookup.PsramOuiKey | ESP32-BLECollector/DB.h:1226-1233 | the external-RAM key is the lower-cased short MAC, of the same length |
| Lookup.MacShortKey | ESP32-BLECollector/DB.h:1166-1173 | for a canonical MAC address the key is the six hex digits of the first three bytes |
| Lookup.GetVendor | ESP32-BLECollector/DB.h:855-862 | `getVendor` dispatches on external RAM, and only the chosen cache changes. With external RAM (`vendorPsramExists`/`getPsramVendor`), the name is the FIRST entry with the id, only that entry's hits and the hit counter grow, and a miss gives "[unknown]" and changes nothing. Without it, the counter grows exactly on a ring hit, a hit returns the cached name, and a miss returns the query's value or "[unknown]"; the query's failure is returned exactly when a heap miss queried a failing database, and then the name is "[unknown]" |
| Lookup.RefAnswer | ESP32-BLECollector/DB.h:757-763 | `DBExec` clears the column value before the query, so a failed reference query answers nothing, and a successful one answers the table's row for the key |
| Lookup.FailedVendorQueryCached | ESP32-BLECollector/DB.h:1080-1100 | a failed vendor query caches "[unknown]" under the id, so a later lookup answers "[unknown]" from the cache even once the database is healthy |
| Lookup.GetOUI | ESP32-BLECollector/DB.h:865-872 | `getOUI` dispatches on external RAM and changes only the OUI cache of the path taken; the reference query's failure is returned exactly when a heap miss queried a failing database, and then the name is "[private]" |
| Lookup.PsramOui | ESP32-BLECollector/DB.h:1208-1244 | external-RAM OUI lookup: when some entry's prefix contains the lower-cased key, the name is the FIRST such entry's, and only that entry's hits and `OuiCacheHit` grow by one; when none does, the name is "[private]" and nothing changes |
| Lookup.HeapOui | ESP32-BLECollector/DB.h:1163-1206 | heap OUI lookup: the hit counter grows by one exactly when the short MAC is cached; a hit returns the cached name and leaves the ring; a miss caches the database answer or "[private]", and returns the query's outcome, so a failed query caches "[private]" and reports the failure |
| DB.Classify | ESP32-BLECollector/DB.h:734-746 | classifies an SQLite message: corruption exactly for "malformed"/"disk I/O error", memory exactly for "out of memory", reset exactly for "no such table: blemacs" or a message contained in "no such column" |
| DB.Error | ESP32-BLECollector/DB.h:723-751 | `error()`: without a message only `isCorrupt` is raised; with one, both triggers are cleared and each health flag is raised exactly by its messages, and no other flag changes |
| DB.ErrorRaisesAtMostOne | ESP32-BLECollector/DB.h:734-746 | one message raises at most one of corrupt, out-of-memory and reset |
| DB.NotADatabaseRaisesNothing | ESP32-BLECollector/DB.h:736-737 | "file is not a database" only clears the triggers (its reset is commented out) |
| DB.ColumnTestReversed | ESP32-BLECollector/DB.h:744 | the reversed `strstr` misses a real "no such column: address" message but fires on "" and on "no such" |
| DB.Status | ESP32-BLECollector/DB.h:753-766 | a statement succeeds exactly when the disk has no fault and the table exists; a missing table reports "no such table: blemacs" |
| DB.Failed | ESP32-BLECollector/DB.h:760-763 | a failed statement passes its message to `error()` and leaves the data alone |
| DB.Select | ESP32-BLECollector/DB.h:99 | `WHERE address='a'` keeps exactly the rows with that address |
| DB.Without | ESP32-BLECollector/DB.h:845-853 | `DELETE ... WHERE address='a'` keeps exactly the rows with another address |
| DB.SelectAppend | ESP32-BLECollector/DB.h:99 | selecting from concatenated rows is concatenating the selections |
| DB.SelectWithout | ESP32-BLECollector/DB.h:845-853 | after deleting an address no row with it is left |
| DB.Code | ESP32-BLECollector/DB.h:213-222 | the insert result codes: negative exactly for the failures, and never 0 |
| DB.BuildInsert | ESP32-BLECollector/DB.h:792-827 | the INSERT statement escapes every text field and writes `created_at` into both timestamp columns |
| DB.InsertRoundTrip | ESP32-BLECollector/DB.h:792-827 | executing the built statement stores exactly the device's fields, with `updated_at` equal to `created_at` |
| DB.InsertBTDevice | ESP32-BLECollector/DB.h:769-843 | `insertBTDevice`: refused when out of memory; ignored exactly for a blank record; succeeds exactly when writable and not blank, appending one row and setting `in_db`; when the INSERT fails, `error()` runs and `in_db` is cleared; when `open()` fails, the flags and `in_db` are left unchanged |
| DB.InsertFrame | ESP32-BLECollector/DB.h:769-843 | an insert touches only the collector table, and only the error flags can change |
| DB.ExecInsertStmt | ESP32-BLECollector/DB.h:828-842 | the statement succeeds exactly when the engine does, appending the row; otherwise `error()` runs and `in_db` is false |
| DB.DeleteBLEDevice | ESP32-BLECollector/DB.h:845-853 | a successful delete removes exactly the rows with the address; a failed one only runs `error()` |
| DB.UpdateItemFromCache | ESP32-BLECollector/DB.h:986-997 | "update" deletes every row with the address and then inserts the record; nothing but that row is added |
| DB.UpdateLeavesOneRow | ESP32-BLECollector/DB.h:986-997 | on a writable database an update leaves exactly one row for the address, holding the record |
| DB.ReplicateSlot | ESP32-BLECollector/DB.h:1004-1027 | one ring slot: free or anonymous slots are skipped (anonymous ones still reset when asked); others are updated in the database; the slot is reset afterwards when asked |
| DB.Replicate | ESP32-BLECollector/DB.h:999-1036 | `updateDBFromCache`: every slot is treated as above, the ring keeps its size, and every row afterwards was there before or is a replicated slot's record |
| DB.ReplicatePersists | ESP32-BLECollector/DB.h:999-1036 | on a writable database with distinct addresses, every replicated non-blank record is in the database afterwards |
| DB.FirstSlotPersists | ESP32-BLECollector/DB.h:999-1036 | the first slot's record survives the replication of the later slots |
| DB.ReplicateKeepsAddress | ESP32-BLECollector/DB.h:999-1036 | replication never removes an address that no ring slot holds |
| DB.LoadRow | ESP32-BLECollector/DB.h:1247-1265 | a loaded row becomes a record marked in the database and not anonymous, with the row's fields |
| DB.LoadRows | ESP32-BLECollector/DB.h:1250-1264 | only the first result row is loaded into the holder; later rows are ignored |
| DB.LoadStoredRow | ESP32-BLECollector/DB.h:769-843 | loading back an inserted row gives the device's fields, with `updated_at` equal to `created_at` |
| DB.DeviceExists | ESP32-BLECollector/DB.h:655-676 | `deviceExists`: -1 for an invalid address; -2 after a failed query (error path run); otherwise the ring cursor exactly when a row has the address (that row is loaded), else -1 |
| DB.InsertedDeviceExists | ESP32-BLECollector/DB.h:655-676 | after inserting a new device, `deviceExists` finds it and loads the inserted data |
| DB.Dec | ESP32-BLECollector/DB.h:321-330 | `%d` prints at least one digit and only digits |
| DB.PadDec | ESP32-BLECollector/DB.h:321-330 | `%0wd` prints at least w characters, all digits |
| DB.ParseDec_Dec | ESP32-BLECollector/DB.h:321-330 | reading back a printed number gives the number |
| DB.ParsePadDec | ESP32-BLECollector/DB.h:321-330 | reading back a zero-padded number gives the number |
| DB.SetBLEDBPath | ESP32-BLECollector/DB.h:316-338 | with the clock set, the file is `/ble-YYYY-MM-DD.db`, else `/blemacs.db`; the SQLite path is the file-system type prefixed to it |
| DB.DatedPathInjective | ESP32-BLECollector/DB.h:321-330 | two dates (4-digit years) with the same file name are the same day |
| DB.DatedPathNotUndated | ESP32-BLECollector/DB.h:316-338 | a dated file name never equals the undated one |
| DB.CheckFile | ESP32-BLECollector/DB.h:362-380 | a file checks out exactly when it exists with the expected size |
| DB.CheckDBFiles | ESP32-BLECollector/DB.h:341-358 | the lookup databases check out exactly when both exist with their expected sizes |
| DB.CheckFileOtherFile | ESP32-BLECollector/DB.h:362-380 | creating, resizing or removing another file does not change the verdict on a file |
| DB.CheckDBFilesOtherFile | ESP32-BLECollector/DB.h:341-358 | the verdict depends only on the two reference files at DB.h:194-195 |
| DB.CollectorPathNotReference | ESP32-BLECollector/DB.h:316-338 | no collector path, dated or undated, is one of the two reference database paths |
| DB.ErrorIdempotent | ESP32-BLECollector/DB.h:723-751 | reporting the same failure twice leaves the flags as reporting it once |
| DB.ReplacedAt | ESP32-BLECollector/DB.h:643-652 | every needle character is replaced, and every other character is kept |
| DB.Clean | ESP32-BLECollector/DB.h:643-652 | `clean` replaces each needle by the replacement in place; with distinct characters no needle is left |
| DB.ReplacedIdempotent | ESP32-BLECollector/DB.h:643-652 | cleaning twice is cleaning once |
| Maintenance.PercentBounds | ESP32-BLECollector/DB.h:586-588 | a fill percentage is at most 100, and is 100 exactly when the cache is full |
| Maintenance.CacheState | ESP32-BLECollector/DB.h:561-590 | `cacheState`: the ring fill is the truncated percentage of occupied slots, and is 100 exactly when every slot is occupied; with external RAM both lookup fills are 100, otherwise they are the percentages of used heap slots; every fill is at most 100 |
| Maintenance.GetEntries | ESP32-BLECollector/DB.h:875-886 | `getEntries` counts the rows, or runs the error path and reports 0 |
| Maintenance.PruneDB | ESP32-BLECollector/DB.h:942-952 | `pruneDB` deletes every row when the statement succeeds and resets the entry count and prune trigger either way; nothing else changes |
| Maintenance.ResetDisk | ESP32-BLECollector/DB.h:889-897 | `resetDB` removes the collector file and its table, and leaves every other file and table alone |
| Maintenance.CreateDB | ESP32-BLECollector/DB.h:900-930 | `createDB` halts exactly when the file opens but the engine fails (after removing the file); on a healthy disk it creates the file and table and keeps existing rows |
| Maintenance.DayChange | ESP32-BLECollector/DB.h:522-532 | a day change switches to the new dated file, requests replication and clears both triggers |
| Maintenance.HourChange | ESP32-BLECollector/DB.h:533-546 | an hour change forces BLE time sync, requests replication and clears both triggers |
| Maintenance.Finish | ESP32-BLECollector/DB.h:547-557 | a pending replication writes the ring into the table and keeps every slot's record, with only its `in_db` flag updated (`resetAfter` is false); a requested restart ends the round; otherwise the round continues with the health result |
| Maintenance.ResetDiskKeepsReferenceFiles | ESP32-BLECollector/DB.h:889-897 | removing the collector's file never changes the reference-file verdict |
| Maintenance.CreateDBKeepsReferenceFiles | ESP32-BLECollector/DB.h:900-930 | creating the collector's database, or failing to, never changes the reference-file verdict |
| Maintenance.DayChangeKeepsReferenceFiles | ESP32-BLECollector/DB.h:522-532 | rotating to the new day's file never changes the reference-file verdict |
| Maintenance.ScheduledKeepsReferenceFiles | ESP32-BLECollector/DB.h:522-557 | the day change, hour change, replication and restart tail never changes the reference-file verdict: only a day change touches the file list, and only at the collector path |
| Maintenance.MaintainKeepsReferenceFiles | ESP32-BLECollector/DB.h:501-558 | whatever `maintain` does (prune, reset, rotate, replicate, restart or halt), the reference databases check out afterwards exactly when they did before |
| Maintenance.Maintain | ESP32-BLECollector/DB.h:501-558 | `maintain`: it returns "healthy" exactly when neither OOM nor corruption was flagged; a continuing round has no pending pruning, replication, restart or triggers; `needsReset` deletes the file and restarts; only a failing day-change creation halts |
| Maintenance.Prepared | ESP32-BLECollector/DB.h:503-517 | the pruning step: it clears `needsPruning`, never clears `needsReset`, and without pruning only clears the health flags |
| Maintenance.Scheduled | ESP32-BLECollector/DB.h:522-557 | the day/hour/replication/restart tail: it keeps the health result and leaves no trigger or request pending |
| Maintenance.MaintainIdle | ESP32-BLECollector/DB.h:501-558 | with nothing pending, maintenance only clears the health flags and reports them |
| Maintenance.MaintainDayChange | ESP32-BLECollector/DB.h:522-557 | on a healthy disk a day change moves to the dated file, keeps the old file's rows, and the new file holds every replicated non-blank ring record |
| Maintenance.MaintainHourChange | ESP32-BLECollector/DB.h:533-557 | on a healthy disk an hour change keeps the file, forces BLE time, and every replicated non-blank ring record is in the database |
| Scan.FindAddress | ESP32-BLECollector/BLE.h:1463-1470 | the first ring slot holding the address, or -1 exactly when none does |
| Scan.GetDeviceCacheIndex | ESP32-BLECollector/BLE.h:1460-1472 | `getDeviceCacheIndex`: -1 for an empty address or one in no slot; otherwise the first slot holding it |
| Scan.VendorKey | ESP32-BLECollector/BLE.h:1556-1558 | a manufacturer id passed to `getVendor` wraps to 16 bits |
| Scan.Populate | ESP32-BLECollector/BLE.h:1549-1565 | `populate` looks up exactly the names still marked unpopulated: an unpopulated OUI name becomes `getOUI`'s answer, and an unpopulated vendor name becomes `getVendor`'s answer for the 16-bit manufacturer id, or empty without one; names already set are kept; the anonymity flag is recomputed; nothing else changes; the flags change only when a reference query ran against a failing database, and then they are those of one `error()` call on its message |
| Scan.FailedLookupBlocksInsert | ESP32-BLECollector/DB.h:755-774 | an out-of-memory failure of a reference query during populate raises `isOOM`, so the next `insertBTDevice` returns DB_IS_OOM |
| Scan.PopulateIdempotent | ESP32-BLECollector/BLE.h:1549-1565 | populating a populated record again changes nothing |
| Scan.OnScanPopulate | ESP32-BLECollector/BLE.h:1265-1282 | the populate step: it works exactly while unfinished devices remain, populates only the current non-empty slot (taking its caches and flags), and otherwise marks itself done; of the store only the flags can change |
| Scan.Resighted | ESP32-BLECollector/BLE.h:1299-1305 | a re-sighting adds one hit and keeps the address and flags |
| Scan.InRing | ESP32-BLECollector/BLE.h:1296-1308 | a device found in the ring has the scan data merged into the re-sighted slot and copied back, and both hit counters grow by one |
| Scan.Anonymous | ESP32-BLECollector/BLE.h:1310-1316 | an anonymous device gets one more hit and is copied into the next ring slot |
| Scan.FoundInDb | ESP32-BLECollector/BLE.h:1318-1333 | a device loaded from the database is re-sighted, merged with the scan data, and copied into the next ring slot and back to the scan slot |
| Scan.NotInDb | ESP32-BLECollector/BLE.h:1334-1338 | a device not found is marked as not in the database; the ring is untouched |
| Scan.Query | ESP32-BLECollector/BLE.h:1318 | a found device's loaded record has the scanned address |
| Scan.Queried | ESP32-BLECollector/BLE.h:1317-1339 | the database branch keeps the pipeline well formed and its progress unchanged |
| Scan.OnScanIfExists | ESP32-BLECollector/BLE.h:1284-1342 | the if-exists step works exactly while unfinished devices remain, and takes the ring, anonymous or database branch according to where the device is known |
| Scan.IfExistsCaches | ESP32-BLECollector/BLE.h:1284-1342 | after the if-exists step, a device known to the ring, anonymous, or found in the database is in the ring |
| Scan.FailedQueryCountsAsNew | ESP32-BLECollector/BLE.h:1318-1338 | a failed query (-2) is treated as "not in the database": the ring is unchanged, `in_db` is cleared and the error path runs |
| Scan.OnScanRender | ESP32-BLECollector/BLE.h:1344-1367 | the render step works exactly while unfinished devices remain; only its done flag changes |
| Scan.OnScanPropagate | ESP32-BLECollector/BLE.h:1369-1401 | the propagate step inserts exactly the non-anonymous devices not yet in the database, counts successful inserts, and frees the scan slot; when done it rewinds the cursor |
| Scan.NewDeviceInserted | ESP32-BLECollector/BLE.h:1369-1401 | on a writable database a new non-blank device is appended as one row, the entry count grows by one, and the slot is freed |
| Scan.AfterScanStep | ESP32-BLECollector/BLE.h:1232-1263 | the step machine: steps 0-2 advance the step, step 3 resets it and advances the cursor exactly when a device was propagated, and any other value exits |
| Scan.Drive | ESP32-BLECollector/BLE.h:1232-1263 | driving the steps with a call budget keeps the pipeline well formed and never makes more calls than the budget |
| Scan.OneDevice | ESP32-BLECollector/BLE.h:1232-1263 | one device takes four calls and advances the cursor by one |
| Scan.LastCalls | ESP32-BLECollector/BLE.h:1232-1263 | with no devices left, four more calls end the round with the cursor rewound |
| Scan.DriveFrom | ESP32-BLECollector/BLE.h:1232-1263 | from cursor c, a round takes exactly 4*(count-c)+4 calls and ends propagated with the cursor rewound |
| Scan.RoundLength | ESP32-BLECollector/BLE.h:1232-1263 | a round over n devices takes exactly 4n+4 step calls |
| Scan.PsramPopulate | ESP32-BLECollector/BLE.h:204-211 | populating at receive time (external RAM only): a public address gets `getOUI`'s name and a random one keeps its OUI name; a manufacturer id above -1 gets `getVendor`'s name, otherwise the vendor name is kept; it queries no database, so the flags are unchanged |
| Scan.BufferFiltered | ESP32-BLECollector/BLE.h:200-202 | a filtered random device is stored in the current slot, but the cursor does not advance |
| Scan.ResultNames | ESP32-BLECollector/BLE.h:204-215 | names are looked up at receive time only with external RAM, and never touch the flags |
| Scan.BufferPopulated | ESP32-BLECollector/BLE.h:203-221 | an accepted device advances the cursor and the processed count by one; the scan is done exactly when the buffer is full |
| Scan.Buffer | ESP32-BLECollector/BLE.h:194-221 | storing a result: the slot gets the advertised address; a filtered random device does not advance anything; an accepted one advances cursor and count |
| Scan.OnResult | ESP32-BLECollector/BLE.h:186-243 | `onResult` ignores results after the scan is done; otherwise it stores the device; on the result that ends the scan it rewinds the cursor and shortens the duration by one unless at the minimum |
| Scan.Receive | ESP32-BLECollector/BLE.h:194-231 | receiving during a scan keeps the cursor inside the buffer and the duration in range |
| Scan.EndScan | ESP32-BLECollector/BLE.h:225-231 | ending the scan rewinds the cursor and decrements the duration only when it stays >= the minimum |
| Scan.OnResultCounts | ESP32-BLECollector/BLE.h:194-218 | a stored device has the advertised address; a filtered one is not counted; an accepted one is counted once |
| Scan.OnResultKeepsScanning | ESP32-BLECollector/BLE.h:186-243 | the processed count never exceeds the buffer size during a scan |
| Scan.OnAfterScan | ESP32-BLECollector/BLE.h:1420-1458 | `onAfterScan`: the device count is the processed count capped at the buffer size; fewer results lengthen the duration, more shorten it, within the range; the scan state is reset |
| Scan.NoOverflowAfterScan | ESP32-BLECollector/BLE.h:1420-1458 | after a scan fed through `onResult`, no result is truncated and the duration does not shrink |
| Scan.OnBeforeScan | ESP32-BLECollector/BLE.h:1403-1418 | `onBeforeScan` runs maintenance; a scan starts exactly when maintenance continues, with all counters and step flags reset |
| Scan.ReceiveAll | ESP32-BLECollector/BLE.h:186-243 | a stream of results keeps the pipeline well formed |
| Scan.ReceiveAllInRange | ESP32-BLECollector/BLE.h:186-243 | the scan duration stays in 10..119 over any stream of results |
| Scan.ScanDurationStaysInRange | ESP32-BLECollector/BLE.h:1439-1451 | a whole scan (results then `onAfterScan`) keeps the duration in range, so the byte never wraps |
| Serial.CString | ESP32-BLECollector/BLE.h:1013-1015 | the string a C routine sees: the prefix before the first NUL |
| Serial.CStringTerminated | ESP32-BLECollector/BLE.h:1013 | terminating a line with NUL does not change the string it denotes |
| Serial.Accept | ESP32-BLECollector/BLE.h:1006-1016 | one character: an end of line hands over the pending text and clears it; any other character only extends the pending text, by at most one, and it never reaches the buffer size |
| Serial.AcceptAll | ESP32-BLECollector/BLE.h:997-1020 | feeding input keeps the pending text within the buffer and only adds lines |
| Serial.SerialRead | ESP32-BLECollector/BLE.h:997-1020 | `SerialRead`: the buffer and index end as the character model predicts, and each dispatched command is the C string of a completed line |
| Serial.AcceptLine | ESP32-BLECollector/BLE.h:1006-1011 | a run of ordinary characters leaves the pending text truncated to 63 characters |
| Serial.DispatchedLine | ESP32-BLECollector/BLE.h:997-1020 | a line followed by LF is dispatched as its first 63 characters |
| Serial.SkipSpaces | ESP32-BLECollector/BLE.h:1144 | `strtok_r` skips leading delimiters |
| Serial.FindSpace | ESP32-BLECollector/BLE.h:1144 | `strtok_r` ends a token at the next delimiter or the end |
| Serial.Tokens | ESP32-BLECollector/BLE.h:1142-1149 | splitting a command as newlib's `strtok_r` does: without a space, or when the token runs to the end, it is all name and no argument; with an argument the command is the name, a space and the argument, where the name is the leading spaces followed by one non-empty space-free token |
| Serial.TokensOfJoin | ESP32-BLECollector/BLE.h:1142-1149 | "name arg" splits back into name and arg |
| Serial.IndexOf | ESP32-BLECollector/BLE.h:1150-1151 | the first table entry with the name, or none exactly when it is absent |
| Serial.RunCommand | ESP32-BLECollector/BLE.h:1125-1165 | `runCommand` ignores a line exactly when it or the table is empty; "help" is exactly the help listing; otherwise it runs the first entry named by the first token (with the argument), or reports that name as not found exactly when absent |
| Serial.RunsNamedCommand | ESP32-BLECollector/BLE.h:1125-1165 | "name arg" runs the named command with arg |
| Serial.ToggleCommandIndex | ESP32-BLECollector/BLE.h:1033-1049 | "toggle" is the sixteenth entry of the command table |
| Serial.Toggle | ESP32-BLECollector/BLE.h:967-987 | `toggleCB` flips exactly the flags whose name equals the argument, keeps names, and with no argument changes nothing |
| Serial.ToggleInvolution | ESP32-BLECollector/BLE.h:967-987 | toggling twice with the same argument restores the flags |
| Serial.ToggleFlipsOne | ESP32-BLECollector/BLE.h:967-987 | with distinct names, toggling a name flips exactly its flag |
| Serial.ToggleUnknownName | ESP32-BLECollector/BLE.h:977-983 | an unknown name changes nothing |
| Serial.ToggleTable | ESP32-BLECollector/BLE.h:1079-1094 | the toggle table pairs each listed name with its flag |
| Serial.ToggleTableDistinct | ESP32-BLECollector/BLE.h:1079-1094 | the toggle table's names are distinct |
| Serial.ToggleCommandRuns | ESP32-BLECollector/BLE.h:1125-1165 | "toggle x" runs the toggle command with argument x |
| Serial.ToggleCommandFlips | ESP32-BLECollector/BLE.h:967-987 | typing "toggle NAME" for a listed flag flips exactly that flag |

## Left out

- Display, logging, LEDs and icons (`UI.*`, `log_*`, `Serial.printf` text) are left out: they do not affect the stored data.
- The radio driver, task creation, semaphores and delays are left out. Advertisements arrive as `Advert` values.
- `deviceHasKnownPayload` is left out, and so is the scan stop it can trigger: both are radio control.
- The early return of `onAfterScan` that starts a BLE time-sync task is left out: it launches a task.
- The time-client and time-server commands are left out, and so are the effects of every serial command callback other than `toggle`. They start tasks, touch the SD card or the screen, or restart the board. `runCommand` is modelled up to choosing the entry and its argument.
- The GPS and WiFi command and toggle entries are left out: the build flags modelled here compile them out.
- The `BLECache.h` helpers are not part of this model's source.
  - `reset`, `mergeItems`, `store`, `getNextCacheIndex`, `isAnonymous` and `copy` implement what their call sites in BLE.h and DB.h rely on. For example, reset empties the address, as BLE.h:1313 and DB.h:1028 expect of a slot they free.
  - `copyItem` is a full copy, and `copy` keeps at most size-1 characters.
- BLECache.NextCacheIndex: only states that the index is inside the ring. The free-slot search of `getNextCacheIndex` lives in `BLECache.h`, which is not part of this model.
- SQLite itself is left out: parsing, the `SUBSTR(...,0,32)` in the loader queries, and file formats. Statements are modelled by their effect on rows.
  - The vendor and OUI reference tables are maps in which the last row for a key wins.
- The vendor and OUI reference databases share one engine outcome (`refStatus`): either both queries succeed or both fail with the same message. A failure that hits one reference database but not the other is not modelled.
- `openFails` is consulted only where the code checks the result of `open()`, that is in `insertBTDevice` and `createDB`. Other opens are assumed to succeed.
- Lookup.LoadPsram: vendor slots the loader does not fill keep whatever `ps_malloc` left in their `devid` (DB.h:418 does not zero it). The model takes the blank table as a parameter, so that content stays arbitrary rather than being pinned down.
- Maintenance.CacheState: a ring of size zero reads as 0% instead of dividing by zero. The source divides by the non-zero constant `BLEDEVCACHE_SIZE`, so this case does not arise there. Percentages use unbounded arithmetic. The counters' declarations are not part of this model. C evaluates `used*100` in `int`, which cannot overflow for ring sizes up to 1024.
- Integer widths elsewhere are not modelled (hit counters, entry counts). None wraps within the ranges the firmware reaches. The exceptions are `SCAN_DURATION` (a byte, proved to stay in 10..119) and the 16-bit `devid` (wrapped explicitly by `U16`).
- Serial.Tokens: follows newlib's `strtok_r`, which leaves `args` NULL when the token runs to the end of the line. A command with leading spaces keeps them in its name, as `strcmp` sees it.
- Serial.SerialRead: a NUL byte inside a line ends the command string early, as C does. Serial input is a parameter.
- Serial.ToggleCommandIndex: relies on the command table with the external-RTC, GPS and WiFi flags off. The index of "toggle" does not depend on the RTC flag.
- Scan.Drive: takes a call budget (fuel) so that termination is evident. A budget below 4n+4 stops a round early, which the firmware's unbounded loop never does.
- `loadVendorsToPSRam`/`loadOUIToPSRam` are modelled by `LoadPsram` from the rows a query returns. The query text and its progress bar are left out.

## Findings

| source | as written | input that shows it | evidently intended | confidence | as-written member | corrected member |
|---|---|---|---|---|---|---|
| ESP32-BLECollector/Settings.h:153-161 | `strpos` copies the `strlen(hay)-offset` characters after `offset` into a buffer of `strlen(hay)` bytes. It never writes a terminator, so `strstr` reads past the copy. | hay "ab", needle "bz", offset 0, where the byte after the copy is 'z': it returns 1 although "bz" is not in "ab" | search only the characters of `hay` from `offset`, returning -1 when the needle is absent | not executed | Settings.StrPosAsWritten, Settings.StrPosUnterminatedCopy | Settings.StrPos |

=== FILE: blecache.dfy ===
/**
 * The `BlueToothDevice` record shared by the scan buffer, the device ring
 * cache and the database holder, with the record helpers the pipeline calls
 * (`reset`, `mergeItems`, `copyItem`, `isAnonymous`, `store`,
 * `getNextCacheIndex`).  Those helpers live in BLECache.h, which is not part
 * of this model.  Their bodies here give what their call sites in BLE.h and
 * DB.h rely on:
 *   - `reset` empties the address, so the slot reads as free to
 *     `getDeviceCacheIndex` and to the propagation step (BLE.h:1313,
 *     BLE.h:1398, DB.h:1028);
 *   - `getNextCacheIndex` returns a slot inside the ring, indexed at once
 *     (BLE.h:1312-1315, BLE.h:1320-1330);
 *   - `mergeItems` folds the new sighting into the held record, which is
 *     then copied back for display (BLE.h:1306-1307, BLE.h:1329-1331);
 *   - `store` leaves the names "[unpopulated]" for `populate` and the
 *     immediate lookups of `onResult` (BLE.h:196-211, BLE.h:1549-1565).
 * Nothing in the rest of the model depends on more than that.
 */
module BLECache {
  import opened Text

  /** Calendar time; a year up to 1970 means "not set yet". */
  datatype DateTime = DateTime(year: nat, month: nat, day: nat, hour: nat, minute: nat, second: nat)

  const EPOCH: DateTime := DateTime(1970, 1, 1, 0, 0, 0)

  /** The wall clock: `TimeIsSet` and `nowDateTime`. */
  datatype Clock = Clock(timeIsSet: bool, now: DateTime)

  datatype AddrType = Public | Random

  /** One sighting, keyed by its address; the empty address marks a free slot. */
  datatype Device = Device(
    address: string,
    addrType: AddrType,
    name: string,
    appearance: int,
    rssi: int,
    manufid: int,        // -1 when the advertisement carried no manufacturer data
    manufname: string,
    ouiname: string,
    uuid: string,
    createdAt: DateTime,
    updatedAt: DateTime,
    hits: nat,
    isAnonymous: bool,
    inDb: bool)

  /** What the radio driver reports for one advertisement. */
  datatype Advert = Advert(
    address: string,
    addrType: AddrType,
    name: string,
    appearance: int,
    rssi: int,
    manufid: int,
    uuid: string)

  /** Marker the field helpers leave in a name that still needs a lookup. */
  const UNPOPULATED: string := "[unpopulated]"
  /** OUI name given to random addresses, for which an OUI lookup is meaningless. */
  const RANDOM_OUI: string := "[random]"

  predicate IsFree(d: Device) {
    IsEmpty(d.address)
  }

  /** `BLEDevHelper.reset`: the record becomes a free slot. */
  function Reset(): (d: Device)
    ensures IsFree(d)
    ensures !d.inDb && !d.isAnonymous && d.hits == 0
  {
    Device("", Public, "", 0, 0, -1, "", "", "", EPOCH, EPOCH, 0, false, false)
  }

  /** `BLEDevHelper.isAnonymous`: a random address, or no identifying field at all. */
  predicate IsAnonymous(d: Device) {
    d.addrType == Random
    || (IsEmpty(d.name) && IsEmpty(d.uuid) && d.appearance == 0 && d.manufid == -1)
  }

  /**
   * `BLEDevHelper.mergeItems(incoming, existing)`: incoming non-empty fields
   * overwrite; identity, counters, timestamps and flags stay those of the
   * existing record.
   */
  function Merge(incoming: Device, existing: Device): (m: Device)
    ensures m.address == existing.address && m.hits == existing.hits
    ensures m.createdAt == existing.createdAt && m.updatedAt == existing.updatedAt
    ensures m.inDb == existing.inDb && m.isAnonymous == existing.isAnonymous
    ensures m.name == (if IsEmpty(incoming.name) then existing.name else incoming.name)
  {
    existing.(
      name := if IsEmpty(incoming.name) then existing.name else incoming.name,
      appearance := if incoming.appearance == 0 then existing.appearance else incoming.appearance,
      rssi := incoming.rssi,
      manufid := if incoming.manufid == -1 then existing.manufid else incoming.manufid,
      manufname := if IsEmpty(incoming.manufname) then existing.manufname else incoming.manufname,
      ouiname := if IsEmpty(incoming.ouiname) then existing.ouiname else incoming.ouiname,
      uuid := if IsEmpty(incoming.uuid) then existing.uuid else incoming.uuid)
  }

  /** `BLEDevHelper.store`: a fresh record for an advertisement, names still to be looked up. */
  function StoreAdvert(adv: Advert, clock: Clock): (d: Device)
    ensures d.address == adv.address && d.addrType == adv.addrType && d.manufid == adv.manufid
    ensures d.manufname == UNPOPULATED
    ensures d.ouiname == (if adv.addrType == Random then RANDOM_OUI else UNPOPULATED)
  {
    Device(adv.address, adv.addrType, adv.name, adv.appearance, adv.rssi, adv.manufid,
           UNPOPULATED, if adv.addrType == Random then RANDOM_OUI else UNPOPULATED,
           adv.uuid, clock.now, clock.now, 0, false, false)
  }

  /** `BLEDevHelper.getNextCacheIndex`: the ring cursor advanced modulo the capacity. */
  function NextCacheIndex(cursor: nat, size: nat): (i: nat)
    requires size > 0
    ensures i < size
  {
    (cursor + 1) % size
  }

  /** The `created_at`/`updated_at` refresh applied to a re-sighted record. */
  function Touch(d: Device, clock: Clock): (t: Device)
    ensures !clock.timeIsSet ==> t == d
    ensures clock.timeIsSet ==> t.updatedAt == clock.now
    ensures clock.timeIsSet ==> t.createdAt == (if d.createdAt.year <= 1970 then clock.now else d.createdAt)
    ensures t.(createdAt := d.createdAt, updatedAt := d.updatedAt) == d
  {
    if !clock.timeIsSet then d
    else d.(createdAt := if d.createdAt.year <= 1970 then clock.now else d.createdAt,
            updatedAt := clock.now)
  }

  /** A canonical MAC address `xx:xx:xx:xx:xx:xx`. */
  predicate IsMacAddress(a: string) {
    |a| == 17 && forall i :: 0 <= i < |a| ==> (a[i] == ':' <==> i % 3 == 2)
  }
}

=== FILE: db.dfy ===
/**
 * The collector store of DB.h: health flags and SQL error classification,
 * the `blemacs` table of one day's database file with insert, delete,
 * delete-then-insert update and replication of the device ring, the
 * existence query that loads a returning device, the dated file naming,
 * the reference-file size check and `clean`.
 *
 * The SQL engine and the file system are one abstract `Disk`: files with
 * their sizes, the `blemacs` rows of each database file (keyed by file
 * system path, in insertion order), and the outcome every statement gets
 * from the engine.  SQL text is modelled only as far as quote escaping.
 */
module DB {
  import opened Text
  import opened Engine
  import opened Settings
  import opened BLECache
  import opened Lookup

  // ----- health flags and error classification -----

  /** `isOOM`, `isCorrupt`, `needsPruning`, `needsReset`, `needsRestart`,
      `DBneedsReplication` and the clock triggers the store reacts to. */
  datatype Flags = Flags(
    isOOM: bool,
    isCorrupt: bool,
    needsPruning: bool,
    needsReset: bool,
    needsRestart: bool,
    needsReplication: bool,
    hourChange: bool,
    dayChange: bool,
    forceBleTime: bool)

  const MALFORMED: string := "database disk image is malformed"
  const NOT_A_DATABASE: string := "file is not a database"
  const NO_SUCH_TABLE: string := "no such table: blemacs"
  const OUT_OF_MEMORY: string := "out of memory"
  const DISK_IO_ERROR: string := "disk I/O error"
  const NO_SUCH_COLUMN: string := "no such column"

  /** None of the recognised messages is a substring of "no such column". */
  lemma KnownMessagesNotInColumnText()
    ensures !Contains(NO_SUCH_COLUMN, MALFORMED) && !Contains(NO_SUCH_COLUMN, NOT_A_DATABASE)
    ensures !Contains(NO_SUCH_COLUMN, NO_SUCH_TABLE) && !Contains(NO_SUCH_COLUMN, DISK_IO_ERROR)
    ensures !Contains(NO_SUCH_COLUMN, OUT_OF_MEMORY)
  {
    assert NO_SUCH_COLUMN[0..13][0] != OUT_OF_MEMORY[0];
    assert NO_SUCH_COLUMN[1..14][1] != OUT_OF_MEMORY[1];
    assert NO_SUCH_COLUMN[0..14][0] != DISK_IO_ERROR[0];
  }

  /** The recognised messages are pairwise different. */
  lemma KnownMessagesDistinct()
    ensures MALFORMED != NOT_A_DATABASE && MALFORMED != NO_SUCH_TABLE && MALFORMED != OUT_OF_MEMORY
    ensures MALFORMED != DISK_IO_ERROR && NOT_A_DATABASE != OUT_OF_MEMORY && NOT_A_DATABASE != DISK_IO_ERROR
    ensures NO_SUCH_TABLE != OUT_OF_MEMORY && NO_SUCH_TABLE != DISK_IO_ERROR && OUT_OF_MEMORY != DISK_IO_ERROR
    ensures NOT_A_DATABASE != NO_SUCH_TABLE
  {
    assert NOT_A_DATABASE[1] != NO_SUCH_TABLE[1];
  }

  /** Which health flag a SQL error message raises, if any. */
  datatype ErrorKind = CorruptError | MemoryError | ResetError | OtherError

  /**
   * The message tests of `error`: a malformed image or an I/O error means
   * corruption, "out of memory" means OOM, a missing table means reset,
   * "file is not a database" raises nothing, and the column test is
   * `strstr("no such column", msg)`, so it fires for every message that is a
   * substring of that phrase.
   */
  function Classify(m: string): (k: ErrorKind)
    ensures k == CorruptError <==> m == MALFORMED || m == DISK_IO_ERROR
    ensures k == MemoryError <==> m == OUT_OF_MEMORY
    ensures k == ResetError <==> m == NO_SUCH_TABLE || Contains(NO_SUCH_COLUMN, m)
  {
    KnownMessagesNotInColumnText();
    KnownMessagesDistinct();
    if m == MALFORMED then CorruptError
    else if m == NOT_A_DATABASE then OtherError
    else if m == NO_SUCH_TABLE then ResetError
    else if m == OUT_OF_MEMORY then MemoryError
    else if m == DISK_IO_ERROR then CorruptError
    else if Contains(NO_SUCH_COLUMN, m) then ResetError
    else OtherError
  }

  /**
   * `error(zErrMsg)`: a NULL message marks the store corrupt and nothing
   * else; any other message clears both clock triggers and then sets the
   * one flag its class names.
   */
  function Error(f: Flags, msg: Option<string>): (g: Flags)
    ensures msg.None? ==> g == f.(isCorrupt := true)
    ensures msg.Some? ==> !g.hourChange && !g.dayChange
    ensures msg.Some? ==> (g.isCorrupt <==> f.isCorrupt || msg.value == MALFORMED || msg.value == DISK_IO_ERROR)
    ensures msg.Some? ==> (g.isOOM <==> f.isOOM || msg.value == OUT_OF_MEMORY)
    ensures msg.Some? ==> (g.needsReset <==> f.needsReset || msg.value == NO_SUCH_TABLE || Contains(NO_SUCH_COLUMN, msg.value))
    ensures g.needsPruning == f.needsPruning && g.needsRestart == f.needsRestart
    ensures g.needsReplication == f.needsReplication && g.forceBleTime == f.forceBleTime
  {
    match msg
    case None => f.(isCorrupt := true)
    case Some(m) =>
      var h := f.(hourChange := false, dayChange := false);
      match Classify(m)
      case CorruptError => h.(isCorrupt := true)
      case MemoryError => h.(isOOM := true)
      case ResetError => h.(needsReset := true)
      case OtherError => h
  }

  /** The flags after `DBExec` ran a statement: `error` runs only when it failed. */
  function AfterExec(f: Flags, status: ExecResult): (g: Flags)
    ensures status == ExecOk ==> g == f
    ensures status.ExecFailed? ==> g == Error(f, status.msg)
  {
    if status.ExecFailed? then Error(f, status.msg) else f
  }

  /** Reporting the same failure twice leaves the flags as reporting it once. */
  lemma ErrorIdempotent(f: Flags, msg: Option<string>)
    ensures Error(Error(f, msg), msg) == Error(f, msg)
  {
  }

  const NoFlags: Flags := Flags(false, false, false, false, false, false, false, false, false)

  /** From a clean state a message raises at most one of the three health flags. */
  lemma ErrorRaisesAtMostOne(msg: string)
    ensures var g := Error(NoFlags, Some(msg));
            (g.isCorrupt ==> !g.isOOM && !g.needsReset) && (g.isOOM ==> !g.needsReset)
  {
    KnownMessagesNotInColumnText();
  }

  /** "file is not a database" is recognised and deliberately raises nothing. */
  lemma NotADatabaseRaisesNothing(f: Flags)
    ensures Error(f, Some(NOT_A_DATABASE)) == f.(hourChange := false, dayChange := false)
  {
    KnownMessagesNotInColumnText();
  }

  /**
   * The reversed `strstr`: a real missing-column message does not ask for a
   * reset, while the empty message and any prefix of the phrase do.
   */
  lemma ColumnTestReversed()
    ensures !Error(NoFlags, Some("no such column: address")).needsReset
    ensures Error(NoFlags, Some("")).needsReset
    ensures Error(NoFlags, Some("no such")).needsReset
  {
    KnownMessagesNotInColumnText();
    assert OccursAt(NO_SUCH_COLUMN, "", 0);
    assert OccursAt(NO_SUCH_COLUMN, "no such", 0);
  }

  // ----- the abstract engine -----

  /** One `blemacs` row, columns in table order. */
  datatype Row = Row(
    appearance: int,
    name: string,
    address: string,
    ouiname: string,
    rssi: int,
    manufid: int,
    manufname: string,
    uuid: string,
    createdAt: DateTime,
    updatedAt: DateTime,
    hits: nat)

  /**
   * Files by path with their sizes; the `blemacs` rows of each database file
   * by path; the outcome the engine gives every statement; and whether
   * opening the collector database fails.
   */
  datatype Disk = Disk(
    files: map<string, nat>,
    tables: map<string, seq<Row>>,
    fault: ExecResult,
    openFails: bool)

  /** The rows of the table at `path`, none when it has no table. */
  function TableAt(d: Disk, path: string): seq<Row> {
    if path in d.tables then d.tables[path] else []
  }

  /** What a statement on the `blemacs` table of `path` gets from the engine. */
  function Status(d: Disk, path: string): (r: ExecResult)
    ensures d.fault.ExecFailed? ==> r == d.fault
    ensures d.fault == ExecOk ==> (r == ExecOk <==> path in d.tables)
    ensures d.fault == ExecOk && path !in d.tables ==> r == ExecFailed(Some(NO_SUCH_TABLE))
  {
    if d.fault.ExecFailed? then d.fault
    else if path !in d.tables then ExecFailed(Some(NO_SUCH_TABLE))
    else ExecOk
  }

  /** The store: flags, disk, clock, file system type, current paths and counters. */
  datatype Store = Store(
    flags: Flags,
    disk: Disk,
    clock: Clock,
    fsType: string,
    sqlitePath: string,
    fsPath: string,
    entries: nat,
    pruneTrigger: nat)

  function Rows(s: Store): seq<Row> {
    TableAt(s.disk, s.fsPath)
  }

  /** The engine answers every statement and the collector database opens. */
  predicate Healthy(s: Store) {
    s.disk.fault == ExecOk && !s.disk.openFails
  }

  /** Healthy, the day's table exists and the store is not out of memory. */
  predicate Writable(s: Store) {
    Healthy(s) && s.fsPath in s.disk.tables && !s.flags.isOOM
  }

  /**
   * What a run of `error` calls can do to the flags when every message came
   * from the engine: the maintenance requests stay, the clock triggers can
   * only be cleared, and while the engine itself reports no fault (only
   * "no such table") the out-of-memory and corruption flags stay too.
   */
  predicate ErrorsOnly(f: Flags, g: Flags, fault: ExecResult) {
    g.needsPruning == f.needsPruning && g.needsRestart == f.needsRestart
    && g.needsReplication == f.needsReplication && g.forceBleTime == f.forceBleTime
    && (g.hourChange ==> f.hourChange) && (g.dayChange ==> f.dayChange)
    && (f.needsReset ==> g.needsReset)
    && (fault == ExecOk ==> g.isOOM == f.isOOM && g.isCorrupt == f.isCorrupt)
  }

  /** Everything but the day's table and the flags is as it was. */
  ghost predicate Frame(s: Store, t: Store) {
    t.fsPath == s.fsPath && t.sqlitePath == s.sqlitePath && t.fsType == s.fsType
    && t.entries == s.entries && t.pruneTrigger == s.pruneTrigger && t.clock == s.clock
    && t.disk.files == s.disk.files && t.disk.fault == s.disk.fault && t.disk.openFails == s.disk.openFails
    && t.disk.tables.Keys == s.disk.tables.Keys
    && (forall p :: p != s.fsPath ==> TableAt(t.disk, p) == TableAt(s.disk, p))
  }

  /** The store after `DBExec` reported the failure the engine gives: `error` has classified it. */
  function Failed(s: Store): (t: Store)
    requires Status(s.disk, s.fsPath).ExecFailed?
    ensures t == s.(flags := Error(s.flags, Status(s.disk, s.fsPath).msg))
    ensures Frame(s, t) && Rows(t) == Rows(s)
    ensures ErrorsOnly(s.flags, t.flags, s.disk.fault)
  {
    s.(flags := Error(s.flags, Status(s.disk, s.fsPath).msg))
  }

  /** The store with the day's table replaced. */
  function WithRows(s: Store, rows: seq<Row>): (t: Store)
    requires s.fsPath in s.disk.tables
    ensures Rows(t) == rows && t.flags == s.flags && Frame(s, t)
  {
    s.(disk := s.disk.(tables := s.disk.tables[s.fsPath := rows]))
  }

  // ----- rows by address -----

  /** The rows whose address is `a`, in table order. */
  function Select(rows: seq<Row>, a: string): (r: seq<Row>)
    ensures forall x :: x in r <==> x in rows && x.address == a
    ensures |r| <= |rows|
  {
    if |rows| == 0 then []
    else (if rows[0].address == a then [rows[0]] else []) + Select(rows[1..], a)
  }

  /** `DELETE ... WHERE address=a`: the rows whose address is not `a`, in table order. */
  function Without(rows: seq<Row>, a: string): (r: seq<Row>)
    ensures forall x :: x in r <==> x in rows && x.address != a
    ensures |r| <= |rows|
  {
    if |rows| == 0 then []
    else (if rows[0].address != a then [rows[0]] else []) + Without(rows[1..], a)
  }

  lemma {:induction false} SelectAppend(rows: seq<Row>, more: seq<Row>, a: string)
    ensures Select(rows + more, a) == Select(rows, a) + Select(more, a)
  {
    if |rows| > 0 {
      assert (rows + more)[1..] == rows[1..] + more;
      SelectAppend(rows[1..], more, a);
    } else {
      assert rows + more == more;
    }
  }

  lemma {:induction false} SelectWithout(rows: seq<Row>, a: string)
    ensures Select(Without(rows, a), a) == []
  {
    if |rows| > 0 {
      SelectWithout(rows[1..], a);
      SelectAppend(if rows[0].address != a then [rows[0]] else [], Without(rows[1..], a), a);
    }
  }

  // ----- insertion -----

  /** `DBMessage` of DB.h. */
  datatype DBMessage =
    | TableCreationFailed
    | InsertionFailed
    | IncrementFailed
    | InsertionIgnored
    | DbIsOom
    | InsertionSuccess
    | IncrementSuccess

  /** The numeric values of `DBMessage`: failures negative, successes positive. */
  function Code(m: DBMessage): (c: int)
    ensures c < 0 <==> !(m == InsertionSuccess || m == IncrementSuccess)
    ensures -5 <= c <= 2 && c != 0
  {
    match m
    case TableCreationFailed => -1
    case InsertionFailed => -2
    case IncrementFailed => -3
    case InsertionIgnored => -4
    case DbIsOom => -5
    case InsertionSuccess => 1
    case IncrementSuccess => 2
  }

  /** The values of an INSERT statement; text columns are literal bodies. */
  datatype InsertStmt = InsertStmt(
    appearance: int,
    nameLit: string,
    address: string,
    ouinameLit: string,
    rssi: int,
    manufid: int,
    manufnameLit: string,
    uuidLit: string,
    createdAt: DateTime,
    updatedAt: DateTime,
    hits: nat)

  /**
   * The statement `insertBTDevice` formats: quotes doubled in the four free
   * text columns (the address is written as is), and one timestamp string,
   * made from `created_at`, used for both `created_at` and `updated_at`.
   */
  function BuildInsert(d: Device): (q: InsertStmt)
    ensures QuotesPaired(q.nameLit) && QuotesPaired(q.ouinameLit)
    ensures QuotesPaired(q.manufnameLit) && QuotesPaired(q.uuidLit)
    ensures q.updatedAt == d.createdAt && q.createdAt == d.createdAt
  {
    DoubleQuotesPaired(d.name);
    DoubleQuotesPaired(d.ouiname);
    DoubleQuotesPaired(d.manufname);
    DoubleQuotesPaired(d.uuid);
    InsertStmt(d.appearance, DoubleQuotes(d.name), d.address, DoubleQuotes(d.ouiname), d.rssi, d.manufid,
               DoubleQuotes(d.manufname), DoubleQuotes(d.uuid), d.createdAt, d.createdAt, d.hits)
  }

  /** How the engine turns the statement into a row: `''` in a literal reads as `'`. */
  function ExecInsert(q: InsertStmt): Row {
    Row(q.appearance, UnescapeQuotes(q.nameLit), q.address, UnescapeQuotes(q.ouinameLit), q.rssi, q.manufid,
        UnescapeQuotes(q.manufnameLit), UnescapeQuotes(q.uuidLit), q.createdAt, q.updatedAt, q.hits)
  }

  /**
   * The row a device is meant to become: every column from the record, but
   * `updated_at` from `created_at` as the statement is written.
   */
  function StoredRow(d: Device): Row {
    Row(d.appearance, d.name, d.address, d.ouiname, d.rssi, d.manufid, d.manufname, d.uuid,
        d.createdAt, d.createdAt, d.hits)
  }

  /** Escaping round trip: the engine stores exactly the record's text. */
  lemma InsertRoundTrip(d: Device)
    ensures ExecInsert(BuildInsert(d)) == StoredRow(d)
    ensures ExecInsert(BuildInsert(d)).updatedAt == d.createdAt
  {
    UnescapeDoubleQuotes(d.name);
    UnescapeDoubleQuotes(d.ouiname);
    UnescapeDoubleQuotes(d.manufname);
    UnescapeDoubleQuotes(d.uuid);
  }

  /** A record with no appearance and no text is never inserted. */
  predicate IsBlank(d: Device) {
    d.appearance == 0 && IsEmpty(d.name) && IsEmpty(d.uuid) && IsEmpty(d.ouiname) && IsEmpty(d.manufname)
  }

  datatype Inserted = Inserted(store: Store, device: Device, msg: DBMessage)

  /**
   * `insertBTDevice`: refused while out of memory, ignored for a blank
   * record, failed without touching the record when the database does not
   * open, and otherwise one INSERT whose outcome decides `in_db`.
   */
  function InsertBTDevice(s: Store, d: Device): (r: Inserted)
    ensures r.msg == DbIsOom <==> s.flags.isOOM
    ensures r.msg == InsertionIgnored <==> !s.flags.isOOM && IsBlank(d)
    ensures r.msg == InsertionSuccess <==> Writable(s) && !IsBlank(d)
    ensures r.msg == InsertionSuccess ==> Rows(r.store) == Rows(s) + [StoredRow(d)]
    ensures r.msg != InsertionSuccess ==> r.store.disk == s.disk
    ensures r.device == d.(inDb := r.device.inDb)
    ensures r.msg == InsertionSuccess ==> r.device.inDb
    ensures r.msg == InsertionFailed && !s.disk.openFails ==> Status(s.disk, s.fsPath).ExecFailed?
    ensures r.msg == InsertionFailed && !s.disk.openFails ==> !r.device.inDb && r.store == Failed(s)
    ensures r.msg != InsertionFailed || s.disk.openFails ==>
              r.device.inDb == (d.inDb || r.msg == InsertionSuccess) && r.store.flags == s.flags
  {
    if s.flags.isOOM then Inserted(s, d, DbIsOom)
    else if IsBlank(d) then Inserted(s, d, InsertionIgnored)
    else if s.disk.openFails then Inserted(s, d, InsertionFailed)
    else ExecInsertStmt(s, d)
  }

  /** An insertion leaves the other tables, the paths and the counters alone and can only record an error. */
  lemma InsertFrame(s: Store, d: Device)
    ensures Frame(s, InsertBTDevice(s, d).store)
    ensures ErrorsOnly(s.flags, InsertBTDevice(s, d).store.flags, s.disk.fault)
  {
  }

  /** The INSERT itself, once the database opened. */
  function ExecInsertStmt(s: Store, d: Device): (r: Inserted)
    requires !s.flags.isOOM && !s.disk.openFails
    ensures r.msg == InsertionSuccess || r.msg == InsertionFailed
    ensures r.msg == InsertionSuccess <==> Status(s.disk, s.fsPath) == ExecOk
    ensures r.msg == InsertionSuccess ==>
              r.store == WithRows(s, Rows(s) + [StoredRow(d)]) && r.device == d.(inDb := true)
    ensures r.msg == InsertionFailed ==> r.store == Failed(s) && r.device == d.(inDb := false)
  {
    match Status(s.disk, s.fsPath)
    case ExecFailed(_) => Inserted(Failed(s), d.(inDb := false), InsertionFailed)
    case ExecOk =>
      InsertRoundTrip(d);
      Inserted(WithRows(s, Rows(s) + [ExecInsert(BuildInsert(d))]), d.(inDb := true), InsertionSuccess)
  }

  /** `deleteBLEDevice`: one DELETE by address; a failure goes through `error`. */
  function DeleteBLEDevice(s: Store, a: string): (t: Store)
    ensures Status(s.disk, s.fsPath) == ExecOk ==> Rows(t) == Without(Rows(s), a) && t.flags == s.flags
    ensures Status(s.disk, s.fsPath) != ExecOk ==> t == Failed(s)
    ensures ErrorsOnly(s.flags, t.flags, s.disk.fault)
    ensures Frame(s, t)
  {
    match Status(s.disk, s.fsPath)
    case ExecFailed(_) => Failed(s)
    case ExecOk => WithRows(s, Without(Rows(s), a))
  }

  datatype Updated = Updated(store: Store, device: Device)

  /** `updateItemFromCache`: not an UPDATE but a delete by address and a re-insert. */
  function UpdateItemFromCache(s: Store, d: Device): (r: Updated)
    ensures ErrorsOnly(s.flags, r.store.flags, s.disk.fault)
    ensures r.device == d.(inDb := r.device.inDb)
    ensures Frame(s, r.store)
    ensures forall x :: x in Rows(r.store) ==> x in Rows(s) || x == StoredRow(d)
    ensures Writable(s) ==> Writable(r.store) && r.store.flags == s.flags
    ensures Writable(s) && !IsBlank(d) ==>
              Rows(r.store) == Without(Rows(s), d.address) + [StoredRow(d)] && r.device.inDb
    ensures Writable(s) && IsBlank(d) ==> Rows(r.store) == Without(Rows(s), d.address)
  {
    var s1 := DeleteBLEDevice(s, d.address);
    var ins := InsertBTDevice(s1, d);
    Updated(ins.store, ins.device)
  }

  /** After an update on a writable store the device's address has exactly one row, its own. */
  lemma UpdateLeavesOneRow(s: Store, d: Device)
    requires Writable(s) && !IsBlank(d)
    ensures Select(Rows(UpdateItemFromCache(s, d).store), d.address) == [StoredRow(d)]
  {
    SelectAppend(Without(Rows(s), d.address), [StoredRow(d)], d.address);
    SelectWithout(Rows(s), d.address);
  }

  // ----- replication of the device ring -----

  /** How replication leaves one ring slot. */
  predicate SlotAfterReplication(before: Device, after: Device, resetAfter: bool) {
    if IsFree(before) then after == before
    else if resetAfter then after == Reset()
    else if before.isAnonymous then after == before
    else after == before.(inDb := after.inDb)
  }

  /** A ring slot replication writes: occupied and not anonymous. */
  predicate Replicated(d: Device) {
    !IsFree(d) && !d.isAnonymous
  }

  datatype Replication = Replication(store: Store, ring: seq<Device>)

  /** One slot of `updateDBFromCache`. */
  function ReplicateSlot(s: Store, d: Device, resetAfter: bool): (r: Replication)
    ensures ErrorsOnly(s.flags, r.store.flags, s.disk.fault)
    ensures |r.ring| == 1 && SlotAfterReplication(d, r.ring[0], resetAfter)
    ensures !Replicated(d) ==> r.store == s
    ensures Frame(s, r.store)
    ensures forall x :: x in Rows(r.store) ==> x in Rows(s) || (Replicated(d) && x == StoredRow(d))
    ensures Writable(s) ==> Writable(r.store) && r.store.flags == s.flags
    ensures Writable(s) && Replicated(d) && !IsBlank(d) ==>
              Rows(r.store) == Without(Rows(s), d.address) + [StoredRow(d)]
    ensures Writable(s) && Replicated(d) && IsBlank(d) ==> Rows(r.store) == Without(Rows(s), d.address)
  {
    if IsFree(d) then Replication(s, [d])
    else if d.isAnonymous then Replication(s, [if resetAfter then Reset() else d])
    else
      var u := UpdateItemFromCache(s, d);
      Replication(u.store, [if resetAfter then Reset() else u.device])
  }

  /**
   * `updateDBFromCache(ring, _, resetAfter)`: free slots are skipped,
   * anonymous slots are never written (only reset when `resetAfter`), every
   * other slot is delete-then-inserted and reset when `resetAfter`.
   */
  function Replicate(s: Store, ring: seq<Device>, resetAfter: bool): (r: Replication)
    ensures ErrorsOnly(s.flags, r.store.flags, s.disk.fault)
    ensures |r.ring| == |ring|
    ensures forall i :: 0 <= i < |ring| ==> SlotAfterReplication(ring[i], r.ring[i], resetAfter)
    ensures Frame(s, r.store)
    ensures forall x :: x in Rows(r.store) ==>
              x in Rows(s) || exists i :: 0 <= i < |ring| && Replicated(ring[i]) && x == StoredRow(ring[i])
    decreases |ring|
  {
    if |ring| == 0 then Replication(s, [])
    else
      var first := ReplicateSlot(s, ring[0], resetAfter);
      var rest := Replicate(first.store, ring[1..], resetAfter);
      assert forall i :: 1 <= i < |ring| ==> ring[1..][i - 1] == ring[i];
      Replication(rest.store, first.ring + rest.ring)
  }

  /** Occupied ring slots hold distinct addresses. */
  predicate DistinctAddresses(ring: seq<Device>) {
    forall i, j :: 0 <= i < j < |ring| && !IsFree(ring[i]) ==> ring[i].address != ring[j].address
  }

  /**
   * On a writable store, replicating a ring whose occupied slots have
   * distinct addresses keeps the flags and leaves a row for every
   * replicated slot that is not blank.
   */
  lemma {:induction false} ReplicatePersists(s: Store, ring: seq<Device>, resetAfter: bool)
    requires Writable(s) && DistinctAddresses(ring)
    ensures var r := Replicate(s, ring, resetAfter);
            Writable(r.store) && r.store.flags == s.flags
            && forall i :: 0 <= i < |ring| && Replicated(ring[i]) && !IsBlank(ring[i]) ==>
                 Select(Rows(r.store), ring[i].address) != []
    decreases |ring|
  {
    if |ring| > 0 {
      var first := ReplicateSlot(s, ring[0], resetAfter);
      var r := Replicate(s, ring, resetAfter);
      var rest := ring[1..];
      DistinctTail(ring);
      ReplicatePersists(first.store, rest, resetAfter);
      assert r.store == Replicate(first.store, rest, resetAfter).store;
      forall i | 0 <= i < |ring| && Replicated(ring[i]) && !IsBlank(ring[i])
        ensures Select(Rows(r.store), ring[i].address) != []
      {
        if i > 0 {
          assert rest[i - 1] == ring[i];
        } else {
          FirstSlotPersists(s, ring, resetAfter);
        }
      }
    }
  }

  /** The tail of a ring with distinct addresses has them too, and none equals an occupied head's. */
  lemma DistinctTail(ring: seq<Device>)
    requires DistinctAddresses(ring) && |ring| > 0
    ensures DistinctAddresses(ring[1..])
    ensures !IsFree(ring[0]) ==> forall k :: 0 <= k < |ring| - 1 ==> ring[1..][k].address != ring[0].address
  {
    var rest := ring[1..];
    forall i, j | 0 <= i < j < |rest| && !IsFree(rest[i])
      ensures rest[i].address != rest[j].address
    {
      assert rest[i] == ring[i + 1] && rest[j] == ring[j + 1];
    }
    if !IsFree(ring[0]) {
      forall k | 0 <= k < |rest|
        ensures rest[k].address != ring[0].address
      {
        assert rest[k] == ring[k + 1];
      }
    }
  }

  /** The head slot's row, written first, survives the rest of the replication. */
  lemma FirstSlotPersists(s: Store, ring: seq<Device>, resetAfter: bool)
    requires Writable(s) && DistinctAddresses(ring) && |ring| > 0
    requires Replicated(ring[0]) && !IsBlank(ring[0])
    ensures Select(Rows(Replicate(s, ring, resetAfter).store), ring[0].address) != []
  {
    var d := ring[0];
    var first := ReplicateSlot(s, d, resetAfter);
    assert StoredRow(d) in Rows(first.store);
    assert StoredRow(d) in Select(Rows(first.store), d.address);
    DistinctTail(ring);
    ReplicateKeepsAddress(first.store, ring[1..], resetAfter, d.address);
  }

  /** On a writable store, replicating slots with other addresses keeps every row of `a`. */
  lemma {:induction false} ReplicateKeepsAddress(s: Store, ring: seq<Device>, resetAfter: bool, a: string)
    requires Writable(s) && Select(Rows(s), a) != []
    requires forall k :: 0 <= k < |ring| ==> ring[k].address != a
    ensures Select(Rows(Replicate(s, ring, resetAfter).store), a) != []
    decreases |ring|
  {
    if |ring| > 0 {
      var d := ring[0];
      var first := ReplicateSlot(s, d, resetAfter);
      if Replicated(d) {
        var x := Select(Rows(s), a)[0];
        assert x in Without(Rows(s), d.address);
        assert x in Rows(first.store);
        assert x in Select(Rows(first.store), a);
      }
      var rest := ring[1..];
      assert forall k :: 0 <= k < |rest| ==> rest[k] == ring[k + 1];
      ReplicateKeepsAddress(first.store, rest, resetAfter, a);
    }
  }

  // ----- existence query -----

  /** `BLEDevDBCacheCallback` for one row: a reset holder filled from the columns. */
  function LoadRow(x: Row): (d: Device)
    ensures d.inDb && !d.isAnonymous
    ensures d.address == x.address && d.name == x.name && d.hits == x.hits
    ensures d.createdAt == x.createdAt && d.updatedAt == x.updatedAt
  {
    Reset().(appearance := x.appearance, name := x.name, address := x.address, ouiname := x.ouiname,
             rssi := x.rssi, manufid := x.manufid, manufname := x.manufname, uuid := x.uuid,
             createdAt := x.createdAt, updatedAt := x.updatedAt, hits := x.hits,
             inDb := true, isAnonymous := false)
  }

  /**
   * The callback over a result set: `results` counts every row, only the
   * row that makes it 1 is loaded into the holder, later ones are ignored.
   */
  function LoadRows(holder: Device, rows: seq<Row>, results: nat): (r: Device)
    ensures results == 0 && |rows| > 0 ==> r == LoadRow(rows[0])
    ensures results > 0 || |rows| == 0 ==> r == holder
    decreases |rows|
  {
    if |rows| == 0 then holder
    else
      var results' := results + 1;
      var holder' := if results' < 2 then LoadRow(rows[0]) else holder;
      LoadRows(holder', rows[1..], results')
  }

  /** Loading back an inserted record gives the record's fields, `updated_at` excepted. */
  lemma LoadStoredRow(d: Device)
    ensures var l := LoadRow(StoredRow(d));
            l.address == d.address && l.name == d.name && l.ouiname == d.ouiname
            && l.manufname == d.manufname && l.uuid == d.uuid && l.manufid == d.manufid
            && l.appearance == d.appearance && l.rssi == d.rssi && l.hits == d.hits
            && l.createdAt == d.createdAt && l.updatedAt == d.createdAt && l.inDb
  {
  }

  datatype Existence = Existence(store: Store, index: int, holder: Device)

  /** The requests `deviceExists` refuses to run. */
  predicate InvalidAddress(a: string) {
    IsEmpty(a) || |a| > MAC_LEN + 1 || |a| < 17 || a[0] == 3 as char
  }

  /**
   * `deviceExists(address)`: -1 with no query for an invalid address, -2
   * when the query fails, otherwise the ring cursor `cursor` when some row
   * matched (the first one is then in the holder) and -1 when none did.
   */
  function DeviceExists(s: Store, a: string, cursor: nat, holder: Device): (r: Existence)
    ensures InvalidAddress(a) ==> r == Existence(s, -1, holder)
    ensures !InvalidAddress(a) && Status(s.disk, s.fsPath).ExecFailed? ==>
              r == Existence(Failed(s), -2, holder)
    ensures !InvalidAddress(a) && Status(s.disk, s.fsPath) == ExecOk ==>
              r.store == s
              && (r.index >= 0 <==> Select(Rows(s), a) != [])
              && (r.index >= 0 ==> r.index == cursor && r.holder == LoadRow(Select(Rows(s), a)[0]))
              && (r.index < 0 ==> r.index == -1 && r.holder == holder)
  {
    if InvalidAddress(a) then Existence(s, -1, holder)
    else match Status(s.disk, s.fsPath)
      case ExecFailed(_) => Existence(Failed(s), -2, holder)
      case ExecOk =>
        var found := Select(Rows(s), a);
        Existence(s, if |found| > 0 then cursor else -1, LoadRows(holder, found, 0))
  }

  /** Inserted then queried on a writable store, a device comes back from its own row. */
  lemma InsertedDeviceExists(s: Store, d: Device, cursor: nat, holder: Device)
    requires Writable(s) && !IsBlank(d) && !InvalidAddress(d.address)
    requires Select(Rows(s), d.address) == []
    ensures var t := InsertBTDevice(s, d).store;
            var e := DeviceExists(t, d.address, cursor, holder);
            e.index == cursor && e.holder == LoadRow(StoredRow(d))
  {
    SelectAppend(Rows(s), [StoredRow(d)], d.address);
  }

  // ----- file naming -----

  function Digit(n: nat): (c: char)
    requires n < 10
    ensures '0' <= c <= '9'
  {
    "0123456789"[n]
  }

  /** Decimal digits of `n`, no leading zero. */
  function Dec(n: nat): (s: string)
    ensures |s| >= 1
    ensures forall i :: 0 <= i < |s| ==> '0' <= s[i] <= '9'
    decreases n
  {
    if n < 10 then [Digit(n)] else Dec(n / 10) + [Digit(n % 10)]
  }

  /** `%0wd`: zero padded to at least `w` digits. */
  function PadDec(n: nat, w: nat): (s: string)
    ensures |s| >= w && |s| >= 1
    ensures forall i :: 0 <= i < |s| ==> '0' <= s[i] <= '9'
  {
    var d := Dec(n);
    if |d| >= w then d else seq(w - |d|, _ => '0') + d
  }

  /** The value of a digit string (reading back `%d`). */
  function ParseDec(s: string): nat
    requires forall i :: 0 <= i < |s| ==> '0' <= s[i] <= '9'
  {
    if |s| == 0 then 0 else 10 * ParseDec(s[..|s| - 1]) + (s[|s| - 1] as int - '0' as int)
  }

  lemma {:induction false} ParseDec_Dec(n: nat)
    ensures ParseDec(Dec(n)) == n
    decreases n
  {
    var s := Dec(n);
    DigitValue(n % 10);
    if n >= 10 {
      ParseDec_Dec(n / 10);
      assert s[..|s| - 1] == Dec(n / 10);
      assert n == 10 * (n / 10) + n % 10;
    }
  }

  lemma DigitValue(k: nat)
    requires k < 10
    ensures Digit(k) as int - '0' as int == k
  {
    if k < 5 {
      if k == 0 {} else if k == 1 {} else if k == 2 {} else if k == 3 {} else {}
    } else {
      if k == 5 {} else if k == 6 {} else if k == 7 {} else if k == 8 {} else {}
    }
  }

  lemma {:induction false} ParseDecLeadingZeros(z: nat, s: string)
    requires forall i :: 0 <= i < |s| ==> '0' <= s[i] <= '9'
    ensures ParseDec(seq(z, _ => '0') + s) == ParseDec(s)
    decreases |s|, z
  {
    var t := seq(z, _ => '0') + s;
    if |s| > 0 {
      assert t[..|t| - 1] == seq(z, _ => '0') + s[..|s| - 1];
      ParseDecLeadingZeros(z, s[..|s| - 1]);
    } else if z > 0 {
      assert t[..|t| - 1] == seq(z - 1, _ => '0') + s;
      ParseDecLeadingZeros(z - 1, s);
    }
  }

  /** Reading back the padded number gives the number. */
  lemma ParsePadDec(n: nat, w: nat)
    ensures ParseDec(PadDec(n, w)) == n
  {
    ParseDec_Dec(n);
    var d := Dec(n);
    if |d| < w {
      ParseDecLeadingZeros(w - |d|, d);
    }
  }

  lemma DecLength(n: nat)
    ensures n < 10 ==> |Dec(n)| == 1
    ensures n < 100 ==> |Dec(n)| <= 2
    ensures n < 10000 ==> |Dec(n)| <= 4
  {
    if n >= 10 {
      DecLength(n / 10);
    }
  }

  /** The file system path of a day's database, `/ble-YYYY-MM-DD.db`. */
  function DatedPath(t: DateTime): string {
    "/ble-" + PadDec(t.year, 4) + "-" + PadDec(t.month, 2) + "-" + PadDec(t.day, 2) + ".db"
  }

  const UNDATED_PATH: string := "/blemacs.db"

  datatype Paths = Paths(sqlitePath: string, fsPath: string)

  /**
   * `setBLEDBPath`: with the time set, a file per calendar day, otherwise the
   * undated default; the engine's path is always the file system path below
   * the `/<fs type>` mount point.
   */
  function SetBLEDBPath(c: Clock, fsType: string): (p: Paths)
    ensures p.sqlitePath == "/" + fsType + p.fsPath
    ensures c.timeIsSet ==> p.fsPath == DatedPath(c.now)
    ensures !c.timeIsSet ==> p.fsPath == UNDATED_PATH
  {
    var fs := if c.timeIsSet then DatedPath(c.now) else UNDATED_PATH;
    Paths("/" + fsType + fs, fs)
  }

  predicate ShortDate(t: DateTime) {
    t.year < 10000 && t.month < 100 && t.day < 100
  }

  lemma PadDecWidth(n: nat, w: nat)
    requires (w == 4 && n < 10000) || (w == 2 && n < 100)
    ensures |PadDec(n, w)| == w
  {
    DecLength(n);
  }

  /** Two days share a database file only when they are the same calendar day. */
  lemma DatedPathInjective(a: DateTime, b: DateTime)
    requires ShortDate(a) && ShortDate(b)
    requires DatedPath(a) == DatedPath(b)
    ensures a.year == b.year && a.month == b.month && a.day == b.day
  {
    PadDecWidth(a.year, 4); PadDecWidth(b.year, 4);
    PadDecWidth(a.month, 2); PadDecWidth(b.month, 2);
    PadDecWidth(a.day, 2); PadDecWidth(b.day, 2);
    var p := DatedPath(a);
    assert p[5..9] == PadDec(a.year, 4);
    assert DatedPath(b)[5..9] == PadDec(b.year, 4);
    assert p[10..12] == PadDec(a.month, 2);
    assert DatedPath(b)[10..12] == PadDec(b.month, 2);
    assert p[13..15] == PadDec(a.day, 2);
    assert DatedPath(b)[13..15] == PadDec(b.day, 2);
    ParsePadDec(a.year, 4); ParsePadDec(b.year, 4);
    ParsePadDec(a.month, 2); ParsePadDec(b.month, 2);
    ParsePadDec(a.day, 2); ParsePadDec(b.day, 2);
  }

  /** A dated file never collides with the undated default. */
  lemma DatedPathNotUndated(t: DateTime)
    ensures DatedPath(t) != UNDATED_PATH
  {
    assert DatedPath(t)[1] == 'b' && DatedPath(t)[2] == 'l' && DatedPath(t)[3] == 'e';
    assert DatedPath(t)[4] == '-';
    assert UNDATED_PATH[4] == 'm';
  }

  // ----- reference files -----

  const OUI_DB_PATH: string := "/mac-oui-light.db"
  const VENDOR_DB_PATH: string := "/ble-oui.db"
  const OUI_DB_SIZE: nat := 933888
  const VENDOR_DB_SIZE: nat := 73728

  /** `checkFile`: the file exists and has exactly the expected size. */
  function CheckFile(files: map<string, nat>, name: string, expected: nat): (ok: bool)
    ensures ok ==> name in files && files[name] == expected
    ensures !ok ==> name !in files || files[name] != expected
  {
    name in files && files[name] == expected
  }

  /** `checkDBFiles`: both reference databases check out. */
  function CheckDBFiles(files: map<string, nat>): (ok: bool)
    ensures ok <==> OUI_DB_PATH in files && files[OUI_DB_PATH] == OUI_DB_SIZE
                    && VENDOR_DB_PATH in files && files[VENDOR_DB_PATH] == VENDOR_DB_SIZE
  {
    var ouiOk := CheckFile(files, OUI_DB_PATH, OUI_DB_SIZE);
    var vendorOk := CheckFile(files, VENDOR_DB_PATH, VENDOR_DB_SIZE);
    ouiOk && vendorOk
  }

  /** Creating, resizing or removing another file does not change what `checkFile` says about `name`. */
  lemma CheckFileOtherFile(files: map<string, nat>, other: string, size: nat, name: string, expected: nat)
    requires other != name
    ensures CheckFile(files[other := size], name, expected) == CheckFile(files, name, expected)
    ensures CheckFile(files - {other}, name, expected) == CheckFile(files, name, expected)
  {
  }

  /** Neither reference database is at `path`. */
  predicate NotReference(path: string) {
    path != OUI_DB_PATH && path != VENDOR_DB_PATH
  }

  /** `checkDBFiles` depends only on the two reference files. */
  lemma CheckDBFilesOtherFile(files: map<string, nat>, other: string, size: nat)
    requires NotReference(other)
    ensures CheckDBFiles(files[other := size]) == CheckDBFiles(files)
    ensures CheckDBFiles(files - {other}) == CheckDBFiles(files)
  {
    CheckFileOtherFile(files, other, size, OUI_DB_PATH, OUI_DB_SIZE);
    CheckFileOtherFile(files, other, size, VENDOR_DB_PATH, VENDOR_DB_SIZE);
  }

  /** No path `setBLEDBPath` chooses for the collector is a reference database. */
  lemma CollectorPathNotReference(c: Clock, fsType: string)
    ensures NotReference(SetBLEDBPath(c, fsType).fsPath)
  {
    var p := SetBLEDBPath(c, fsType).fsPath;
    if c.timeIsSet {
      var year := PadDec(c.now.year, 4);
      assert p[1] == 'b' && p[5] == year[0];
      assert OUI_DB_PATH[1] == 'm' && VENDOR_DB_PATH[5] == 'o';
    } else {
      assert p[2] == 'l' && OUI_DB_PATH[2] == 'a' && VENDOR_DB_PATH[2] == 'l';
      assert p[4] == 'm' && VENDOR_DB_PATH[4] == '-';
    }
  }

  // ----- clean -----

  /** The reference for `clean`: each `needle` replaced by `replaceWith`. */
  function Replaced(h: string, needle: char, replaceWith: char): (r: string)
    ensures |r| == |h|
  {
    if |h| == 0 then "" else [if h[0] == needle then replaceWith else h[0]] + Replaced(h[1..], needle, replaceWith)
  }

  lemma {:induction false} ReplacedAt(h: string, needle: char, replaceWith: char, i: nat)
    requires i < |h|
    ensures Replaced(h, needle, replaceWith)[i] == if h[i] == needle then replaceWith else h[i]
    decreases i
  {
    if i > 0 {
      ReplacedAt(h[1..], needle, replaceWith, i - 1);
    }
  }

  /** `clean(haystack, needle, replacewith)`: replace in place, character by character. */
  method Clean(h: string, needle: char, replaceWith: char) returns (r: string)
    ensures r == Replaced(h, needle, replaceWith)
    ensures needle != replaceWith ==> needle !in r
  {
    r := h;
    if IsEmpty(h) {
      return;
    }
    var i := 0;
    while i < |h|
      invariant 0 <= i <= |h| && |r| == |h|
      invariant forall j :: 0 <= j < i ==> r[j] == if h[j] == needle then replaceWith else h[j]
      invariant forall j :: i <= j < |h| ==> r[j] == h[j]
    {
      if r[i] == needle {
        r := r[i := replaceWith];
      }
      i := i + 1;
    }
    forall j | 0 <= j < |h|
      ensures r[j] == Replaced(h, needle, replaceWith)[j]
    {
      ReplacedAt(h, needle, replaceWith, j);
    }
  }

  /** Cleaning twice is cleaning once. */
  lemma {:induction false} ReplacedIdempotent(h: string, needle: char, replaceWith: char)
    ensures Replaced(Replaced(h, needle, replaceWith), needle, replaceWith) == Replaced(h, needle, replaceWith)
  {
    var r := Replaced(h, needle, replaceWith);
    forall i | 0 <= i < |h|
      ensures Replaced(r, needle, replaceWith)[i] == r[i]
    {
      ReplacedAt(r, needle, replaceWith, i);
      ReplacedAt(h, needle, replaceWith, i);
    }
  }
}

=== FILE: engine.dfy ===
/**
 * The SQLite engine as the database layer sees it: every `sqlite3_exec`
 * either succeeds or fails with an error message, which SQLite may leave
 * NULL.  Both the collector database and the two reference databases
 * answer in these terms.
 */
module Engine {
  import opened Text

  /** The outcome the engine gives a statement; a failure may carry a NULL message. */
  datatype ExecResult = ExecOk | ExecFailed(msg: Option<string>)
}

=== FILE: lookup.dfy ===
/**
 * The two read-through name caches of the database layer: vendor name by
 * 16-bit manufacturer id and organisation name by MAC prefix (OUI).  Each
 * has a "heap" backend, a small ring whose cursor pre-increments modulo its
 * size and which falls back to the reference table on a miss, and a "psram"
 * backend, the whole reference table preloaded and searched linearly with a
 * per-entry hit counter.  The reference tables are abstract maps.
 */
module Lookup {
  import opened Text
  import opened Engine
  import opened Settings
  import opened BLECache

  const UNKNOWN_VENDOR: string := "[unknown]"
  const PRIVATE_OUI: string := "[private]"
  /** devid of a vendor heap slot that was never written. */
  const NO_DEVID: int := -1
  const U16_LIMIT: int := 0x1_0000

  // ----- heap backend -----

  datatype Slot<K> = Slot(key: K, value: string)

  /** A ring of slots; `cursor` is the slot the last miss wrote. */
  datatype HeapCache<K> = HeapCache(slots: seq<Slot<K>>, cursor: nat)

  predicate ValidHeap<K>(c: HeapCache<K>) {
    |c.slots| > 0 && c.cursor < |c.slots|
  }

  /** `VendorHeapCache` after warm-up: every slot devid -1 with an empty name. */
  function FreshVendorHeap(): (c: HeapCache<int>)
    ensures ValidHeap(c) && |c.slots| == VENDORCACHE_SIZE && c.cursor == 0
  {
    HeapCache(seq(VENDORCACHE_SIZE, _ => Slot(NO_DEVID, "")), 0)
  }

  /** `OuiHeapCache` after warm-up: every slot with an empty prefix and name. */
  function FreshOuiHeap(): (c: HeapCache<string>)
    ensures ValidHeap(c) && |c.slots| == OUICACHE_SIZE && c.cursor == 0
  {
    HeapCache(seq(OUICACHE_SIZE, _ => Slot("", "")), 0)
  }

  /** `vendorHeapExists`/`OUIHeapExists`: the first slot holding `key`, or -1. */
  function FindSlot<K(==)>(slots: seq<Slot<K>>, key: K, from: nat): (i: int)
    requires from <= |slots|
    ensures -1 <= i < |slots|
    ensures i == -1 <==> forall j :: from <= j < |slots| ==> slots[j].key != key
    ensures i >= 0 ==> from <= i && slots[i].key == key
    ensures i >= 0 ==> forall j :: from <= j < i ==> slots[j].key != key
    decreases |slots| - from
  {
    if from == |slots| then -1
    else if slots[from].key == key then from
    else FindSlot(slots, key, from + 1)
  }

  /** A reference table's answer for `key`: None when no row (or a NULL column). */
  function RefValue<K>(table: map<K, string>, key: K): Option<string> {
    if key in table then Some(table[key]) else None
  }

  /**
   * What a miss stores: a non-empty reference value cut to MAX_FIELD_LEN-1
   * characters with its quotes removed, otherwise the sentinel.
   */
  function MissValue(db: Option<string>, sentinel: string): (v: string)
    ensures db.Some? && db.value != "" ==> |v| <= MAX_FIELD_LEN - 1 && '\'' !in v
    ensures db.Some? && db.value != "" ==> v == RemoveChar(Truncate(db.value, MAX_FIELD_LEN), '\'')
    ensures (db.None? || db.value == "") ==> v == sentinel
  {
    if db.Some? && db.value != "" then RemoveChar(Truncate(db.value, MAX_FIELD_LEN), '\'')
    else sentinel
  }

  datatype HeapResult<K> = HeapResult(cache: HeapCache<K>, dest: string, hit: bool)

  predicate InSlots<K(==)>(slots: seq<Slot<K>>, key: K) {
    exists j :: 0 <= j < |slots| && slots[j].key == key
  }

  /**
   * `getHeapVendor`/`getHeapOUI`: a hit copies the first matching slot's
   * name without touching the reference table; a miss advances the cursor,
   * overwrites that one slot with the key and its `MissValue`, and returns
   * the stored name.
   */
  function HeapLookup<K(==)>(c: HeapCache<K>, key: K, ref: K -> Option<string>, sentinel: string): (r: HeapResult<K>)
    requires ValidHeap(c)
    ensures ValidHeap(r.cache) && |r.cache.slots| == |c.slots|
    ensures r.hit <==> InSlots(c.slots, key)
    ensures r.hit ==> r.cache == c
    ensures r.hit ==> exists i :: 0 <= i < |c.slots| && c.slots[i] == Slot(key, r.dest)
                                  && forall j :: 0 <= j < i ==> c.slots[j].key != key
    ensures !r.hit ==> r.cache.cursor == (c.cursor + 1) % |c.slots|
    ensures !r.hit ==> r.dest == MissValue(ref(key), sentinel)
    ensures !r.hit ==> r.cache.slots == c.slots[r.cache.cursor := Slot(key, r.dest)]
  {
    var i := FindSlot(c.slots, key, 0);
    if i >= 0 then
      HeapResult(c, c.slots[i].value, true)
    else
      var next := (c.cursor + 1) % |c.slots|;
      var v := MissValue(ref(key), sentinel);
      HeapResult(HeapCache(c.slots[next := Slot(key, v)], next), v, false)
  }

  /** An immediate repeat lookup of the same key is a hit with the same answer, sentinel included. */
  lemma {:induction false} RepeatLookupHits<K>(c: HeapCache<K>, key: K, ref: K -> Option<string>, ref': K -> Option<string>, sentinel: string)
    requires ValidHeap(c)
    ensures var r1 := HeapLookup(c, key, ref, sentinel);
            var r2 := HeapLookup(r1.cache, key, ref', sentinel);
            r2.hit && r2.dest == r1.dest && r2.cache == r1.cache
  {
    var r1 := HeapLookup(c, key, ref, sentinel);
    if !r1.hit {
      var s := r1.cache.slots;
      var p := r1.cache.cursor;
      assert s[p] == Slot(key, r1.dest);
      forall j | 0 <= j < |s| && j != p
        ensures s[j].key != key
      {
        assert s[j] == c.slots[j];
      }
      assert FindSlot(s, key, 0) == p;
    }
  }

  /** The first miss after warm-up lands in slot 1 and leaves every other slot empty. */
  lemma FirstVendorMiss(devid: int, ref: int -> Option<string>)
    requires 0 <= devid < U16_LIMIT
    ensures var r := HeapLookup(FreshVendorHeap(), devid, ref, UNKNOWN_VENDOR);
            !r.hit && r.cache.cursor == 1 && r.cache.slots[1] == Slot(devid, r.dest)
            && forall j :: 0 <= j < VENDORCACHE_SIZE && j != 1 ==> r.cache.slots[j] == Slot(NO_DEVID, "")
  {
    var c := FreshVendorHeap();
    assert !InSlots(c.slots, devid) by {
      forall j | 0 <= j < |c.slots| ensures c.slots[j].key != devid { assert c.slots[j].key == NO_DEVID; }
    }
  }

  /** A slot never written (devid -1) cannot match any 16-bit manufacturer id. */
  lemma UnusedVendorSlotNeverMatches(c: HeapCache<int>, devid: int, ref: int -> Option<string>)
    requires ValidHeap(c)
    requires 0 <= devid < U16_LIMIT
    ensures var r := HeapLookup(c, devid, ref, UNKNOWN_VENDOR);
            r.hit ==> exists i :: 0 <= i < |c.slots| && c.slots[i].key != NO_DEVID && c.slots[i].value == r.dest
  {
  }

  /** Applies a run of lookups in order. */
  function LookupAll<K(==)>(c: HeapCache<K>, keys: seq<K>, ref: K -> Option<string>, sentinel: string): (c': HeapCache<K>)
    requires ValidHeap(c)
    ensures ValidHeap(c') && |c'.slots| == |c.slots|
    decreases |keys|
  {
    if |keys| == 0 then c
    else LookupAll(HeapLookup(c, keys[0], ref, sentinel).cache, keys[1..], ref, sentinel)
  }

  predicate Distinct<K(==)>(keys: seq<K>) {
    forall i, j :: 0 <= i < j < |keys| ==> keys[i] != keys[j]
  }

  /**
   * State of a ring `c` after the first `i` of `keys` all missed, starting
   * from `c0` whose current slot holds `k`: the cursor moved `i` slots, each
   * slot is original or holds one of those keys, and `k` survives in its
   * home slot until the cursor has come all the way round.
   */
  predicate MissRunState<K(==)>(c0: HeapCache<K>, c: HeapCache<K>, keys: seq<K>, i: nat, k: K)
    requires ValidHeap(c0) && i <= |keys|
  {
    ValidHeap(c) && |c.slots| == |c0.slots|
    && c.cursor == Advance(c0.cursor, i, |c0.slots|)
    && (forall j :: 0 <= j < |c.slots| ==> c.slots[j] == c0.slots[j] || c.slots[j].key in keys[..i])
    && (i < |c0.slots| ==> c.slots[c0.cursor] == c0.slots[c0.cursor])
    && (i == |c0.slots| ==> !InSlots(c.slots, k))
  }

  /** The next key of a run of distinct keys absent from the start is absent from the ring. */
  lemma NextKeyAbsent<K>(c0: HeapCache<K>, c: HeapCache<K>, keys: seq<K>, i: nat, k: K)
    requires ValidHeap(c0) && i < |keys| && Distinct(keys)
    requires forall x :: x in keys ==> !InSlots(c0.slots, x)
    requires MissRunState(c0, c, keys, i, k)
    ensures !InSlots(c.slots, keys[i])
  {
    var x := keys[i];
    assert x !in keys[..i];
    assert !InSlots(c0.slots, x);
    forall j | 0 <= j < |c.slots|
      ensures c.slots[j].key != x
    {
      if c.slots[j] == c0.slots[j] {
        assert c0.slots[j].key != x;
      }
    }
  }

  /** Overwriting the slot after the cursor with a fresh key keeps the run state. */
  lemma MissRunWrite<K>(c0: HeapCache<K>, c: HeapCache<K>, c1: HeapCache<K>, keys: seq<K>, i: nat, k: K, v: string)
    requires ValidHeap(c0) && i < |keys| <= |c0.slots|
    requires c0.slots[c0.cursor].key == k
    requires forall j :: 0 <= j < |c0.slots| && j != c0.cursor ==> c0.slots[j].key != k
    requires forall x :: x in keys ==> x != k
    requires MissRunState(c0, c, keys, i, k)
    requires c1.cursor == (c.cursor + 1) % |c.slots|
    requires c1.slots == c.slots[c1.cursor := Slot(keys[i], v)]
    ensures MissRunState(c0, c1, keys, i + 1, k)
  {
    var n := |c0.slots|;
    assert keys[i] in keys;
    assert keys[..i + 1] == keys[..i] + [keys[i]];
    forall j | 0 <= j < n
      ensures c1.slots[j] == c0.slots[j] || c1.slots[j].key in keys[..i + 1]
    {
      if j != c1.cursor {
        assert c1.slots[j] == c.slots[j];
      }
    }
    AdvanceWithinTurn(c0.cursor, i + 1, n);
    if i + 1 == n {
      forall j | 0 <= j < n && j != c0.cursor
        ensures c.slots[j] == c0.slots[j] || c.slots[j].key != k
      {
        if c.slots[j] != c0.slots[j] {
          assert c.slots[j].key in keys;
        }
      }
      HomeOverwritten(c0, c, c1, keys[i], v, k);
    }
  }

  /** Once the cursor is back home, the last write removed `k` from the ring. */
  lemma HomeOverwritten<K>(c0: HeapCache<K>, c: HeapCache<K>, c1: HeapCache<K>, x: K, v: string, k: K)
    requires ValidHeap(c0) && ValidHeap(c) && |c.slots| == |c0.slots|
    requires forall j :: 0 <= j < |c0.slots| && j != c0.cursor ==> c0.slots[j].key != k
    requires x != k
    requires c1.cursor == c0.cursor
    requires c1.slots == c.slots[c1.cursor := Slot(x, v)]
    requires forall j :: 0 <= j < |c.slots| && j != c0.cursor ==> c.slots[j] == c0.slots[j] || c.slots[j].key != k
    ensures !InSlots(c1.slots, k)
  {
    forall j | 0 <= j < |c1.slots|
      ensures c1.slots[j].key != k
    {
      if j != c1.cursor {
        assert c1.slots[j] == c.slots[j];
      }
    }
  }

  /** One more miss keeps the run state. */
  lemma MissRunStep<K>(c0: HeapCache<K>, c: HeapCache<K>, keys: seq<K>, i: nat, k: K,
                       ref: K -> Option<string>, sentinel: string)
    requires ValidHeap(c0) && i < |keys| <= |c0.slots| && Distinct(keys)
    requires c0.slots[c0.cursor].key == k
    requires forall j :: 0 <= j < |c0.slots| && j != c0.cursor ==> c0.slots[j].key != k
    requires forall x :: x in keys ==> x != k && !InSlots(c0.slots, x)
    requires MissRunState(c0, c, keys, i, k)
    ensures MissRunState(c0, HeapLookup(c, keys[i], ref, sentinel).cache, keys, i + 1, k)
  {
    NextKeyAbsent(c0, c, keys, i, k);
    var r := HeapLookup(c, keys[i], ref, sentinel);
    assert keys[i] in keys;
    MissRunWrite(c0, c, r.cache, keys, i, k, r.dest);
  }

  lemma {:induction false} MissRun<K>(c0: HeapCache<K>, c: HeapCache<K>, keys: seq<K>, i: nat, k: K,
                                         ref: K -> Option<string>, sentinel: string)
    requires ValidHeap(c0) && i <= |keys| == |c0.slots| && Distinct(keys)
    requires c0.slots[c0.cursor].key == k
    requires forall j :: 0 <= j < |c0.slots| && j != c0.cursor ==> c0.slots[j].key != k
    requires forall x :: x in keys ==> x != k && !InSlots(c0.slots, x)
    requires MissRunState(c0, c, keys, i, k)
    ensures !InSlots(LookupAll(c, keys[i..], ref, sentinel).slots, k)
    decreases |keys| - i
  {
    if i < |keys| {
      MissRunStep(c0, c, keys, i, k, ref, sentinel);
      assert keys[i..][1..] == keys[i + 1..];
      MissRun(c0, HeapLookup(c, keys[i], ref, sentinel).cache, keys, i + 1, k, ref, sentinel);
    }
  }

  /** The ring position `t` cursor steps after `a`. */
  function Advance(a: nat, t: nat, n: nat): (p: nat)
    requires a < n
    ensures p < n
  {
    if t == 0 then a else NextPos(Advance(a, t - 1, n), n)
  }

  /** One cursor step: `(p + 1) % n` on a position of the ring. */
  function NextPos(p: nat, n: nat): (q: nat)
    requires p < n
    ensures q == if p + 1 == n then 0 else p + 1
  {
    (p + 1) % n
  }

  /** Within one turn of the ring, stepping is plain addition with one wrap. */
  lemma {:induction false} AdvanceWithinTurn(a: nat, t: nat, n: nat)
    requires a < n && t <= n
    ensures Advance(a, t, n) == if a + t < n then a + t else a + t - n
  {
    if t > 0 {
      AdvanceWithinTurn(a, t - 1, n);
    }
  }

  /**
   * Cyclic eviction: once a key has been stored, as many misses on other,
   * distinct keys as the ring has slots evict it, so looking it up again
   * goes back to the reference table.
   */
  lemma CyclicEviction<K>(c: HeapCache<K>, k: K, keys: seq<K>, ref: K -> Option<string>, sentinel: string)
    requires ValidHeap(c)
    requires c.slots[c.cursor].key == k
    requires forall j :: 0 <= j < |c.slots| && j != c.cursor ==> c.slots[j].key != k
    requires |keys| == |c.slots| && Distinct(keys)
    requires forall x :: x in keys ==> x != k && !InSlots(c.slots, x)
    ensures !HeapLookup(LookupAll(c, keys, ref, sentinel), k, ref, sentinel).hit
  {
    assert keys[0..] == keys;
    MissRun(c, c, keys, 0, k, ref, sentinel);
  }

  // ----- psram backend -----

  datatype PsramEntry<K> = PsramEntry(key: K, value: string, hits: nat)

  datatype PsramResult<K> = PsramResult(table: seq<PsramEntry<K>>, dest: string, hit: bool)

  /** Index of the first entry whose key the predicate accepts, or -1. */
  function FirstEntry<K>(t: seq<PsramEntry<K>>, accept: K -> bool, from: nat): (i: int)
    requires from <= |t|
    ensures -1 <= i < |t|
    ensures i == -1 <==> forall j :: from <= j < |t| ==> !accept(t[j].key)
    ensures i >= 0 ==> from <= i && accept(t[i].key) && forall j :: from <= j < i ==> !accept(t[j].key)
    decreases |t| - from
  {
    if from == |t| then -1
    else if accept(t[from].key) then from
    else FirstEntry(t, accept, from + 1)
  }

  /**
   * `getPsramVendor`/`getPsramOUI`: the first accepted entry's name with
   * its hit counter incremented, otherwise the sentinel; no storage access.
   */
  function PsramLookup<K>(t: seq<PsramEntry<K>>, accept: K -> bool, sentinel: string): (r: PsramResult<K>)
    ensures |r.table| == |t|
    ensures !r.hit ==> r.table == t && r.dest == sentinel
    ensures r.hit <==> exists i :: 0 <= i < |t| && accept(t[i].key)
    ensures r.hit ==> exists i :: 0 <= i < |t| && accept(t[i].key)
                                  && (forall j :: 0 <= j < i ==> !accept(t[j].key))
                                  && r.dest == t[i].value
                                  && r.table == t[i := t[i].(hits := t[i].hits + 1)]
  {
    var i := FirstEntry(t, accept, 0);
    if i == -1 then PsramResult(t, sentinel, false)
    else PsramResult(t[i := t[i].(hits := t[i].hits + 1)], t[i].value, true)
  }

  /** Capacities of the two psram tables. */
  const VENDOR_DB_ROWS: nat := 1889
  const OUI_DB_ROWS: nat := 25523

  /**
   * What the loader callback leaves in entry `i`: the `i`-th result row,
   * key narrowed by `fit` and name copied into a MAX_FIELD_LEN+1 buffer,
   * with no hits; entries past the result set keep their warm-up value.
   */
  function LoadedEntry<K>(blank: seq<PsramEntry<K>>, rows: seq<(K, string)>, fit: K -> K, i: nat): PsramEntry<K>
    requires i < |blank|
  {
    if i < |rows| then PsramEntry(fit(rows[i].0), Truncate(rows[i].1, MAX_FIELD_LEN + 1), 0) else blank[i]
  }

  /**
   * `loadVendorsToPSRam`/`loadOUIToPSRam` with `VendorDBCallback`/`OUIDBCallback`:
   * one callback per result row; `results` counts every row, and a row whose
   * number exceeds the table capacity is dropped.
   */
  method LoadPsram<K>(blank: seq<PsramEntry<K>>, rows: seq<(K, string)>, fit: K -> K)
    returns (t: seq<PsramEntry<K>>, results: nat)
    ensures results == |rows| && |t| == |blank|
    ensures forall i :: 0 <= i < |t| ==> t[i] == LoadedEntry(blank, rows, fit, i)
    ensures forall i :: 0 <= i < |t| ==> t[i].hits == 0 || (i >= |rows| && t[i] == blank[i])
  {
    t := blank;
    results := 0;
    for n := 0 to |rows|
      invariant results == n && |t| == |blank|
      invariant forall i :: 0 <= i < |t| ==> t[i] == (if i < n then LoadedEntry(blank, rows, fit, i) else blank[i])
    {
      results := results + 1;
      if results <= |blank| {
        t := t[results - 1 := PsramEntry(fit(rows[n].0), Truncate(rows[n].1, MAX_FIELD_LEN + 1), 0)];
      }
    }
  }

  /** The 16-bit `devid` slot a vendor id is stored into. */
  function U16(x: int): (r: int)
    ensures 0 <= r < U16_LIMIT
    ensures 0 <= x < U16_LIMIT ==> r == x
  {
    x % U16_LIMIT
  }

  /** The OUI table after warm-up: every prefix and name empty. */
  function BlankOuiTable(): (t: seq<PsramEntry<string>>)
    ensures |t| == OUI_DB_ROWS
  {
    seq(OUI_DB_ROWS, _ => PsramEntry("", "", 0))
  }

  /** The OUI loader keeps at most SHORT_MAC_LEN characters of each prefix. */
  function OuiPrefixFit(mac: string): (k: string)
    ensures |k| <= SHORT_MAC_LEN
  {
    Truncate(mac, SHORT_MAC_LEN + 1)
  }

  /**
   * After loading the OUI table, a lookup with a non-empty key finds an
   * entry exactly when one of the first OUI_DB_ROWS result rows has a
   * (clipped) prefix containing the key: the blank remainder never matches.
   */
  lemma LoadedOuiLookup(rows: seq<(string, string)>, t: seq<PsramEntry<string>>, key: string)
    requires |t| == OUI_DB_ROWS
    requires forall i :: 0 <= i < |t| ==> t[i] == LoadedEntry(BlankOuiTable(), rows, OuiPrefixFit, i)
    requires key != ""
    ensures PsramLookup(t, (m: string) => Contains(m, key), PRIVATE_OUI).hit <==>
              exists i :: 0 <= i < |rows| && i < OUI_DB_ROWS && Contains(OuiPrefixFit(rows[i].0), key)
  {
    var accept := (m: string) => Contains(m, key);
    if PsramLookup(t, accept, PRIVATE_OUI).hit {
      var i :| 0 <= i < |t| && accept(t[i].key);
      if i >= |rows| {
        assert false;
      }
      assert t[i].key == OuiPrefixFit(rows[i].0);
    } else {
      forall i | 0 <= i < |rows| && i < OUI_DB_ROWS
        ensures !Contains(OuiPrefixFit(rows[i].0), key)
      {
        assert t[i].key == OuiPrefixFit(rows[i].0);
        assert !accept(t[i].key);
      }
    }
  }

  // ----- keys -----

  /** The heap OUI key: the first nine MAC characters without ':' (case kept). */
  function ShortMac(mac: string): (k: string)
    requires |mac| >= 9
    ensures ':' !in k && |k| <= 9
  {
    RemoveChar(mac[..9], ':')
  }

  /** The psram OUI key: the heap key lowercased, matching the lowercased table. */
  function PsramOuiKey(mac: string): (k: string)
    requires |mac| >= 9
    ensures |k| == |ShortMac(mac)|
  {
    ToLower(ShortMac(mac))
  }

  /** The nine characters the OUI lookup reads fit the 7-byte prefix buffer. */
  predicate OuiReadable(mac: string) {
    |mac| >= 9 && |ShortMac(mac)| <= SHORT_MAC_LEN - 1
  }

  /** A canonical MAC address gives a six-character OUI key. */
  lemma {:induction false} MacShortKey(mac: string)
    requires IsMacAddress(mac)
    ensures OuiReadable(mac)
    ensures ShortMac(mac) == [mac[0], mac[1], mac[3], mac[4], mac[6], mac[7]]
  {
    assert mac[0] != ':' && mac[1] != ':' && mac[2] == ':';
    assert mac[3] != ':' && mac[4] != ':' && mac[5] == ':';
    assert mac[6] != ':' && mac[7] != ':' && mac[8] == ':';
    var p := mac[..9];
    assert p == [mac[0], mac[1]] + [':'] + [mac[3], mac[4]] + [':'] + [mac[6], mac[7]] + [':'];
    assert p[0] != ':' && p[1] != ':' && p[3] != ':' && p[4] != ':' && p[6] != ':' && p[7] != ':';
    assert p[2] == ':' && p[5] == ':' && p[8] == ':';
    assert p[1..][1..] == p[2..];
    assert p[2..][1..] == p[3..];
    assert p[3..][1..] == p[4..];
    assert p[4..][1..] == p[5..];
    assert p[5..][1..] == p[6..];
    assert p[6..][1..] == p[7..];
    assert p[7..][1..] == p[8..];
    assert p[8..][1..] == [];
    assert RemoveChar(p[8..], ':') == "";
    assert RemoveChar(p[7..], ':') == [mac[7]];
    assert RemoveChar(p[6..], ':') == [mac[6], mac[7]];
    assert RemoveChar(p[5..], ':') == [mac[6], mac[7]];
    assert RemoveChar(p[4..], ':') == [mac[4], mac[6], mac[7]];
    assert RemoveChar(p[3..], ':') == [mac[3], mac[4], mac[6], mac[7]];
    assert RemoveChar(p[2..], ':') == [mac[3], mac[4], mac[6], mac[7]];
    assert RemoveChar(p[1..], ':') == [mac[1], mac[3], mac[4], mac[6], mac[7]];
  }

  // ----- the two caches together -----

  /**
   * Both name caches, the backend choice, the reference tables behind the
   * heap backend with the outcome the engine gives every query on them, and
   * the `VendorCacheHit`/`OuiCacheHit` counters.
   */
  datatype Lookups = Lookups(
    hasPsram: bool,
    vendorHeap: HeapCache<int>,
    ouiHeap: HeapCache<string>,
    vendorPsram: seq<PsramEntry<int>>,
    ouiPsram: seq<PsramEntry<string>>,
    vendorTable: map<int, string>,
    ouiTable: map<string, string>,
    refStatus: ExecResult,
    vendorCacheHit: nat,
    ouiCacheHit: nat)

  predicate ValidLookups(l: Lookups) {
    ValidHeap(l.vendorHeap) && ValidHeap(l.ouiHeap)
  }

  /**
   * A looked-up name with the caches after the lookup, and the outcome of
   * the reference query the lookup ran (`ExecOk` when it ran none).  The
   * caller's `DBExec` hands a failure to `error`.
   */
  datatype NameResult = NameResult(lookups: Lookups, name: string, status: ExecResult)

  /**
   * What a reference query leaves in `colValue`: `DBExec` clears it first,
   * so a failed query answers nothing.
   */
  function RefAnswer<K>(status: ExecResult, table: map<K, string>, key: K): (v: Option<string>)
    ensures status.ExecFailed? ==> v.None?
    ensures status == ExecOk ==> (v.Some? <==> key in table) && (v.Some? ==> v.value == table[key])
  {
    if status.ExecFailed? then None else RefValue(table, key)
  }

  /** `getVendor`: the name for a 16-bit manufacturer id, through the active backend. */
  function GetVendor(l: Lookups, devid: int): (r: NameResult)
    requires ValidLookups(l) && 0 <= devid < U16_LIMIT
    ensures ValidLookups(r.lookups)
    ensures r.lookups.hasPsram == l.hasPsram && r.lookups.ouiHeap == l.ouiHeap && r.lookups.ouiPsram == l.ouiPsram
    ensures r.lookups.vendorTable == l.vendorTable && r.lookups.ouiTable == l.ouiTable
    ensures r.lookups.refStatus == l.refStatus
    ensures l.hasPsram ==> r.lookups.vendorHeap == l.vendorHeap
    ensures !l.hasPsram ==> r.lookups.vendorPsram == l.vendorPsram
    ensures r.status.ExecFailed? <==> !l.hasPsram && !InSlots(l.vendorHeap.slots, devid) && l.refStatus.ExecFailed?
    ensures r.status.ExecFailed? ==> r.status == l.refStatus && r.name == UNKNOWN_VENDOR
    ensures l.hasPsram ==>
              (r.lookups.vendorCacheHit == l.vendorCacheHit + 1 <==> exists i :: 0 <= i < |l.vendorPsram| && l.vendorPsram[i].key == devid)
    ensures l.hasPsram && (exists i :: 0 <= i < |l.vendorPsram| && l.vendorPsram[i].key == devid) ==>
              exists i :: 0 <= i < |l.vendorPsram| && l.vendorPsram[i].key == devid
                          && (forall j :: 0 <= j < i ==> l.vendorPsram[j].key != devid)
                          && r.name == l.vendorPsram[i].value
                          && r.lookups.vendorPsram == l.vendorPsram[i := l.vendorPsram[i].(hits := l.vendorPsram[i].hits + 1)]
    ensures l.hasPsram && (forall i :: 0 <= i < |l.vendorPsram| ==> l.vendorPsram[i].key != devid) ==>
              r.name == UNKNOWN_VENDOR && r.lookups == l
    ensures !l.hasPsram ==> (r.lookups.vendorCacheHit == l.vendorCacheHit + 1 <==> InSlots(l.vendorHeap.slots, devid))
    ensures !l.hasPsram && InSlots(l.vendorHeap.slots, devid) ==>
              exists i :: 0 <= i < |l.vendorHeap.slots| && l.vendorHeap.slots[i] == Slot(devid, r.name)
    ensures !l.hasPsram && !InSlots(l.vendorHeap.slots, devid) ==>
              r.name == MissValue(RefAnswer(l.refStatus, l.vendorTable, devid), UNKNOWN_VENDOR)
    ensures r.lookups.vendorCacheHit <= l.vendorCacheHit + 1 && r.lookups.vendorCacheHit >= l.vendorCacheHit
  {
    if l.hasPsram then
      var p := PsramLookup(l.vendorPsram, (k: int) => k == devid, UNKNOWN_VENDOR);
      NameResult(l.(vendorPsram := p.table,
                    vendorCacheHit := if p.hit then l.vendorCacheHit + 1 else l.vendorCacheHit), p.dest, ExecOk)
    else
      var h := HeapLookup(l.vendorHeap, devid, (k: int) => RefAnswer(l.refStatus, l.vendorTable, k), UNKNOWN_VENDOR);
      NameResult(l.(vendorHeap := h.cache,
                    vendorCacheHit := if h.hit then l.vendorCacheHit + 1 else l.vendorCacheHit), h.dest,
                 if h.hit then ExecOk else l.refStatus)
  }

  /**
   * A failed vendor query caches "[unknown]" under the id, so a later lookup
   * answers "[unknown]" from the cache even once the database is healthy.
   */
  lemma FailedVendorQueryCached(l: Lookups, devid: int)
    requires ValidLookups(l) && !l.hasPsram && 0 <= devid < U16_LIMIT
    requires !InSlots(l.vendorHeap.slots, devid) && l.refStatus.ExecFailed?
    ensures var r1 := GetVendor(l, devid);
            var r2 := GetVendor(r1.lookups.(refStatus := ExecOk), devid);
            r1.name == UNKNOWN_VENDOR && r2.name == UNKNOWN_VENDOR && r2.status == ExecOk
            && r2.lookups.vendorHeap == r1.lookups.vendorHeap
  {
    var ref := (k: int) => RefAnswer(l.refStatus, l.vendorTable, k);
    var ref' := (k: int) => RefAnswer(ExecOk, l.vendorTable, k);
    RepeatLookupHits(l.vendorHeap, devid, ref, ref', UNKNOWN_VENDOR);
  }

  /** The OUI reference query matches `Assignment = UPPER(prefix)`. */
  function OuiTableKey(shortmac: string): string {
    ToUpper(shortmac)
  }

  /** The OUI reference query's answer for a heap cache key. */
  function OuiRef(status: ExecResult, table: map<string, string>, shortmac: string): Option<string> {
    RefAnswer(status, table, OuiTableKey(shortmac))
  }

  /** `getOUI`: the organisation name for a MAC address, through the active backend. */
  function GetOUI(l: Lookups, mac: string): (r: NameResult)
    requires ValidLookups(l) && OuiReadable(mac)
    ensures ValidLookups(r.lookups)
    ensures r.lookups.hasPsram == l.hasPsram && r.lookups.vendorHeap == l.vendorHeap && r.lookups.vendorPsram == l.vendorPsram
    ensures r.lookups.vendorTable == l.vendorTable && r.lookups.ouiTable == l.ouiTable
    ensures r.lookups.refStatus == l.refStatus
    ensures l.hasPsram ==> r.lookups.ouiHeap == l.ouiHeap
    ensures !l.hasPsram ==> r.lookups.ouiPsram == l.ouiPsram
    ensures r.status.ExecFailed? <==> !l.hasPsram && !InSlots(l.ouiHeap.slots, ShortMac(mac)) && l.refStatus.ExecFailed?
    ensures r.status.ExecFailed? ==> r.status == l.refStatus && r.name == PRIVATE_OUI
  {
    if l.hasPsram then PsramOui(l, mac) else HeapOui(l, mac)
  }

  /** The external-RAM branch of `getOUI`: the first entry whose prefix contains the address's key. */
  function PsramOui(l: Lookups, mac: string): (r: NameResult)
    requires ValidLookups(l) && l.hasPsram && OuiReadable(mac)
    ensures ValidLookups(r.lookups)
    ensures r.lookups == l.(ouiPsram := r.lookups.ouiPsram, ouiCacheHit := r.lookups.ouiCacheHit)
    ensures (exists i :: 0 <= i < |l.ouiPsram| && Contains(l.ouiPsram[i].key, PsramOuiKey(mac))) ==>
              r.lookups.ouiCacheHit == l.ouiCacheHit + 1
              && exists i :: 0 <= i < |l.ouiPsram| && Contains(l.ouiPsram[i].key, PsramOuiKey(mac))
                             && (forall j :: 0 <= j < i ==> !Contains(l.ouiPsram[j].key, PsramOuiKey(mac)))
                             && r.name == l.ouiPsram[i].value
                             && r.lookups.ouiPsram == l.ouiPsram[i := l.ouiPsram[i].(hits := l.ouiPsram[i].hits + 1)]
    ensures (forall i :: 0 <= i < |l.ouiPsram| ==> !Contains(l.ouiPsram[i].key, PsramOuiKey(mac))) ==>
              r.name == PRIVATE_OUI && r.lookups == l
    ensures r.status == ExecOk
  {
    var key := PsramOuiKey(mac);
    var p := PsramLookup(l.ouiPsram, (entryMac: string) => Contains(entryMac, key), PRIVATE_OUI);
    NameResult(l.(ouiPsram := p.table,
                  ouiCacheHit := if p.hit then l.ouiCacheHit + 1 else l.ouiCacheHit), p.dest, ExecOk)
  }

  /** The heap branch of `getOUI`: the cyclic cache in front of the reference table. */
  function HeapOui(l: Lookups, mac: string): (r: NameResult)
    requires ValidLookups(l) && !l.hasPsram && OuiReadable(mac)
    ensures ValidLookups(r.lookups)
    ensures r.lookups == l.(ouiHeap := r.lookups.ouiHeap, ouiCacheHit := r.lookups.ouiCacheHit)
    ensures r.lookups.ouiCacheHit == l.ouiCacheHit + 1 <==> InSlots(l.ouiHeap.slots, ShortMac(mac))
    ensures r.lookups.ouiCacheHit == l.ouiCacheHit + 1 || r.lookups.ouiCacheHit == l.ouiCacheHit
    ensures InSlots(l.ouiHeap.slots, ShortMac(mac)) ==>
              r.lookups.ouiHeap == l.ouiHeap
              && exists i :: 0 <= i < |l.ouiHeap.slots| && l.ouiHeap.slots[i] == Slot(ShortMac(mac), r.name)
    ensures !InSlots(l.ouiHeap.slots, ShortMac(mac)) ==>
              r.name == MissValue(OuiRef(l.refStatus, l.ouiTable, ShortMac(mac)), PRIVATE_OUI)
    ensures r.status == (if InSlots(l.ouiHeap.slots, ShortMac(mac)) then ExecOk else l.refStatus)
    ensures r.status.ExecFailed? ==> r.name == PRIVATE_OUI
  {
    var key := ShortMac(mac);
    var h := HeapLookup(l.ouiHeap, key, (k: string) => OuiRef(l.refStatus, l.ouiTable, k), PRIVATE_OUI);
    NameResult(l.(ouiHeap := h.cache,
                  ouiCacheHit := if h.hit then l.ouiCacheHit + 1 else l.ouiCacheHit), h.dest,
               if h.hit then ExecOk else l.refStatus)
  }

}

=== FILE: maintain.dfy ===
/**
 * The maintenance side of DB.h: the cache fill statistics of `cacheState`,
 * `getEntries`, `pruneDB`, `resetDB`, `createDB` and the `maintain` state
 * machine the scan task runs before every scan.
 *
 * `ESP.restart()` and the endless wait after a failed table creation end
 * the run: they are the terminal outcomes `Restarted` and `Halted`, which
 * keep only what survives them (the disk).
 */
module Maintenance {
  import opened Text
  import opened Engine
  import opened Settings
  import opened BLECache
  import opened Lookup
  import opened DB

  // ----- cacheState -----

  /** Occupied ring slots (non-empty address). */
  function Occupied(ring: seq<Device>): (n: nat)
    ensures n <= |ring|
  {
    if |ring| == 0 then 0
    else Occupied(ring[..|ring| - 1]) + (if IsFree(ring[|ring| - 1]) then 0 else 1)
  }

  /** Vendor heap slots ever written (devid above -1). */
  function VendorSlotsUsed(slots: seq<Slot<int>>): (n: nat)
    ensures n <= |slots|
  {
    if |slots| == 0 then 0
    else VendorSlotsUsed(slots[..|slots| - 1]) + (if slots[|slots| - 1].key > NO_DEVID then 1 else 0)
  }

  /** OUI heap slots holding a name. */
  function OuiSlotsUsed(slots: seq<Slot<string>>): (n: nat)
    ensures n <= |slots|
  {
    if |slots| == 0 then 0
    else OuiSlotsUsed(slots[..|slots| - 1]) + (if IsEmpty(slots[|slots| - 1].value) then 0 else 1)
  }

  /** Truncating quotient of naturals, as repeated subtraction. */
  function Quot(n: nat, d: nat): nat
    requires d > 0
    decreases n
  {
    if n < d then 0 else 1 + Quot(n - d, d)
  }

  /** `Quot` is the quotient of the division of `n` by `d`, with a remainder below `d`. */
  lemma {:induction false} QuotDivides(n: nat, d: nat)
    requires d > 0
    ensures Quot(n, d) * d <= n < Quot(n, d) * d + d
    decreases n
  {
    if n >= d {
      QuotDivides(n - d, d);
      assert Quot(n, d) * d == Quot(n - d, d) * d + d;
    }
  }

  /** Integer percentage, truncated; an empty cache reads as 0%. */
  function Percent(count: nat, size: nat): nat
  {
    if size == 0 then 0 else Quot(100 * count, size)
  }

  lemma {:induction false} MulMonotone(a: nat, b: nat, c: nat)
    requires a <= b
    ensures a * c <= b * c
    decreases c
  {
    if c > 0 {
      MulMonotone(a, b, c - 1);
      assert a * c == a * (c - 1) + a;
      assert b * c == b * (c - 1) + b;
    }
  }

  /** A fill percentage never exceeds 100 and reaches it only when every slot is used. */
  lemma PercentBounds(count: nat, size: nat)
    requires size > 0 && count <= size
    ensures Percent(count, size) <= 100
    ensures Percent(count, size) == 100 <==> count == size
  {
    var n := count * 100;
    var q := Quot(n, size);
    QuotDivides(n, size);
    var r := n - q * size;
    assert n == q * size + r && 0 <= r < size;
    MulMonotone(count, size, 100);
    assert n <= size * 100;
    if q >= 101 {
      MulMonotone(101, q, size);
      assert false;
    }
    if count < size {
      MulMonotone(count, size - 1, 100);
      assert (size - 1) * 100 == size * 100 - 100;
      if q >= 100 {
        MulMonotone(100, q, size);
        assert false;
      }
    } else {
      assert n == size * 100;
      if q <= 99 {
        MulMonotone(q, 99, size);
        assert false;
      }
    }
  }

  /**
   * `cacheState`: the share of occupied ring slots, and of used vendor and
   * OUI heap slots; the psram backend always counts as full.
   */
  method CacheState(ring: seq<Device>, l: Lookups) returns (devices: nat, vendors: nat, ouis: nat)
    requires ValidLookups(l)
    ensures devices == Percent(Occupied(ring), |ring|)
    ensures devices == 100 <==> |ring| > 0 && Occupied(ring) == |ring|
    ensures l.hasPsram ==> vendors == 100 && ouis == 100
    ensures !l.hasPsram ==> vendors == Percent(VendorSlotsUsed(l.vendorHeap.slots), |l.vendorHeap.slots|)
    ensures !l.hasPsram ==> ouis == Percent(OuiSlotsUsed(l.ouiHeap.slots), |l.ouiHeap.slots|)
    ensures devices <= 100 && vendors <= 100 && ouis <= 100
  {
    var used := 0;
    for i := 0 to |ring|
      invariant used == Occupied(ring[..i])
    {
      assert ring[..i + 1][..i] == ring[..i];
      if !IsFree(ring[i]) {
        used := used + 1;
      }
    }
    assert ring[..|ring|] == ring;
    var usedVendors := |l.vendorHeap.slots|;
    var usedOuis := |l.ouiHeap.slots|;
    if !l.hasPsram {
      var vs := l.vendorHeap.slots;
      usedVendors := 0;
      for i := 0 to |vs|
        invariant usedVendors == VendorSlotsUsed(vs[..i])
      {
        assert vs[..i + 1][..i] == vs[..i];
        if vs[i].key > NO_DEVID {
          usedVendors := usedVendors + 1;
        }
      }
      assert vs[..|vs|] == vs;
      var os := l.ouiHeap.slots;
      usedOuis := 0;
      for i := 0 to |os|
        invariant usedOuis == OuiSlotsUsed(os[..i])
      {
        assert os[..i + 1][..i] == os[..i];
        if !IsEmpty(os[i].value) {
          usedOuis := usedOuis + 1;
        }
      }
      assert os[..|os|] == os;
    }
    if |ring| > 0 {
      PercentBounds(used, |ring|);
    }
    PercentBounds(usedVendors, |l.vendorHeap.slots|);
    PercentBounds(usedOuis, |l.ouiHeap.slots|);
    devices := Percent(used, |ring|);
    vendors := Percent(usedVendors, |l.vendorHeap.slots|);
    ouis := Percent(usedOuis, |l.ouiHeap.slots|);
  }

  // ----- entries, prune, reset, create -----

  datatype Counted = Counted(store: Store, entries: nat)

  /**
   * `getEntries`: the row count of the day's table; a failing count goes
   * through `error` and reads as 0 (the cleared result buffer).
   */
  function GetEntries(s: Store): (r: Counted)
    ensures Status(s.disk, s.fsPath) == ExecOk ==> r == Counted(s, |Rows(s)|)
    ensures Status(s.disk, s.fsPath).ExecFailed? ==> r == Counted(Failed(s), 0)
  {
    match Status(s.disk, s.fsPath)
    case ExecOk => Counted(s, |Rows(s)|)
    case ExecFailed(_) => Counted(Failed(s), 0)
  }

  /** `pruneDB`: every row deleted, then `entries` recounted and `prune_trigger` cleared. */
  function PruneDB(s: Store): (t: Store)
    ensures t.pruneTrigger == 0
    ensures Status(s.disk, s.fsPath) == ExecOk ==> Rows(t) == [] && t.entries == 0 && t.flags == s.flags
    ensures Status(s.disk, s.fsPath).ExecFailed? ==> Rows(t) == Rows(s) && t.entries == 0
    ensures ErrorsOnly(s.flags, t.flags, s.disk.fault)
    ensures t.disk.fault == s.disk.fault && t.disk.openFails == s.disk.openFails && t.disk.files == s.disk.files
    ensures t.disk.tables.Keys == s.disk.tables.Keys
    ensures t.fsPath == s.fsPath && t.sqlitePath == s.sqlitePath && t.fsType == s.fsType && t.clock == s.clock
  {
    var s1 := match Status(s.disk, s.fsPath)
      case ExecOk => WithRows(s, [])
      case ExecFailed(_) => Failed(s);
    var c := GetEntries(s1);
    c.store.(entries := c.entries, pruneTrigger := 0)
  }

  /** `resetDB`: the day's file is removed (its table with it) before the restart. */
  function ResetDisk(d: Disk, fsPath: string): (e: Disk)
    ensures fsPath !in e.files && fsPath !in e.tables
    ensures forall p :: p != fsPath ==> TableAt(e, p) == TableAt(d, p)
    ensures forall p :: p in d.files && p != fsPath ==> p in e.files && e.files[p] == d.files[p]
    ensures e.fault == d.fault && e.openFails == d.openFails
  {
    d.(files := d.files - {fsPath}, tables := d.tables - {fsPath})
  }

  /** What `createDB` leads to: the store goes on, or the system halts. */
  datatype Creation = Created(store: Store) | CreationHalted(disk: Disk)

  /**
   * `createDB`: on littlefs an empty file is made first; an unopenable
   * database is left alone; `CREATE TABLE IF NOT EXISTS` keeps an existing
   * table; a failing creation removes the file and halts.
   */
  function CreateDB(s: Store): (r: Creation)
    ensures r.Created? ==> r.store.flags == s.flags && r.store.fsPath == s.fsPath
    ensures r.Created? ==> r.store.sqlitePath == s.sqlitePath && r.store.clock == s.clock
    ensures r.Created? ==> r.store.entries == s.entries && r.store.pruneTrigger == s.pruneTrigger
    ensures r.Created? ==> r.store.disk.fault == s.disk.fault && r.store.disk.openFails == s.disk.openFails
    ensures r.Created? ==> forall p :: p != s.fsPath ==> TableAt(r.store.disk, p) == TableAt(s.disk, p)
    ensures r.CreationHalted? <==> !s.disk.openFails && s.disk.fault.ExecFailed?
    ensures r.CreationHalted? ==> s.fsPath !in r.disk.files && s.fsPath !in r.disk.tables
    ensures Healthy(s) ==> r.Created? && s.fsPath in r.store.disk.files && s.fsPath in r.store.disk.tables
    ensures Healthy(s) ==> Rows(r.store) == Rows(s)
    ensures s.fsType == "littlefs" && r.Created? ==> s.fsPath in r.store.disk.files
  {
    var d := s.disk;
    var d1 := if s.fsType == "littlefs" && s.fsPath !in d.files then d.(files := d.files[s.fsPath := 0]) else d;
    if d1.openFails then Created(s.(disk := d1))
    else match d1.fault
      case ExecFailed(_) => CreationHalted(ResetDisk(d1, s.fsPath))
      case ExecOk =>
        var files := if s.fsPath in d1.files then d1.files else d1.files[s.fsPath := 0];
        var tables := if s.fsPath in d1.tables then d1.tables else d1.tables[s.fsPath := []];
        Created(s.(disk := d1.(files := files, tables := tables)))
  }

  // ----- maintain -----

  /** Where a `maintain` call leads: on to the scan, a restart, or a halt. */
  datatype Outcome =
    | Continue(store: Store, ring: seq<Device>, ok: bool)
    | Restarted(disk: Disk)
    | Halted(disk: Disk)

  /** The day-change branch: the new path, and the database created if its file is missing. */
  function DayChange(s: Store): (r: Creation)
    ensures r.Created? ==> r.store.fsPath == SetBLEDBPath(s.clock, s.fsType).fsPath
    ensures r.Created? ==> r.store.sqlitePath == SetBLEDBPath(s.clock, s.fsType).sqlitePath
    ensures r.Created? ==> r.store.flags == s.flags.(needsReplication := true, hourChange := false, dayChange := false)
    ensures r.Created? ==> r.store.clock == s.clock && r.store.disk.fault == s.disk.fault
    ensures r.Created? ==> r.store.disk.openFails == s.disk.openFails
  {
    var p := SetBLEDBPath(s.clock, s.fsType);
    var s1 := s.(flags := s.flags.(needsReplication := true, hourChange := false, dayChange := false),
                 sqlitePath := p.sqlitePath, fsPath := p.fsPath);
    if p.fsPath !in s1.disk.files then CreateDB(s1) else Created(s1)
  }

  /** The hour-change branch: a time resync and a replication are requested. */
  function HourChange(f: Flags): (g: Flags)
    ensures f.hourChange ==> g == f.(forceBleTime := true, needsReplication := true, hourChange := false, dayChange := false)
    ensures !f.hourChange ==> g == f
  {
    if f.hourChange then f.(forceBleTime := true, needsReplication := true, hourChange := false, dayChange := false)
    else f
  }

  /** The replication branch and the final restart check. */
  function Finish(s: Store, ring: seq<Device>, ok: bool): (r: Outcome)
    ensures r.Restarted? <==> s.flags.needsRestart
    ensures r.Continue? ==> r.ok == ok && |r.ring| == |ring|
    ensures r.Continue? ==> forall i :: 0 <= i < |ring| ==> SlotAfterReplication(ring[i], r.ring[i], false)
    ensures r.Continue? ==> !r.store.flags.needsReplication && !r.store.flags.needsRestart
    ensures r.Continue? ==> ErrorsOnly(s.flags.(needsReplication := false), r.store.flags, s.disk.fault)
    ensures r.Continue? ==> r.store.fsPath == s.fsPath && r.store.disk.fault == s.disk.fault
  {
    var s1 := if s.flags.needsReplication then s.(flags := s.flags.(needsReplication := false)) else s;
    var rep := if s.flags.needsReplication then Replicate(s1, ring, false) else Replication(s, ring);
    if rep.store.flags.needsRestart then Restarted(rep.store.disk)
    else Continue(rep.store, rep.ring, ok)
  }

  /**
   * `maintain()`: reports (and clears) out-of-memory and corruption, then in
   * order prunes, resets (and restarts) on `needsReset`, handles a day
   * change (new path, database created when missing, replication requested;
   * the hour branch is then skipped because the day branch clears its
   * trigger), handles an hour change, replicates the ring without resetting
   * it, and restarts on `needsRestart`.  `needsReset` is left set, not
   * cleared, before the restart.
   */
  function Maintain(s: Store, ring: seq<Device>): (r: Outcome)
    ensures r.Continue? ==> (r.ok <==> !s.flags.isOOM && !s.flags.isCorrupt)
    ensures r.Continue? ==> !s.flags.needsReset && !s.flags.needsRestart
    ensures r.Continue? ==> !r.store.flags.needsPruning && !r.store.flags.needsReplication && !r.store.flags.needsRestart
    ensures r.Continue? ==> !r.store.flags.hourChange && !r.store.flags.dayChange
    ensures r.Continue? && s.disk.fault == ExecOk ==> !r.store.flags.isOOM && !r.store.flags.isCorrupt
    ensures r.Continue? ==> |r.ring| == |ring|
    ensures r.Continue? ==> forall i :: 0 <= i < |ring| ==> SlotAfterReplication(ring[i], r.ring[i], false)
    ensures s.flags.needsRestart ==> !r.Continue?
    ensures s.flags.needsReset && !s.flags.needsPruning ==> r == Restarted(ResetDisk(s.disk, s.fsPath))
    ensures r.Halted? ==> s.flags.dayChange && s.disk.fault.ExecFailed?
  {
    var ok := !(s.flags.isOOM || s.flags.isCorrupt);
    var s2 := Prepared(s);
    if s2.flags.needsReset then Restarted(ResetDisk(s2.disk, s2.fsPath))
    else Scheduled(s2, ring, ok)
  }

  /** The start of `maintain`: the health flags are cleared, then a requested pruning runs. */
  function Prepared(s: Store): (t: Store)
    ensures !t.flags.needsPruning && t.flags.needsRestart == s.flags.needsRestart
    ensures s.flags.needsReset ==> t.flags.needsReset
    ensures t.disk.fault == s.disk.fault
    ensures t.disk.fault == ExecOk ==> !t.flags.isOOM && !t.flags.isCorrupt
    ensures !s.flags.needsPruning ==> t == s.(flags := s.flags.(isOOM := false, isCorrupt := false))
  {
    var s1 := s.(flags := s.flags.(isOOM := false, isCorrupt := false));
    if s1.flags.needsPruning then PruneDB(s1.(flags := s1.flags.(needsPruning := false))) else s1
  }

  /** The part of `maintain` after the reset check: day change, hour change, replication, restart. */
  function Scheduled(s: Store, ring: seq<Device>, ok: bool): (r: Outcome)
    ensures r.Continue? ==> r.ok == ok && !s.flags.needsRestart
    ensures r.Continue? ==> r.store.flags.needsPruning == s.flags.needsPruning
    ensures r.Continue? ==> !r.store.flags.needsReplication && !r.store.flags.needsRestart
    ensures r.Continue? ==> !r.store.flags.hourChange && !r.store.flags.dayChange
    ensures r.Continue? && s.disk.fault == ExecOk ==>
              r.store.flags.isOOM == s.flags.isOOM && r.store.flags.isCorrupt == s.flags.isCorrupt
    ensures r.Continue? ==> |r.ring| == |ring|
    ensures r.Continue? ==> forall i :: 0 <= i < |ring| ==> SlotAfterReplication(ring[i], r.ring[i], false)
    ensures s.flags.needsRestart ==> !r.Continue?
    ensures r.Halted? ==> s.flags.dayChange && s.disk.fault.ExecFailed?
  {
    var day := if s.flags.dayChange then DayChange(s) else Created(s);
    match day
    case CreationHalted(d) => Halted(d)
    case Created(s3) =>
      var s4 := s3.(flags := HourChange(s3.flags));
      Finish(s4, ring, ok)
  }

  // ----- the reference databases survive maintenance -----

  /** The disk a `maintain` call leaves behind, whatever its outcome. */
  function OutcomeDisk(r: Outcome): Disk {
    match r
    case Continue(s, _, _) => s.disk
    case Restarted(d) => d
    case Halted(d) => d
  }

  /** Removing the collector's file never removes or resizes a reference database. */
  lemma ResetDiskKeepsReferenceFiles(d: Disk, fsPath: string)
    requires NotReference(fsPath)
    ensures CheckDBFiles(ResetDisk(d, fsPath).files) == CheckDBFiles(d.files)
  {
    CheckDBFilesOtherFile(d.files, fsPath, 0);
  }

  /** Creating the collector's database, or failing to, leaves the reference databases as they were. */
  lemma CreateDBKeepsReferenceFiles(s: Store)
    requires NotReference(s.fsPath)
    ensures var r := CreateDB(s);
            CheckDBFiles(if r.Created? then r.store.disk.files else r.disk.files) == CheckDBFiles(s.disk.files)
  {
    CheckDBFilesOtherFile(s.disk.files, s.fsPath, 0);
    CheckDBFilesOtherFile(s.disk.files[s.fsPath := 0], s.fsPath, 0);
  }

  /** Rotating to the new day's file leaves the reference databases as they were, wherever the store pointed before. */
  lemma DayChangeKeepsReferenceFiles(s: Store)
    ensures var r := DayChange(s);
            CheckDBFiles(if r.Created? then r.store.disk.files else r.disk.files) == CheckDBFiles(s.disk.files)
  {
    var p := SetBLEDBPath(s.clock, s.fsType);
    CollectorPathNotReference(s.clock, s.fsType);
    CreateDBKeepsReferenceFiles(s.(flags := s.flags.(needsReplication := true, hourChange := false, dayChange := false),
                                   sqlitePath := p.sqlitePath, fsPath := p.fsPath));
  }

  /**
   * Whatever `maintain` does -- prune, reset, rotate, replicate, restart or
   * halt -- the reference databases pass `checkDBFiles` afterwards exactly
   * when they did before.
   */
  lemma MaintainKeepsReferenceFiles(s: Store, ring: seq<Device>)
    requires NotReference(s.fsPath)
    ensures CheckDBFiles(OutcomeDisk(Maintain(s, ring)).files) == CheckDBFiles(s.disk.files)
  {
    var s2 := Prepared(s);
    assert s2.disk.files == s.disk.files && s2.fsPath == s.fsPath;
    if s2.flags.needsReset {
      ResetDiskKeepsReferenceFiles(s2.disk, s2.fsPath);
    } else {
      ScheduledKeepsReferenceFiles(s2, ring, !(s.flags.isOOM || s.flags.isCorrupt));
    }
  }

  /** The scheduled part of `maintain` touches the file list only through a day change. */
  lemma ScheduledKeepsReferenceFiles(s: Store, ring: seq<Device>, ok: bool)
    requires NotReference(s.fsPath)
    ensures CheckDBFiles(OutcomeDisk(Scheduled(s, ring, ok)).files) == CheckDBFiles(s.disk.files)
  {
    var day := if s.flags.dayChange then DayChange(s) else Created(s);
    if s.flags.dayChange {
      DayChangeKeepsReferenceFiles(s);
    }
    if day.Created? {
      var s4 := day.store.(flags := HourChange(day.store.flags));
      assert OutcomeDisk(Finish(s4, ring, ok)).files == s4.disk.files;
    }
  }

  /** With nothing requested, `maintain` only reports and clears the health flags. */
  lemma MaintainIdle(s: Store, ring: seq<Device>)
    requires !s.flags.needsPruning && !s.flags.needsReset && !s.flags.needsRestart
    requires !s.flags.needsReplication && !s.flags.hourChange && !s.flags.dayChange
    ensures Maintain(s, ring) ==
              Continue(s.(flags := s.flags.(isOOM := false, isCorrupt := false)), ring, !s.flags.isOOM && !s.flags.isCorrupt)
  {
  }

  /**
   * A day change on a healthy store switches to the new day's file before
   * replicating: every replicated, non-blank ring slot gets a row in the new
   * day's table, the previous day's table is untouched, and the hour branch
   * (with its time resync) does not run.
   */
  lemma MaintainDayChange(s: Store, ring: seq<Device>)
    requires Healthy(s) && s.flags.dayChange
    requires !s.flags.needsPruning && !s.flags.needsReset && !s.flags.needsRestart
    requires var p := SetBLEDBPath(s.clock, s.fsType).fsPath; p in s.disk.tables || p !in s.disk.files
    requires DistinctAddresses(ring)
    ensures var r := Maintain(s, ring);
            var p := SetBLEDBPath(s.clock, s.fsType).fsPath;
            r.Continue? && r.store.fsPath == p
            && r.store.flags.forceBleTime == s.flags.forceBleTime
            && (s.fsPath != p ==> TableAt(r.store.disk, s.fsPath) == TableAt(s.disk, s.fsPath))
            && forall i :: 0 <= i < |ring| && Replicated(ring[i]) && !IsBlank(ring[i]) ==>
                 Select(Rows(r.store), ring[i].address) != []
  {
    var s2 := s.(flags := s.flags.(isOOM := false, isCorrupt := false));
    var day := DayChange(s2);
    var p := SetBLEDBPath(s.clock, s.fsType);
    var s1 := s2.(flags := s2.flags.(needsReplication := true, hourChange := false, dayChange := false),
                  sqlitePath := p.sqlitePath, fsPath := p.fsPath);
    assert day.Created?;
    var s3 := day.store;
    assert Healthy(s3) && s3.fsPath in s3.disk.tables;
    assert TableAt(s3.disk, s.fsPath) == TableAt(s.disk, s.fsPath);
    var s4 := s3.(flags := HourChange(s3.flags));
    assert s4 == s3;
    var s5 := s4.(flags := s4.flags.(needsReplication := false));
    ReplicatePersists(s5, ring, false);
  }

  /**
   * An hour change on a healthy store asks for a time resync and replicates
   * the ring into the current day's table.
   */
  lemma MaintainHourChange(s: Store, ring: seq<Device>)
    requires Healthy(s) && s.flags.hourChange && !s.flags.dayChange && s.fsPath in s.disk.tables
    requires !s.flags.needsPruning && !s.flags.needsReset && !s.flags.needsRestart
    requires DistinctAddresses(ring)
    ensures var r := Maintain(s, ring);
            r.Continue? && r.store.fsPath == s.fsPath && r.store.flags.forceBleTime
            && forall i :: 0 <= i < |ring| && Replicated(ring[i]) && !IsBlank(ring[i]) ==>
                 Select(Rows(r.store), ring[i].address) != []
  {
    var s2 := s.(flags := s.flags.(isOOM := false, isCorrupt := false));
    var s4 := s2.(flags := HourChange(s2.flags));
    var s5 := s4.(flags := s4.flags.(needsReplication := false));
    ReplicatePersists(s5, ring, false);
  }
}

=== FILE: scan.dfy ===
/**
 * The post-scan pipeline of BLE.h: advertisement buffering in
 * `FoundDeviceCallbacks::onResult`, the scan-duration adaptation of
 * `onAfterScan`, the `onBeforeScan` reset, and the four-step driver
 * `onAfterScanSteps` over the scan buffer (populate names, match against
 * the device ring and the database, render, propagate new devices into the
 * database).
 *
 * The radio driver is replaced by `Advert` values, rendering by a no-op,
 * and the clock by the store's `Clock`.
 */
module Scan {
  import opened Text
  import opened Engine
  import opened Settings
  import opened BLECache
  import opened Lookup
  import opened DB
  import opened Maintenance

  /**
   * The scan task's state: the scan buffer, the device ring and its cursor,
   * the database holder, counters, stage flags, the adaptive scan duration,
   * the store and the name caches.
   */
  datatype Pipeline = Pipeline(
    scan: seq<Device>,          // BLEDevScanCache
    ring: seq<Device>,          // BLEDevRAMCache
    ringCursor: nat,            // BLEDevCacheIndex
    holder: Device,             // BLEDevDBCache
    devicesCount: nat,
    processed: nat,             // processedDevicesCount
    scanCursor: nat,            // scan_cursor
    step: nat,                  // onAfterScanStep
    inCacheCount: nat,
    bleDevCacheHit: nat,
    anonymousCacheHit: nat,
    populated: bool,            // onScanPopulated
    postPopulated: bool,        // onScanPostPopulated
    rendered: bool,             // onScanRendered
    propagated: bool,           // onScanPropagated
    scanDone: bool,             // onScanDone
    scanDuration: int,          // SCAN_DURATION
    filterVendors: bool,
    store: Store,
    lookups: Lookups)

  /** Shapes every stage relies on. */
  predicate Valid(p: Pipeline) {
    |p.scan| == MAX_DEVICES_PER_SCAN && |p.ring| > 0 && p.ringCursor < |p.ring|
    && p.devicesCount <= MAX_DEVICES_PER_SCAN && ValidLookups(p.lookups)
    && forall i :: 0 <= i < |p.scan| && !IsFree(p.scan[i]) ==> OuiReadable(p.scan[i].address)
  }

  /** The driver's position: cursor, step, count and stage flags. */
  predicate SameProgress(p: Pipeline, q: Pipeline) {
    q.scanCursor == p.scanCursor && q.step == p.step && q.devicesCount == p.devicesCount
    && q.populated == p.populated && q.postPopulated == p.postPopulated
    && q.rendered == p.rendered && q.propagated == p.propagated
  }

  // ----- getDeviceCacheIndex -----

  /** First ring index at or after `from` holding address `a`, or -1. */
  function FindAddress(ring: seq<Device>, a: string, from: nat): (i: int)
    requires from <= |ring|
    ensures -1 <= i < |ring|
    ensures i == -1 <==> forall j :: from <= j < |ring| ==> ring[j].address != a
    ensures i >= 0 ==> from <= i && ring[i].address == a
    ensures i >= 0 ==> forall j :: from <= j < i ==> ring[j].address != a
    decreases |ring| - from
  {
    if from == |ring| then -1
    else if ring[from].address == a then from
    else FindAddress(ring, a, from + 1)
  }

  /**
   * `getDeviceCacheIndex`: -1 for an empty address (so free slots never
   * match), otherwise the first ring slot with that address, or -1.
   */
  function GetDeviceCacheIndex(ring: seq<Device>, a: string): (i: int)
    ensures -1 <= i < |ring|
    ensures i >= 0 ==> !IsEmpty(a) && ring[i].address == a && !IsFree(ring[i])
    ensures i >= 0 ==> forall j :: 0 <= j < i ==> ring[j].address != a
    ensures i == -1 <==> IsEmpty(a) || forall j :: 0 <= j < |ring| ==> ring[j].address != a
  {
    if IsEmpty(a) then -1 else FindAddress(ring, a, 0)
  }

  // ----- populate -----

  /** A record with names filled in, the caches after the lookups, and the health flags after them. */
  datatype Populated = Populated(device: Device, lookups: Lookups, flags: Flags)

  /** The manufacturer id as the 16-bit key `getVendor` receives. */
  function VendorKey(manufid: int): (k: int)
    ensures 0 <= k < U16_LIMIT
    ensures 0 <= manufid < U16_LIMIT ==> k == manufid
  {
    U16(manufid)
  }

  /** `populate` queries the OUI reference database: the name is unpopulated and the heap cache misses. */
  predicate OuiQueried(d: Device, l: Lookups)
    requires d.ouiname == UNPOPULATED ==> OuiReadable(d.address)
  {
    d.ouiname == UNPOPULATED && !l.hasPsram && !InSlots(l.ouiHeap.slots, ShortMac(d.address))
  }

  /** `populate` queries the vendor reference database: the name is unpopulated, there is an id, and the heap cache misses. */
  predicate VendorQueried(d: Device, l: Lookups) {
    d.manufname == UNPOPULATED && d.manufid != -1 && !l.hasPsram
    && !InSlots(l.vendorHeap.slots, VendorKey(d.manufid))
  }

  /**
   * `populate`: the OUI and vendor names are looked up only while they still
   * read "[unpopulated]"; without manufacturer data the vendor name is
   * cleared instead; `is_anonymous` is always recomputed.  A reference query
   * the engine fails goes through `error`, once per failed query.
   */
  function Populate(d: Device, l: Lookups, f: Flags): (r: Populated)
    requires ValidLookups(l)
    requires d.ouiname == UNPOPULATED ==> OuiReadable(d.address)
    ensures ValidLookups(r.lookups) && r.lookups.refStatus == l.refStatus
    ensures l.refStatus == ExecOk || !(OuiQueried(d, l) || VendorQueried(d, l)) ==> r.flags == f
    ensures l.refStatus.ExecFailed? && (OuiQueried(d, l) || VendorQueried(d, l)) ==>
              r.flags == Error(f, l.refStatus.msg)
    ensures r.device == d.(ouiname := r.device.ouiname, manufname := r.device.manufname,
                           isAnonymous := r.device.isAnonymous)
    ensures r.device.isAnonymous == IsAnonymous(r.device)
    ensures d.ouiname != UNPOPULATED ==> r.device.ouiname == d.ouiname
    ensures d.ouiname == UNPOPULATED ==> r.device.ouiname == GetOUI(l, d.address).name
    ensures d.manufname != UNPOPULATED ==> r.device.manufname == d.manufname
    ensures d.manufname == UNPOPULATED && d.manufid == -1 ==> r.device.manufname == ""
    ensures d.ouiname != UNPOPULATED && d.manufname != UNPOPULATED ==> r.lookups == l
    ensures d.manufname == UNPOPULATED && d.manufid != -1 ==>
              r.device.manufname == GetVendor(l, VendorKey(d.manufid)).name
    ensures d.manufname != UNPOPULATED || d.manufid == -1 ==>
              r.lookups.vendorHeap == l.vendorHeap && r.lookups.vendorPsram == l.vendorPsram
  {
    var o := if d.ouiname == UNPOPULATED then GetOUI(l, d.address) else NameResult(l, d.ouiname, ExecOk);
    var v := if d.manufname != UNPOPULATED then NameResult(o.lookups, d.manufname, ExecOk)
             else if d.manufid != -1 then GetVendor(o.lookups, VendorKey(d.manufid))
             else NameResult(o.lookups, "", ExecOk);
    var d1 := d.(ouiname := o.name, manufname := v.name);
    ErrorIdempotent(f, if l.refStatus.ExecFailed? then l.refStatus.msg else None);
    Populated(d1.(isAnonymous := IsAnonymous(d1)), v.lookups, AfterExec(AfterExec(f, o.status), v.status))
  }

  /** Populating an already populated record changes nothing and queries nothing. */
  lemma PopulateIdempotent(d: Device, l: Lookups, f: Flags)
    requires ValidLookups(l)
    requires d.ouiname == UNPOPULATED ==> OuiReadable(d.address)
    ensures var r := Populate(d, l, f);
            r.device.ouiname != UNPOPULATED && r.device.manufname != UNPOPULATED ==>
              Populate(r.device, r.lookups, r.flags) == r
  {
  }

  /**
   * A reference query that runs out of memory while a record is populated
   * raises `isOOM`, so the next `insertBTDevice` is refused with DB_IS_OOM.
   */
  lemma FailedLookupBlocksInsert(p: Pipeline, later: Device)
    requires Valid(p) && !p.populated && p.scanCursor < p.devicesCount
    requires var d := p.scan[p.scanCursor];
             !IsFree(d) && (OuiQueried(d, p.lookups) || VendorQueried(d, p.lookups))
    requires p.lookups.refStatus == ExecFailed(Some(OUT_OF_MEMORY))
    ensures var q := OnScanPopulate(p).p;
            q.store.flags.isOOM && InsertBTDevice(q.store, later).msg == DbIsOom
  {
  }

  // ----- the four stages -----

  datatype Stepped = Stepped(p: Pipeline, more: bool)

  /** `onScanPopulate`. */
  function OnScanPopulate(p: Pipeline): (r: Stepped)
    requires Valid(p)
    ensures Valid(r.p)
    ensures r.p.scanCursor == p.scanCursor && r.p.step == p.step && r.p.propagated == p.propagated
    ensures r.p.devicesCount == p.devicesCount && r.p.ring == p.ring
    ensures r.p.store == p.store.(flags := r.p.store.flags)
    ensures r.more <==> !p.populated && p.scanCursor < p.devicesCount
    ensures !r.more ==> r.p == p.(populated := true) || r.p == p
    ensures forall i :: 0 <= i < |p.scan| && i != p.scanCursor ==> r.p.scan[i] == p.scan[i]
    ensures r.more && !IsFree(p.scan[p.scanCursor]) ==>
              var pop := Populate(p.scan[p.scanCursor], p.lookups, p.store.flags);
              r.p.scan[p.scanCursor] == pop.device && r.p.lookups == pop.lookups && r.p.store.flags == pop.flags
    ensures r.more && IsFree(p.scan[p.scanCursor]) ==> r.p == p
  {
    if p.populated then Stepped(p, false)
    else if p.scanCursor >= p.devicesCount then Stepped(p.(populated := true), false)
    else
      var d := p.scan[p.scanCursor];
      if IsFree(d) then Stepped(p, true)
      else
        var r := Populate(d, p.lookups, p.store.flags);
        Stepped(p.(scan := p.scan[p.scanCursor := r.device], lookups := r.lookups,
                   store := p.store.(flags := r.flags)), true)
  }

  /** A re-sighted record: one more hit, timestamps refreshed. */
  function Resighted(d: Device, clock: Clock): (t: Device)
    ensures t.address == d.address && t.hits == d.hits + 1
    ensures t.inDb == d.inDb && t.isAnonymous == d.isAnonymous
  {
    Touch(d.(hits := d.hits + 1), clock)
  }

  /** Replacing scan slot `c` with a record of the same address keeps the pipeline valid. */
  lemma SameAddressValid(p: Pipeline, c: nat, d: Device)
    requires Valid(p) && c < |p.scan| && d.address == p.scan[c].address
    ensures Valid(p.(scan := p.scan[c := d]))
  {
    var s := p.scan[c := d];
    forall i | 0 <= i < |s| && !IsFree(s[i])
      ensures OuiReadable(s[i].address)
    {
      assert s[i].address == p.scan[i].address;
    }
  }

  /** Storing a record with a readable MAC address in scan slot `c` keeps the pipeline valid. */
  lemma ReadableValid(p: Pipeline, c: nat, d: Device)
    requires Valid(p) && c < |p.scan| && OuiReadable(d.address)
    ensures Valid(p.(scan := p.scan[c := d]))
  {
    var s := p.scan[c := d];
    forall i | 0 <= i < |s| && !IsFree(s[i])
      ensures OuiReadable(s[i].address)
    {
      if i != c {
        assert s[i] == p.scan[i];
      }
    }
  }

  /** The ring match: one more hit and refreshed timestamps, merged and copied back. */
  function InRing(p: Pipeline, i: nat): (q: Pipeline)
    requires Valid(p) && p.scanCursor < p.devicesCount && i < |p.ring|
    requires p.ring[i].address == p.scan[p.scanCursor].address
    ensures Valid(q) && q.ringCursor == p.ringCursor && q.store == p.store
    ensures q == p.(ring := q.ring, scan := q.scan, inCacheCount := p.inCacheCount + 1,
                    bleDevCacheHit := p.bleDevCacheHit + 1)
    ensures q.ring == p.ring[i := q.scan[p.scanCursor]]
    ensures q.scan == p.scan[p.scanCursor := q.scan[p.scanCursor]]
    ensures q.scan[p.scanCursor] == Merge(p.scan[p.scanCursor], Resighted(p.ring[i], p.store.clock))
  {
    var c := p.scanCursor;
    var merged := Merge(p.scan[c], Resighted(p.ring[i], p.store.clock));
    SameAddressValid(p, c, merged);
    p.(ring := p.ring[i := merged], scan := p.scan[c := merged],
       inCacheCount := p.inCacheCount + 1, bleDevCacheHit := p.bleDevCacheHit + 1)
  }

  /** An anonymous device takes the next ring slot, with one more hit, and never reaches the database. */
  function Anonymous(p: Pipeline): (q: Pipeline)
    requires Valid(p) && p.scanCursor < p.devicesCount
    ensures Valid(q) && q.store == p.store && q.holder == p.holder
    ensures q.ringCursor == NextCacheIndex(p.ringCursor, |p.ring|)
    ensures q == p.(ring := q.ring, ringCursor := q.ringCursor, scan := q.scan)
    ensures q.scan[p.scanCursor] == p.scan[p.scanCursor].(hits := p.scan[p.scanCursor].hits + 1)
    ensures q.ring == p.ring[q.ringCursor := q.scan[p.scanCursor]]
    ensures q.scan == p.scan[p.scanCursor := q.scan[p.scanCursor]]
  {
    var c := p.scanCursor;
    var next := NextCacheIndex(p.ringCursor, |p.ring|);
    var copy := p.scan[c].(hits := p.scan[c].hits + 1);
    SameAddressValid(p, c, copy);
    p.(ring := p.ring[next := copy], ringCursor := next, scan := p.scan[c := copy])
  }

  /**
   * The database branch when `deviceExists` found a row: the loaded holder,
   * merged with the sighting, goes into the next ring slot and back into
   * the scan slot.
   */
  function FoundInDb(p: Pipeline, e: Existence): (q: Pipeline)
    requires Valid(p) && p.scanCursor < p.devicesCount
    requires e.holder.address == p.scan[p.scanCursor].address
    ensures Valid(q) && q.store == e.store
    ensures q.holder == Merge(p.scan[p.scanCursor], Resighted(e.holder, p.store.clock))
    ensures q.ringCursor == NextCacheIndex(p.ringCursor, |p.ring|)
    ensures q.ring == p.ring[q.ringCursor := q.holder]
    ensures q.scan == p.scan[p.scanCursor := q.holder]
    ensures q == p.(store := q.store, holder := q.holder, ring := q.ring, ringCursor := q.ringCursor, scan := q.scan)
  {
    var c := p.scanCursor;
    var next := NextCacheIndex(p.ringCursor, |p.ring|);
    var merged := Merge(p.scan[c], Resighted(e.holder, p.store.clock));
    SameAddressValid(p, c, merged);
    p.(store := e.store, holder := merged, ring := p.ring[next := merged], ringCursor := next,
       scan := p.scan[c := merged])
  }

  /** The database branch otherwise (no row, or -2 for a failed query): not in the database. */
  function NotInDb(p: Pipeline, e: Existence): (q: Pipeline)
    requires Valid(p) && p.scanCursor < p.devicesCount
    ensures Valid(q) && q.store == e.store && q.ring == p.ring && q.ringCursor == p.ringCursor
    ensures q.scan == p.scan[p.scanCursor := p.scan[p.scanCursor].(inDb := false)]
    ensures q == p.(store := e.store, holder := e.holder, scan := q.scan)
  {
    var c := p.scanCursor;
    SameAddressValid(p, c, p.scan[c].(inDb := false));
    p.(store := e.store, holder := e.holder, scan := p.scan[c := p.scan[c].(inDb := false)])
  }

  /** What `deviceExists` answers for the record under the cursor. */
  function Query(p: Pipeline): (e: Existence)
    requires Valid(p) && p.scanCursor < p.devicesCount
    ensures e.index > -1 ==> e.holder.address == p.scan[p.scanCursor].address
  {
    var a := p.scan[p.scanCursor].address;
    var e := DeviceExists(p.store, a, p.ringCursor, p.holder);
    if e.index > -1 then
      var found := Select(Rows(p.store), a);
      assert found[0] in found;
      e
    else e
  }

  /** The database branch of `onScanIfExists`. */
  function Queried(p: Pipeline): (q: Pipeline)
    requires Valid(p) && p.scanCursor < p.devicesCount
    ensures Valid(q) && SameProgress(p, q)
  {
    var e := Query(p);
    if e.index > -1 then FoundInDb(p, e) else NotInDb(p, e)
  }

  /**
   * `onScanIfExists`: a device already in the ring is merged there (one
   * more hit, timestamps refreshed) and copied back; an anonymous device
   * claims the next ring slot with no database query; any other device is
   * looked up in the database and, when found, merged into the holder and
   * copied into the next ring slot and back; otherwise it is marked as not
   * in the database -- a failed query (-2) included.
   */
  function OnScanIfExists(p: Pipeline): (r: Stepped)
    requires Valid(p)
    ensures Valid(r.p)
    ensures r.more ==> SameProgress(p, r.p)
    ensures r.p.scanCursor == p.scanCursor && r.p.step == p.step && r.p.propagated == p.propagated
    ensures r.p.devicesCount == p.devicesCount
    ensures r.more <==> !p.postPopulated && p.scanCursor < p.devicesCount
    ensures !r.more ==> r.p == p.(postPopulated := true) || r.p == p
    ensures r.more ==>
              var i := GetDeviceCacheIndex(p.ring, p.scan[p.scanCursor].address);
              if i > -1 then r.p == InRing(p, i)
              else if p.scan[p.scanCursor].isAnonymous then r.p == Anonymous(p)
              else r.p == Queried(p)
  {
    if p.postPopulated then Stepped(p, false)
    else if p.scanCursor >= p.devicesCount then Stepped(p.(postPopulated := true), false)
    else
      var i := GetDeviceCacheIndex(p.ring, p.scan[p.scanCursor].address);
      if i > -1 then Stepped(InRing(p, i), true)
      else if p.scan[p.scanCursor].isAnonymous then Stepped(Anonymous(p), true)
      else Stepped(Queried(p), true)
  }

  /** `onScanRender`: only the stage flag; the card itself is display work. */
  function OnScanRender(p: Pipeline): (r: Stepped)
    ensures r.more <==> !p.rendered && p.scanCursor < p.devicesCount
    ensures r.p == p || r.p == p.(rendered := true)
    ensures r.p.rendered <==> p.rendered || p.scanCursor >= p.devicesCount
  {
    if p.rendered then Stepped(p, false)
    else if p.scanCursor >= p.devicesCount then Stepped(p.(rendered := true), false)
    else Stepped(p, true)
  }

  /**
   * `onScanPropagate`: past the last device the stage ends and rewinds the
   * cursor; an empty slot is skipped; otherwise the record is inserted only
   * when it is neither anonymous nor already in the database, `entries`
   * grows only on a successful insertion, and the slot is then released.
   */
  function OnScanPropagate(p: Pipeline): (r: Stepped)
    requires Valid(p)
    ensures Valid(r.p)
    ensures r.p.step == p.step && r.p.devicesCount == p.devicesCount && r.p.ring == p.ring
    ensures r.more <==> !p.propagated && p.scanCursor < p.devicesCount
    ensures !p.propagated && p.scanCursor >= p.devicesCount ==> r.p == p.(propagated := true, scanCursor := 0)
    ensures p.propagated ==> r.p == p
    ensures r.more ==> r.p.scanCursor == p.scanCursor && r.p.propagated == p.propagated
    ensures r.more && IsFree(p.scan[p.scanCursor]) ==> r.p == p
    ensures r.more ==> IsFree(r.p.scan[p.scanCursor])
    ensures r.more ==> forall i :: 0 <= i < |p.scan| && i != p.scanCursor ==> r.p.scan[i] == p.scan[i]
    ensures r.more && (p.scan[p.scanCursor].isAnonymous || p.scan[p.scanCursor].inDb) ==> r.p.store == p.store
    ensures r.more && !IsFree(p.scan[p.scanCursor]) && !p.scan[p.scanCursor].isAnonymous && !p.scan[p.scanCursor].inDb ==>
              var ins := InsertBTDevice(p.store, p.scan[p.scanCursor]);
              r.p.store == ins.store.(entries := if ins.msg == InsertionSuccess then ins.store.entries + 1 else ins.store.entries)
  {
    if p.propagated then Stepped(p, false)
    else if p.scanCursor >= p.devicesCount then Stepped(p.(propagated := true, scanCursor := 0), false)
    else
      var c := p.scanCursor;
      var d := p.scan[c];
      if IsFree(d) then Stepped(p, true)
      else if d.isAnonymous || d.inDb then
        Stepped(p.(anonymousCacheHit := if d.isAnonymous then p.anonymousCacheHit + 1 else p.anonymousCacheHit,
                   scan := p.scan[c := Reset()]), true)
      else
        var ins := InsertBTDevice(p.store, d);
        var entries := if ins.msg == InsertionSuccess then ins.store.entries + 1 else ins.store.entries;
        Stepped(p.(store := ins.store.(entries := entries), scan := p.scan[c := Reset()]), true)
  }

  /** `POPULATE`, `IFEXISTS`, `RENDER`, `PROPAGATE`. */
  const POPULATE: nat := 0
  const IFEXISTS: nat := 1
  const RENDER: nat := 2
  const PROPAGATE: nat := 3

  /**
   * `onAfterScanSteps`: the first three steps run their stage, advance the
   * step and always continue; PROPAGATE rewinds the step and continues (with
   * the cursor advanced) only when the stage handled a device; any other
   * step value rewinds and stops.
   */
  function AfterScanStep(p: Pipeline): (r: Stepped)
    requires Valid(p)
    ensures Valid(r.p)
    ensures p.step < PROPAGATE ==> r.more && r.p.step == p.step + 1 && r.p.scanCursor == p.scanCursor
    ensures p.step >= PROPAGATE ==> r.p.step == 0
    ensures p.step > PROPAGATE ==> !r.more && r.p == p.(step := 0)
    ensures p.step < PROPAGATE ==> r.p.propagated == p.propagated && r.p.devicesCount == p.devicesCount
    ensures p.step == PROPAGATE && r.more ==>
              r.p.scanCursor == p.scanCursor + 1 && !p.propagated && p.scanCursor < p.devicesCount
    ensures p.step == PROPAGATE && !r.more ==>
              r.p.scanCursor == 0 || r.p == p.(step := 0)
    ensures p.step == PROPAGATE && !p.propagated && p.scanCursor < p.devicesCount ==>
              r.more && r.p.scanCursor == p.scanCursor + 1 && !r.p.propagated && r.p.devicesCount == p.devicesCount
    ensures p.step == PROPAGATE && !p.propagated && p.scanCursor >= p.devicesCount ==>
              !r.more && r.p.scanCursor == 0 && r.p.propagated
  {
    if p.step == POPULATE then
      var s := OnScanPopulate(p);
      Stepped(s.p.(step := p.step + 1), true)
    else if p.step == IFEXISTS then
      var s := OnScanIfExists(p);
      Stepped(s.p.(step := p.step + 1), true)
    else if p.step == RENDER then
      var s := OnScanRender(p);
      Stepped(s.p.(step := p.step + 1), true)
    else if p.step == PROPAGATE then
      var s := OnScanPropagate(p.(step := 0));
      if s.more then Stepped(s.p.(scanCursor := s.p.scanCursor + 1), true)
      else Stepped(s.p, false)
    else
      Stepped(p.(step := 0), false)
  }

  datatype Round = Round(p: Pipeline, calls: nat, stopped: bool)

  /** Calls the step driver until it returns false, at most `fuel` times. */
  function Drive(p: Pipeline, fuel: nat): (r: Round)
    requires Valid(p)
    ensures Valid(r.p) && r.calls <= fuel
    decreases fuel
  {
    if fuel == 0 then Round(p, 0, false)
    else
      var s := AfterScanStep(p);
      if !s.more then Round(s.p, 1, true)
      else
        var rest := Drive(s.p, fuel - 1);
        Round(rest.p, rest.calls + 1, rest.stopped)
  }

  /** One continuing call of the driver. */
  lemma DriveUnfold(p: Pipeline, fuel: nat)
    requires Valid(p) && fuel > 0 && AfterScanStep(p).more
    ensures var rest := Drive(AfterScanStep(p).p, fuel - 1);
            Drive(p, fuel) == Round(rest.p, rest.calls + 1, rest.stopped)
  {
  }

  /** The first three calls from step 0 run their stages and leave the driver at PROPAGATE. */
  lemma ThreeSteps(p: Pipeline)
    requires Valid(p) && p.step == 0 && !p.propagated && p.scanCursor < p.devicesCount
    ensures var p1 := AfterScanStep(p);
            var p2 := AfterScanStep(p1.p);
            var p3 := AfterScanStep(p2.p);
            p1.more && p2.more && p3.more && p3.p.step == PROPAGATE && !p3.p.propagated
            && p3.p.scanCursor == p.scanCursor && p3.p.devicesCount == p.devicesCount
  {
  }

  /** Two continuing calls in a row count two towards the round. */
  lemma DriveTwo(p: Pipeline, fuel: nat)
    requires Valid(p) && fuel >= 2
    requires AfterScanStep(p).more && AfterScanStep(AfterScanStep(p).p).more
    ensures var p2 := AfterScanStep(AfterScanStep(p).p);
            var rest := Drive(p2.p, fuel - 2);
            Drive(p, fuel) == Round(rest.p, rest.calls + 2, rest.stopped)
  {
    DriveUnfold(AfterScanStep(p).p, fuel - 1);
    DriveUnfold(p, fuel);
  }

  /** Four continuing calls in a row count four towards the round. */
  lemma DriveFour(p: Pipeline, fuel: nat)
    requires Valid(p) && fuel >= 4
    requires var p1 := AfterScanStep(p);
             var p2 := AfterScanStep(p1.p);
             var p3 := AfterScanStep(p2.p);
             p1.more && p2.more && p3.more && AfterScanStep(p3.p).more
    ensures var p4 := AfterScanStep(AfterScanStep(AfterScanStep(AfterScanStep(p).p).p).p);
            var rest := Drive(p4.p, fuel - 4);
            Drive(p, fuel) == Round(rest.p, rest.calls + 4, rest.stopped)
  {
    var p2 := AfterScanStep(AfterScanStep(p).p);
    DriveTwo(p2.p, fuel - 2);
    DriveTwo(p, fuel);
  }

  /** Four calls from step 0 handle one device and move to the next. */
  lemma OneDevice(p: Pipeline, fuel: nat)
    requires Valid(p) && p.step == 0 && !p.propagated && p.scanCursor < p.devicesCount && fuel >= 4
    ensures var p4 := AfterScanStep(AfterScanStep(AfterScanStep(AfterScanStep(p).p).p).p);
            var rest := Drive(p4.p, fuel - 4);
            p4.p.step == 0 && p4.p.scanCursor == p.scanCursor + 1 && !p4.p.propagated
            && p4.p.devicesCount == p.devicesCount
            && Drive(p, fuel) == Round(rest.p, rest.calls + 4, rest.stopped)
  {
    ThreeSteps(p);
    DriveFour(p, fuel);
  }

  /** Four calls from step 0 past the last device end the round with the cursor rewound. */
  lemma LastCalls(p: Pipeline, fuel: nat)
    requires Valid(p) && p.step == 0 && !p.propagated && p.scanCursor >= p.devicesCount && fuel >= 4
    ensures var r := Drive(p, fuel);
            r.calls == 4 && r.stopped && r.p.step == 0 && r.p.scanCursor == 0 && r.p.propagated
  {
    var p1 := AfterScanStep(p);
    var p2 := AfterScanStep(p1.p);
    DriveUnfold(p2.p, fuel - 2);
    DriveUnfold(p1.p, fuel - 1);
    DriveUnfold(p, fuel);
  }

  /**
   * From device `c` of `n` at step 0, the driver needs exactly
   * 4(n - c) + 4 calls, the last of which returns false with the cursor
   * back at 0.
   */
  lemma {:induction false} DriveFrom(p: Pipeline, fuel: nat)
    requires Valid(p) && p.step == 0 && !p.propagated && p.scanCursor <= p.devicesCount
    requires fuel >= 4 * (p.devicesCount - p.scanCursor) + 4
    ensures var r := Drive(p, fuel);
            r.calls == 4 * (p.devicesCount - p.scanCursor) + 4 && r.stopped
            && r.p.scanCursor == 0 && r.p.step == 0 && r.p.propagated
    decreases p.devicesCount - p.scanCursor
  {
    if p.scanCursor < p.devicesCount {
      OneDevice(p, fuel);
      var p4 := AfterScanStep(AfterScanStep(AfterScanStep(AfterScanStep(p).p).p).p);
      DriveFrom(p4.p, fuel - 4);
    } else {
      LastCalls(p, fuel);
    }
  }

  /** The step driver's round: n buffered devices take exactly 4n + 4 calls. */
  lemma RoundLength(p: Pipeline)
    requires Valid(p) && p.step == 0 && !p.propagated && p.scanCursor == 0
    ensures var r := Drive(p, 4 * p.devicesCount + 4);
            r.calls == 4 * p.devicesCount + 4 && r.stopped && r.p.scanCursor == 0 && r.p.propagated
  {
    DriveFrom(p, 4 * p.devicesCount + 4);
  }

  // ----- what the ring and the database learn from one device -----

  /**
   * After `onScanIfExists` handled a device that was in the ring, is
   * anonymous, or was found in the database, the ring holds its address.
   */
  lemma IfExistsCaches(p: Pipeline)
    requires Valid(p) && !p.postPopulated && p.scanCursor < p.devicesCount
    requires !IsFree(p.scan[p.scanCursor])
    requires var d := p.scan[p.scanCursor];
             GetDeviceCacheIndex(p.ring, d.address) > -1 || d.isAnonymous || Query(p).index > -1
    ensures GetDeviceCacheIndex(OnScanIfExists(p).p.ring, p.scan[p.scanCursor].address) > -1
  {
    var d := p.scan[p.scanCursor];
    var q := OnScanIfExists(p).p;
    var i := GetDeviceCacheIndex(p.ring, d.address);
    if i > -1 {
      assert q.ring[i].address == d.address;
    } else if d.isAnonymous {
      assert q.ring[q.ringCursor].address == d.address;
    } else {
      assert q.ring[q.ringCursor].address == d.address;
    }
  }

  /**
   * A failed existence query (-2) is handled like an unknown device: the
   * record is marked as not in the database, the ring is untouched, and the
   * error is recorded in the store's flags.
   */
  lemma FailedQueryCountsAsNew(p: Pipeline)
    requires Valid(p) && !p.postPopulated && p.scanCursor < p.devicesCount
    requires var d := p.scan[p.scanCursor];
             GetDeviceCacheIndex(p.ring, d.address) == -1 && !d.isAnonymous && !InvalidAddress(d.address)
    requires Status(p.store.disk, p.store.fsPath).ExecFailed?
    ensures var q := OnScanIfExists(p).p;
            Query(p).index == -2 && q.ring == p.ring
            && q.scan[p.scanCursor] == p.scan[p.scanCursor].(inDb := false) && q.store == Failed(p.store)
  {
  }

  /** A record found nowhere is inserted on propagation, once, into the current table. */
  lemma NewDeviceInserted(p: Pipeline)
    requires Valid(p) && !p.propagated && p.scanCursor < p.devicesCount
    requires var d := p.scan[p.scanCursor]; !IsFree(d) && !d.isAnonymous && !d.inDb && !IsBlank(d)
    requires Writable(p.store)
    ensures var q := OnScanPropagate(p).p;
            Rows(q.store) == Rows(p.store) + [StoredRow(p.scan[p.scanCursor])]
            && q.store.entries == p.store.entries + 1 && IsFree(q.scan[p.scanCursor])
  {
    InsertFrame(p.store, p.scan[p.scanCursor]);
  }

  // ----- buffering advertisements -----

  /** `onResult` with external RAM: names are looked up right away, the OUI only for public addresses. */
  function PsramPopulate(d: Device, l: Lookups, f: Flags): (r: Populated)
    requires ValidLookups(l) && l.hasPsram && OuiReadable(d.address)
    ensures ValidLookups(r.lookups) && r.lookups.hasPsram
    ensures r.device.address == d.address && r.device.isAnonymous == IsAnonymous(r.device)
    ensures d.addrType == Random ==> r.device.ouiname == d.ouiname
    ensures d.addrType != Random ==> r.device.ouiname == GetOUI(l, d.address).name
    ensures d.manufid > -1 ==> r.device.manufname == GetVendor(l, VendorKey(d.manufid)).name
    ensures d.manufid <= -1 ==> r.device.manufname == d.manufname
    ensures r.flags == f
  {
    var o := if d.addrType != Random then GetOUI(l, d.address) else NameResult(l, d.ouiname, ExecOk);
    var v := if d.manufid > -1 then GetVendor(o.lookups, VendorKey(d.manufid)) else NameResult(o.lookups, d.manufname, ExecOk);
    var d1 := d.(ouiname := o.name, manufname := v.name);
    Populated(d1.(isAnonymous := IsAnonymous(d1)), v.lookups, f)
  }

  /** A random address while vendor filtering is on: the slot is written but the cursor stays. */
  function BufferFiltered(p: Pipeline, d: Device): (q: Pipeline)
    requires Valid(p) && p.scanCursor < MAX_DEVICES_PER_SCAN && OuiReadable(d.address)
    ensures Valid(q)
    ensures q == p.(scan := p.scan[p.scanCursor := d])
  {
    ReadableValid(p, p.scanCursor, d);
    p.(scan := p.scan[p.scanCursor := d])
  }

  /** The names `onResult` fills in at once: all of them with external RAM, none without. */
  function ResultNames(d: Device, l: Lookups, f: Flags): (r: Populated)
    requires ValidLookups(l) && OuiReadable(d.address)
    ensures ValidLookups(r.lookups) && r.device.address == d.address && r.flags == f
    ensures !l.hasPsram ==> r == Populated(d, l, f)
    ensures l.hasPsram ==> r == PsramPopulate(d, l, f)
  {
    if l.hasPsram then PsramPopulate(d, l, f) else Populated(d, l, f)
  }

  /** Any other advertisement: names looked up (external RAM only), cursor and count advanced. */
  function BufferPopulated(p: Pipeline, d: Device): (q: Pipeline)
    requires Valid(p) && p.scanCursor < MAX_DEVICES_PER_SCAN && OuiReadable(d.address)
    ensures Valid(q)
    ensures q.scan[p.scanCursor].address == d.address
    ensures q.scanCursor == p.scanCursor + 1 && q.processed == p.processed + 1
    ensures q.scanDone <==> q.scanCursor == MAX_DEVICES_PER_SCAN
    ensures q == p.(scan := p.scan[p.scanCursor := q.scan[p.scanCursor]], lookups := q.lookups,
                    scanCursor := q.scanCursor, processed := q.processed, scanDone := q.scanDone)
  {
    var c := p.scanCursor;
    var r := ResultNames(d, p.lookups, p.store.flags);
    var p1 := p.(lookups := r.lookups);
    ReadableValid(p1, c, r.device);
    p1.(scan := p.scan[c := r.device], scanCursor := c + 1, processed := p.processed + 1,
        scanDone := c + 1 == MAX_DEVICES_PER_SCAN)
  }

  /** The buffering part of `onResult` for a free scan slot. */
  function Buffer(p: Pipeline, adv: Advert): (q: Pipeline)
    requires Valid(p) && !p.scanDone && p.scanCursor < MAX_DEVICES_PER_SCAN && IsMacAddress(adv.address)
    ensures Valid(q)
    ensures q.scan[p.scanCursor].address == adv.address
    ensures p.filterVendors && adv.addrType == Random ==>
              q == p.(scan := q.scan) && q.scanCursor == p.scanCursor && !q.scanDone
    ensures !(p.filterVendors && adv.addrType == Random) ==>
              q.scanCursor == p.scanCursor + 1 && q.processed == p.processed + 1
              && (q.scanDone <==> q.scanCursor == MAX_DEVICES_PER_SCAN)
    ensures q.scan == p.scan[p.scanCursor := q.scan[p.scanCursor]]
    ensures q.scanDuration == p.scanDuration && q.ring == p.ring && q.store == p.store
    ensures q.devicesCount == p.devicesCount
  {
    var d := StoreAdvert(adv, p.store.clock);
    MacShortKey(adv.address);
    if p.filterVendors && adv.addrType == Random then BufferFiltered(p, d)
    else BufferPopulated(p, d)
  }

  /**
   * `FoundDeviceCallbacks::onResult`: ignored once the scan is done;
   * buffered while the scan buffer has room (a filtered random address
   * takes the slot but does not advance the cursor); a full buffer ends the
   * scan, rewinds the cursor and shortens the next scan by one second down
   * to MIN_SCAN_DURATION.
   */
  function OnResult(p: Pipeline, adv: Advert): (q: Pipeline)
    requires Valid(p) && IsMacAddress(adv.address)
    ensures Valid(q)
    ensures p.scanDone ==> q == p
    ensures !p.scanDone ==> q.scanCursor < MAX_DEVICES_PER_SCAN
    ensures q.scanDone ==> q.scanCursor == 0 || q == p
    ensures ScanDurationInRange(p.scanDuration) ==> ScanDurationInRange(q.scanDuration)
    ensures q.scanDuration == p.scanDuration
            || (!p.scanDone && q.scanDone && q.scanDuration == p.scanDuration - 1 >= MIN_SCAN_DURATION)
    ensures q.ring == p.ring && q.store == p.store && q.devicesCount == p.devicesCount
  {
    if p.scanDone then p else Receive(p, adv)
  }

  /** `onResult` while the scan is still running. */
  function Receive(p: Pipeline, adv: Advert): (q: Pipeline)
    requires Valid(p) && !p.scanDone && IsMacAddress(adv.address)
    ensures Valid(q) && q.scanCursor < MAX_DEVICES_PER_SCAN
    ensures q.scanDone ==> q.scanCursor == 0
    ensures q.scanDuration == p.scanDuration || (q.scanDone && q.scanDuration == p.scanDuration - 1 >= MIN_SCAN_DURATION)
    ensures ScanDurationInRange(p.scanDuration) ==> ScanDurationInRange(q.scanDuration)
    ensures q.ring == p.ring && q.store == p.store && q.devicesCount == p.devicesCount
  {
    var p1 := if p.scanCursor < MAX_DEVICES_PER_SCAN then Buffer(p, adv) else p.(scanDone := true);
    if p1.scanDone then EndScan(p1) else p1
  }

  /** A full buffer ends the scan: the cursor rewinds and the next scan is a second shorter, down to the minimum. */
  function EndScan(p: Pipeline): (q: Pipeline)
    requires Valid(p)
    ensures Valid(q) && q.scanCursor == 0
    ensures q.scanDuration == p.scanDuration || q.scanDuration == p.scanDuration - 1 >= MIN_SCAN_DURATION
    ensures ScanDurationInRange(p.scanDuration) ==> ScanDurationInRange(q.scanDuration)
    ensures q == p.(scanCursor := 0, scanDuration := q.scanDuration)
  {
    p.(scanCursor := 0,
       scanDuration := if p.scanDuration - 1 >= MIN_SCAN_DURATION then p.scanDuration - 1 else p.scanDuration)
  }

  /**
   * What one advertisement does to the counters: a filtered random address
   * neither advances the cursor nor counts as processed; any other buffered
   * advertisement counts once.
   */
  lemma OnResultCounts(p: Pipeline, adv: Advert)
    requires Valid(p) && IsMacAddress(adv.address) && !p.scanDone && p.scanCursor < MAX_DEVICES_PER_SCAN
    ensures var q := OnResult(p, adv);
            q.scan[p.scanCursor].address == adv.address
            && (p.filterVendors && adv.addrType == Random ==> q.scanCursor == p.scanCursor && q.processed == p.processed)
            && (!(p.filterVendors && adv.addrType == Random) ==> q.processed == p.processed + 1)
  {
  }

  /** While a scan runs, the cursor counts the processed advertisements and stays below the capacity. */
  predicate Scanning(p: Pipeline) {
    (!p.scanDone ==> p.processed == p.scanCursor < MAX_DEVICES_PER_SCAN)
    && (p.scanDone ==> p.processed <= MAX_DEVICES_PER_SCAN && p.scanCursor == 0)
  }

  /** `onResult` keeps the counting invariant, so at most MAX_DEVICES_PER_SCAN devices are processed per scan. */
  lemma OnResultKeepsScanning(p: Pipeline, adv: Advert)
    requires Valid(p) && IsMacAddress(adv.address) && Scanning(p)
    ensures Scanning(OnResult(p, adv))
    ensures OnResult(p, adv).processed <= MAX_DEVICES_PER_SCAN
  {
  }

  // ----- around a scan -----

  /**
   * `onAfterScan` (the time-sync hand-off left out): the processed count
   * becomes the device count, capped at MAX_DEVICES_PER_SCAN; a scan that
   * did not fill the buffer lengthens the next one by a second, one that
   * overflowed shortens it, each within the scan-duration bounds.
   */
  function OnAfterScan(p: Pipeline): (q: Pipeline)
    requires Valid(p)
    ensures Valid(q)
    ensures q.devicesCount == Min(p.processed, MAX_DEVICES_PER_SCAN)
    ensures q.scanDone && q.scanCursor == 0 && q.inCacheCount == 0
    ensures ScanDurationInRange(p.scanDuration) ==> ScanDurationInRange(q.scanDuration)
    ensures p.processed < MAX_DEVICES_PER_SCAN && p.scanDuration + 1 < MAX_SCAN_DURATION ==>
              q.scanDuration == p.scanDuration + 1
    ensures p.processed > MAX_DEVICES_PER_SCAN && p.scanDuration - 1 >= MIN_SCAN_DURATION ==>
              q.scanDuration == p.scanDuration - 1
    ensures p.processed == MAX_DEVICES_PER_SCAN ==> q.scanDuration == p.scanDuration
    ensures q.scan == p.scan && q.ring == p.ring && q.store == p.store
  {
    var n := p.processed;
    var duration :=
      if n < MAX_DEVICES_PER_SCAN then (if p.scanDuration + 1 < MAX_SCAN_DURATION then p.scanDuration + 1 else p.scanDuration)
      else if n > MAX_DEVICES_PER_SCAN then (if p.scanDuration - 1 >= MIN_SCAN_DURATION then p.scanDuration - 1 else p.scanDuration)
      else p.scanDuration;
    p.(devicesCount := Min(n, MAX_DEVICES_PER_SCAN), scanDuration := duration,
       inCacheCount := 0, scanDone := true, scanCursor := 0)
  }

  /** Under the counting invariant the overflow branch of `onAfterScan` is never taken. */
  lemma NoOverflowAfterScan(p: Pipeline)
    requires Valid(p) && Scanning(p)
    ensures OnAfterScan(p).devicesCount == p.processed
    ensures ScanDurationInRange(p.scanDuration) ==> OnAfterScan(p).scanDuration >= p.scanDuration
  {
  }

  datatype BeforeScan = Ready(p: Pipeline) | Ended(outcome: Outcome)

  /**
   * `onBeforeScan`: the store's maintenance runs first; when it does not
   * end the run, the scan counters, cursor and stage flags are cleared.
   */
  function OnBeforeScan(p: Pipeline): (r: BeforeScan)
    requires Valid(p)
    ensures r.Ready? <==> Maintain(p.store, p.ring).Continue?
    ensures r.Ended? ==> r.outcome == Maintain(p.store, p.ring)
    ensures r.Ready? ==> Valid(r.p) && Scanning(r.p)
    ensures r.Ready? ==> r.p.processed == 0 && r.p.devicesCount == 0 && r.p.scanCursor == 0
    ensures r.Ready? ==> !r.p.scanDone && !r.p.populated && !r.p.postPopulated && !r.p.rendered && !r.p.propagated
    ensures r.Ready? ==> r.p.store == Maintain(p.store, p.ring).store && r.p.scanDuration == p.scanDuration
  {
    match Maintain(p.store, p.ring)
    case Continue(store, ring, _) =>
      Ready(p.(store := store, ring := ring, processed := 0, devicesCount := 0, scanCursor := 0,
               scanDone := false, populated := false, postPopulated := false, rendered := false,
               propagated := false))
    case other => Ended(other)
  }

  /** The scan duration stays in its bounds across a whole scan cycle. */
  lemma ScanDurationStaysInRange(p: Pipeline, adverts: seq<Advert>)
    requires Valid(p) && ScanDurationInRange(p.scanDuration)
    requires forall i :: 0 <= i < |adverts| ==> IsMacAddress(adverts[i].address)
    ensures ScanDurationInRange(OnAfterScan(ReceiveAll(p, adverts)).scanDuration)
  {
    ReceiveAllInRange(p, adverts);
  }

  /** `onResult` for each advertisement in turn. */
  function ReceiveAll(p: Pipeline, adverts: seq<Advert>): (q: Pipeline)
    requires Valid(p)
    requires forall i :: 0 <= i < |adverts| ==> IsMacAddress(adverts[i].address)
    ensures Valid(q)
    decreases |adverts|
  {
    if |adverts| == 0 then p else ReceiveAll(OnResult(p, adverts[0]), adverts[1..])
  }

  lemma {:induction false} ReceiveAllInRange(p: Pipeline, adverts: seq<Advert>)
    requires Valid(p) && ScanDurationInRange(p.scanDuration)
    requires forall i :: 0 <= i < |adverts| ==> IsMacAddress(adverts[i].address)
    ensures ScanDurationInRange(ReceiveAll(p, adverts).scanDuration)
    decreases |adverts|
  {
    if |adverts| > 0 {
      ReceiveAllInRange(OnResult(p, adverts[0]), adverts[1..]);
    }
  }
}

=== FILE: serial.dfy ===
/**
 * The serial console of BLE.h: the line reader `SerialRead`, the command
 * splitter and dispatcher `runCommand`, and the flag toggler `toggleCB`.
 *
 * The UART becomes a string of received characters, the command callbacks
 * become a `Dispatch` value naming the table entry and its argument, and
 * the toggled globals become a sequence of named flags.
 */
module Serial {
  import opened Text
  import opened Settings

  const CR: char := '\r'
  const LF: char := '\n'
  const NUL: char := '\0'

  predicate IsEol(c: char) {
    c == CR || c == LF
  }

  // ----- C strings -----

  /** What the C string functions see in a buffer: the text before the first NUL. */
  function CString(s: string): (r: string)
    ensures |r| <= |s| && r == s[..|r|]
    ensures NUL !in r
    ensures |r| < |s| ==> s[|r|] == NUL
  {
    if |s| == 0 || s[0] == NUL then [] else [s[0]] + CString(s[1..])
  }

  /** A terminating NUL appended to a buffer hides nothing before it. */
  lemma {:induction false} CStringTerminated(s: string)
    ensures CString(s + [NUL]) == CString(s)
  {
    if |s| > 0 && s[0] != NUL {
      assert (s + [NUL])[1..] == s[1..] + [NUL];
      CStringTerminated(s[1..]);
    }
  }

  // ----- the line reader -----

  /** The reader's logical state: the pending text and the lines dispatched so far. */
  datatype Fed = Fed(pending: string, lines: seq<string>)

  /**
   * One received character: an end of line dispatches the pending text and
   * starts a new line; any other character is kept while the buffer has
   * room for it and its terminator, and dropped otherwise.
   */
  function Accept(f: Fed, c: char): (g: Fed)
    ensures |f.pending| < SERIAL_BUFFER_SIZE ==> |g.pending| < SERIAL_BUFFER_SIZE
    ensures IsEol(c) ==> g == Fed([], f.lines + [f.pending])
    ensures !IsEol(c) ==> g.lines == f.lines && f.pending <= g.pending && |g.pending| <= |f.pending| + 1
  {
    if IsEol(c) then Fed([], f.lines + [f.pending])
    else if |f.pending| < SERIAL_BUFFER_SIZE - 1 then Fed(f.pending + [c], f.lines)
    else f
  }

  /** The reference reader: every character of `input` accepted in turn. */
  function AcceptAll(f: Fed, input: string): (g: Fed)
    ensures |f.pending| < SERIAL_BUFFER_SIZE ==> |g.pending| < SERIAL_BUFFER_SIZE
    ensures f.lines <= g.lines
    decreases |input|
  {
    if |input| == 0 then f else Accept(AcceptAll(f, input[..|input| - 1]), input[|input| - 1])
  }

  /**
   * `SerialRead`: the characters of `input` go into the fixed buffer at the
   * index, which sticks at the last cell once the buffer is full; an end of
   * line writes the terminator, hands the buffer's C string to
   * `runCommand`, and rewinds the index. The dispatched commands are the
   * reference reader's lines as C strings.
   */
  method SerialRead(buf: seq<char>, idx: nat, input: string) returns (buf': seq<char>, idx': nat, commands: seq<string>)
    requires |buf| == SERIAL_BUFFER_SIZE && idx < SERIAL_BUFFER_SIZE
    ensures |buf'| == SERIAL_BUFFER_SIZE && idx' < SERIAL_BUFFER_SIZE
    ensures var f := AcceptAll(Fed(buf[..idx], []), input);
            buf'[..idx'] == f.pending && |commands| == |f.lines|
            && forall i :: 0 <= i < |commands| ==> commands[i] == CString(f.lines[i])
  {
    buf', idx', commands := buf, idx, [];
    for k := 0 to |input|
      invariant |buf'| == SERIAL_BUFFER_SIZE && idx' < SERIAL_BUFFER_SIZE
      invariant var f := AcceptAll(Fed(buf[..idx], []), input[..k]);
                buf'[..idx'] == f.pending && |commands| == |f.lines|
                && forall i :: 0 <= i < |commands| ==> commands[i] == CString(f.lines[i])
    {
      ghost var f := AcceptAll(Fed(buf[..idx], []), input[..k]);
      var c := input[k];
      assert input[..k + 1][..k] == input[..k];
      assert AcceptAll(Fed(buf[..idx], []), input[..k + 1]) == Accept(f, c);
      if c != CR && c != LF {
        KeepChar(buf', idx', f, c);
        buf' := buf'[idx' := c];
        idx' := idx' + 1;
        if idx' >= SERIAL_BUFFER_SIZE {
          idx' := SERIAL_BUFFER_SIZE - 1;
        }
      } else {
        EndLine(buf', idx');
        buf' := buf'[idx' := NUL];
        commands := commands + [CString(buf'[..idx' + 1])];
        idx' := 0;
      }
    }
    assert input[..|input|] == input;
  }

  /** Writing a kept character at the index, then advancing it up to the last cell, tracks `Accept`. */
  lemma KeepChar(buf: seq<char>, idx: nat, f: Fed, c: char)
    requires |buf| == SERIAL_BUFFER_SIZE && idx < SERIAL_BUFFER_SIZE && buf[..idx] == f.pending && !IsEol(c)
    ensures var i := if idx + 1 >= SERIAL_BUFFER_SIZE then SERIAL_BUFFER_SIZE - 1 else idx + 1;
            buf[idx := c][..i] == Accept(f, c).pending
  {
    if idx + 1 < SERIAL_BUFFER_SIZE {
      assert buf[idx := c][..idx + 1] == f.pending + [c];
    } else {
      assert buf[idx := c][..idx] == f.pending;
    }
  }

  /** Terminating the buffer at the index hands over exactly the pending text. */
  lemma EndLine(buf: seq<char>, idx: nat)
    requires idx < |buf|
    ensures CString(buf[idx := NUL][..idx + 1]) == CString(buf[..idx])
  {
    assert buf[idx := NUL][..idx + 1] == buf[..idx] + [NUL];
    CStringTerminated(buf[..idx]);
  }

  /** Text without line ends, fed to a reader whose pending line fits, is kept up to the buffer's capacity. */
  lemma {:induction false} AcceptLine(f: Fed, w: string)
    requires |f.pending| < SERIAL_BUFFER_SIZE
    requires forall i :: 0 <= i < |w| ==> !IsEol(w[i])
    ensures AcceptAll(f, w) == Fed(Truncate(f.pending + w, SERIAL_BUFFER_SIZE), f.lines)
    decreases |w|
  {
    if |w| > 0 {
      var w0 := w[..|w| - 1];
      AcceptLine(f, w0);
      assert f.pending + w0 + [w[|w| - 1]] == f.pending + w;
    } else {
      assert f.pending + w == f.pending;
    }
  }

  /** A line is dispatched as its first SERIAL_BUFFER_SIZE-1 characters. */
  lemma DispatchedLine(w: string)
    requires forall i :: 0 <= i < |w| ==> !IsEol(w[i])
    ensures AcceptAll(Fed([], []), w + [LF]) == Fed([], [Truncate(w, SERIAL_BUFFER_SIZE)])
  {
    AcceptLine(Fed([], []), w);
    assert (w + [LF])[..|w|] == w;
    assert [] + w == w;
  }

  // ----- splitting and dispatch -----

  /** The index of the first character at or after `i` that is not a space, or |s|. */
  function SkipSpaces(s: string, i: nat): (k: nat)
    requires i <= |s|
    ensures i <= k <= |s|
    ensures forall j :: i <= j < k ==> s[j] == ' '
    ensures k < |s| ==> s[k] != ' '
    decreases |s| - i
  {
    if i == |s| || s[i] != ' ' then i else SkipSpaces(s, i + 1)
  }

  /** The index of the first space at or after `i`, or |s|. */
  function FindSpace(s: string, i: nat): (e: nat)
    requires i <= |s|
    ensures i <= e <= |s|
    ensures forall j :: i <= j < e ==> s[j] != ' '
    ensures e < |s| ==> s[e] == ' '
    decreases |s| - i
  {
    if i == |s| || s[i] == ' ' then i else FindSpace(s, i + 1)
  }

  /** Spaces in `s` occur only in a leading run. */
  predicate LeadingSpacesOnly(s: string) {
    forall i, j :: 0 <= i <= j < |s| && s[j] == ' ' ==> s[i] == ' '
  }

  /**
   * The name `runCommand` compares and the argument it passes, after
   * `strtok_r` on a space: when the line holds a space and a token, the
   * terminator replaces the first space after the token, the compared name
   * is the line up to there (leading spaces included), and the argument is
   * what follows; a token that reaches the end of the line leaves the
   * argument NULL, as newlib's `strtok_r` does. Otherwise the whole line is
   * the name and there is no argument.
   */
  function Tokens(command: string): (t: (string, Option<string>))
    ensures t.0 <= command && LeadingSpacesOnly(t.0)
    ensures ' ' !in command ==> t == (command, None)
    ensures t.1.Some? ==> command == t.0 + " " + t.1.value
    ensures t.1.None? ==> t.0 == command
    ensures t.1.Some? ==> exists i :: 0 <= i < |t.0| && t.0[i] != ' '
  {
    if ' ' !in command then (command, None)
    else
      var k := SkipSpaces(command, 0);
      if k == |command| then (command, None)
      else
        var e := FindSpace(command, k);
        var name := command[..e];
        if e < |command| then
          assert command == name + " " + command[e + 1..];
          (name, Some(command[e + 1..]))
        else (name, None)
  }

  /** Splitting inverts joining a space-free name and its argument with one space. */
  lemma TokensOfJoin(name: string, arg: string)
    requires |name| > 0 && ' ' !in name
    ensures Tokens(name + " " + arg) == (name, Some(arg))
  {
    var c := name + " " + arg;
    assert c[|name|] == ' ';
    assert c[0] == name[0];
    assert c[..|name|] == name;
    assert c[|name| + 1..] == arg;
  }

  /** The first position holding `x`. */
  function IndexOf(names: seq<string>, x: string): (r: Option<nat>)
    ensures r.None? <==> x !in names
    ensures r.Some? ==> r.value < |names| && names[r.value] == x
                        && forall j :: 0 <= j < r.value ==> names[j] != x
  {
    if |names| == 0 then None
    else if names[0] == x then Some(0)
    else match IndexOf(names[1..], x)
      case None => None
      case Some(i) => Some(i + 1)
  }

  /** What `runCommand` does with one line. */
  datatype Dispatch = Ignored | Help | Run(index: nat, args: Option<string>) | NotFound(name: string)

  /**
   * `runCommand`: an empty line, or an empty command table, is ignored;
   * exactly "help" lists the table; otherwise the line is split and the
   * first entry whose name equals the compared name runs with the argument,
   * and a name no entry has is reported.
   */
  function RunCommand(command: string, names: seq<string>): (r: Dispatch)
    ensures IsEmpty(command) || |names| == 0 ==> r == Ignored
    ensures r.Ignored? ==> IsEmpty(command) || |names| == 0
    ensures r.Help? <==> !IsEmpty(command) && |names| > 0 && command == "help"
    ensures r.Run? ==> r.index < |names| && names[r.index] == Tokens(command).0
                       && r.args == Tokens(command).1
                       && forall j :: 0 <= j < r.index ==> names[j] != Tokens(command).0
    ensures r.NotFound? ==> r.name == Tokens(command).0 && r.name !in names
    ensures !IsEmpty(command) && |names| > 0 && command != "help" ==> (r.Run? <==> Tokens(command).0 in names)
  {
    if IsEmpty(command) || |names| == 0 then Ignored
    else if command == "help" then Help
    else
      var t := Tokens(command);
      match IndexOf(names, t.0)
      case Some(i) => Run(i, t.1)
      case None => NotFound(t.0)
  }

  /** The console's command table, in order. */
  const COMMANDS: seq<string> := [
    "help", "halp", "start", "stop", "toggleFilter", "toggleEcho", "setTimeZone",
    "setSummerTime", "dump", "setBrightness", "ls", "rm", "restart", "screenshot",
    "screenshow", "toggle", "resetDB", "pruneDB", "bleclock", "bletime"]

  const TOGGLE_COMMAND: nat := 15

  /** A line naming a table entry and an argument runs the first entry of that name with exactly that argument. */
  lemma RunsNamedCommand(names: seq<string>, name: string, arg: string)
    requires name in names && |name| > 0 && ' ' !in name
    ensures RunCommand(name + " " + arg, names) == Run(IndexOf(names, name).value, Some(arg))
  {
    TokensOfJoin(name, arg);
    var c := name + " " + arg;
    assert c[|name|] == ' ';
    assert ' ' !in "help";
  }

  /** An entry is found first when every earlier entry has a different length. */
  lemma FirstOfItsLength(names: seq<string>, x: string, i: nat)
    requires i < |names| && names[i] == x
    requires forall j :: 0 <= j < i ==> |names[j]| != |x|
    ensures IndexOf(names, x) == Some(i)
  {
    assert IndexOf(names, x).Some?;
  }

  /** "toggle" is the sixteenth entry of the command table and no earlier entry shares its name. */
  lemma ToggleCommandIndex()
    ensures IndexOf(COMMANDS, "toggle") == Some(TOGGLE_COMMAND)
  {
    assert COMMANDS[TOGGLE_COMMAND] == "toggle";
    assert forall j :: 0 <= j < TOGGLE_COMMAND ==> |COMMANDS[j]| != 6;
    FirstOfItsLength(COMMANDS, "toggle", TOGGLE_COMMAND);
  }

  // ----- toggling flags -----

  /** A named boolean the `toggle` command may flip. */
  datatype Prop = Prop(name: string, flag: bool)

  /** The names in the toggle table, in order. */
  const TOGGLE_NAMES: seq<string> := [
    "Out.serialEcho", "DB.needsReset", "DBneedsReplication", "DB.needsPruning", "TimeIsSet",
    "foundTimeServer", "RTCisRunning", "ForceBleTime", "DayChangeTrigger", "HourChangeTrigger",
    "timeServerIsRunning"]

  predicate DistinctNames(props: seq<Prop>) {
    forall i, j :: 0 <= i < j < |props| ==> props[i].name != props[j].name
  }

  /**
   * `toggleCB`: with no properties registered, or without an argument
   * (which only lists them), nothing changes; with an argument, every
   * property whose name equals it is flipped.
   */
  function Toggle(param: Option<string>, props: seq<Prop>): (r: seq<Prop>)
    ensures |r| == |props|
    ensures forall i :: 0 <= i < |r| ==> r[i].name == props[i].name
    ensures param.None? ==> r == props
    ensures forall i :: 0 <= i < |r| ==> (r[i].flag != props[i].flag <==> param == Some(props[i].name))
  {
    if |props| == 0 || param.None? then props
    else
      seq(|props|, i requires 0 <= i < |props| =>
        if props[i].name == param.value then props[i].(flag := !props[i].flag) else props[i])
  }

  /** Toggling the same name twice restores every flag. */
  lemma ToggleInvolution(param: Option<string>, props: seq<Prop>)
    ensures Toggle(param, Toggle(param, props)) == props
  {
    var r := Toggle(param, Toggle(param, props));
    assert forall i :: 0 <= i < |r| ==> r[i] == props[i];
  }

  /** With distinct names, a toggle flips exactly the named property and nothing else. */
  lemma ToggleFlipsOne(name: string, props: seq<Prop>, i: nat)
    requires DistinctNames(props) && i < |props| && props[i].name == name
    ensures Toggle(Some(name), props) == props[i := props[i].(flag := !props[i].flag)]
  {
    var r := Toggle(Some(name), props);
    forall j | 0 <= j < |props| && j != i
      ensures r[j] == props[j]
    {
      if j < i { assert props[j].name != props[i].name; }
      else { assert props[i].name != props[j].name; }
    }
  }

  /** An argument that names no property changes nothing. */
  lemma ToggleUnknownName(name: string, props: seq<Prop>)
    requires forall i :: 0 <= i < |props| ==> props[i].name != name
    ensures Toggle(Some(name), props) == props
  {
  }

  /** The console's toggle table holding the given flag values. */
  function ToggleTable(flags: seq<bool>): (props: seq<Prop>)
    requires |flags| == |TOGGLE_NAMES|
    ensures |props| == |flags|
    ensures forall k :: 0 <= k < |props| ==> props[k] == Prop(TOGGLE_NAMES[k], flags[k])
  {
    seq(|flags|, k requires 0 <= k < |flags| => Prop(TOGGLE_NAMES[k], flags[k]))
  }

  /** The console's toggle table has distinct names, so each name flips exactly one flag. */
  lemma ToggleTableDistinct(flags: seq<bool>)
    requires |flags| == |TOGGLE_NAMES|
    ensures DistinctNames(ToggleTable(flags))
  {
    var props := ToggleTable(flags);
    forall i, j | 0 <= i < j < |props|
      ensures props[i].name != props[j].name
    {
      assert props[i].name == TOGGLE_NAMES[i] && props[j].name == TOGGLE_NAMES[j];
    }
  }

  /** "toggle <arg>" on the console runs the toggle entry with that argument. */
  lemma ToggleCommandRuns(arg: string)
    ensures RunCommand("toggle" + " " + arg, COMMANDS) == Run(TOGGLE_COMMAND, Some(arg))
  {
    var t := "toggle";
    assert ' ' !in t && |t| == 6;
    ToggleCommandIndex();
    assert COMMANDS[TOGGLE_COMMAND] == t;
    RunsNamedCommand(COMMANDS, t, arg);
  }

  /** "toggle <name>" on the console flips exactly the named flag of the toggle table. */
  lemma ToggleCommandFlips(flags: seq<bool>, i: nat)
    requires |flags| == |TOGGLE_NAMES| && i < |flags|
    ensures var d := RunCommand("toggle" + " " + TOGGLE_NAMES[i], COMMANDS);
            d == Run(TOGGLE_COMMAND, Some(TOGGLE_NAMES[i]))
            && Toggle(d.args, ToggleTable(flags)) == ToggleTable(flags)[i := Prop(TOGGLE_NAMES[i], !flags[i])]
  {
    ToggleCommandRuns(TOGGLE_NAMES[i]);
    ToggleTableDistinct(flags);
    ToggleFlipsOne(TOGGLE_NAMES[i], ToggleTable(flags), i);
  }
}

=== FILE: settings.dfy ===
/**
 * Build parameters of the collector and its two string helpers
 * `substr` and `strpos`.
 */
module Settings {
  import opened Text

  /** Initial scan duration in seconds; adapted after every scan. */
  const SCAN_DURATION_INIT: nat := 20
  const MIN_SCAN_DURATION: nat := 10
  const MAX_SCAN_DURATION: nat := 120
  /** Ring sizes of the heap lookup caches; these take precedence over the
      fallbacks 16 (vendor) and 32 (OUI) of the database layer. */
  const VENDORCACHE_SIZE: nat := 16
  const OUICACHE_SIZE: nat := 8
  /** Capacity of a text field, terminator excluded. */
  const MAX_FIELD_LEN: nat := 32
  /** Characters of a canonical MAC address `xx:xx:xx:xx:xx:xx`. */
  const MAC_LEN: nat := 17
  /** Capacity of the OUI part of a MAC address, terminator included. */
  const SHORT_MAC_LEN: nat := 7
  const MAX_BLECARDS_WITH_TIMESTAMPS_ON_SCREEN: nat := 4
  /** Scan buffer capacity. */
  const MAX_DEVICES_PER_SCAN: nat := MAX_BLECARDS_WITH_TIMESTAMPS_ON_SCREEN
  /** Device ring capacity with and without external RAM. */
  const BLEDEVCACHE_PSRAM_SIZE: nat := 1024
  const BLEDEVCACHE_HEAP_SIZE: nat := 32
  /** Serial line buffer size, terminator included. */
  const SERIAL_BUFFER_SIZE: nat := 64

  /** The range the adaptive scan duration is kept in. */
  predicate ScanDurationInRange(d: int) {
    MIN_SCAN_DURATION <= d <= MAX_SCAN_DURATION - 1
  }

  lemma ScanDurationConstants()
    ensures MIN_SCAN_DURATION <= SCAN_DURATION_INIT < MAX_SCAN_DURATION
    ensures ScanDurationInRange(SCAN_DURATION_INIT)
    ensures VENDORCACHE_SIZE == 16 && OUICACHE_SIZE == 8
  {
  }

  function Min(a: int, b: int): int {
    if a <= b then a else b
  }

  /**
   * `substr(src, pos, len)`: NULL (and no allocation) for `len <= 0`,
   * otherwise up to `len` characters of `src` from `pos`, stopping early at
   * the end of `src`.  An allocation failure is not modelled.
   */
  function Substr(src: string, pos: int, len: int): (r: Option<string>)
    requires 0 <= pos <= |src|
    ensures r.None? <==> len <= 0
    ensures r.Some? ==> r.value <= src[pos..]
    ensures r.Some? ==> |r.value| <= len
    ensures r.Some? ==> |r.value| == len || pos + |r.value| == |src|
  {
    if len <= 0 then None else Some(src[pos..pos + Min(len, |src| - pos)])
  }

  /** Two adjacent substrings join into the substring covering both. */
  lemma SubstrAdjacent(src: string, pos: int, a: int, b: int)
    requires 0 <= pos && pos + a <= |src|
    requires a > 0 && b > 0
    ensures Substr(src, pos, a).value + Substr(src, pos + a, b).value == Substr(src, pos, a + b).value
  {
    var x := Substr(src, pos, a).value;
    var y := Substr(src, pos + a, b).value;
    assert x == src[pos..pos + a];
    assert y == src[pos + a..pos + a + Min(b, |src| - pos - a)];
  }

  /**
   * First position `p >= from` at which `needle` occurs in `hay`, or -1.
   * An empty needle occurs at `from`.
   */
  function FindFrom(hay: string, needle: string, from: nat): (r: int)
    requires from <= |hay|
    ensures r == -1 || (from <= r && OccursAt(hay, needle, r))
    ensures r == -1 <==> forall p :: from <= p <= |hay| ==> !OccursAt(hay, needle, p)
    ensures r >= 0 ==> forall p :: from <= p < r ==> !OccursAt(hay, needle, p)
    decreases |hay| - from
  {
    if from + |needle| > |hay| then -1
    else if OccursAt(hay, needle, from) then from
    else if from == |hay| then -1
    else FindFrom(hay, needle, from + 1)
  }

  /**
   * `strpos(hay, needle, offset)` as intended: the first position at or
   * after `offset` where `needle` occurs, -1 when there is none.
   */
  function StrPos(hay: string, needle: string, offset: nat): (r: int)
    requires offset <= |hay|
    ensures r >= 0 ==> offset <= r && OccursAt(hay, needle, r)
    ensures r >= 0 ==> forall p :: offset <= p < r ==> !OccursAt(hay, needle, p)
    ensures r == -1 <==> forall p :: offset <= p <= |hay| ==> !OccursAt(hay, needle, p)
    ensures r >= -1
  {
    FindFrom(hay, needle, offset)
  }

  /**
   * `strpos` as written: the temporary copy holds the `|hay| - offset`
   * characters after `offset` with no terminator, so `strstr` keeps reading
   * whatever bytes `junk` follow them in memory until a NUL.
   */
  function StrPosAsWritten(hay: string, needle: string, offset: nat, junk: string): int
    requires offset <= |hay|
  {
    var scanned := hay[offset..] + junk;
    var q := FindFrom(scanned, needle, 0);
    if q >= 0 then q + offset else -1
  }

  /** Without trailing bytes the as-written search agrees with the intended one. */
  lemma StrPosAsWrittenNoJunk(hay: string, needle: string, offset: nat)
    requires offset <= |hay|
    ensures StrPosAsWritten(hay, needle, offset, "") == StrPos(hay, needle, offset)
  {
    var s := hay[offset..];
    assert s + "" == s;
    var q := FindFrom(s, needle, 0);
    var r := StrPos(hay, needle, offset);
    forall p | 0 <= p <= |s|
      ensures OccursAt(s, needle, p) <==> OccursAt(hay, needle, p + offset)
    {
      if p + |needle| <= |s| {
        assert s[p..p + |needle|] == hay[p + offset..p + offset + |needle|];
      }
    }
    if q >= 0 {
      assert OccursAt(hay, needle, q + offset);
      assert r >= 0;
      assert OccursAt(s, needle, r - offset);
    } else {
      forall p | offset <= p <= |hay|
        ensures !OccursAt(hay, needle, p)
      {
        assert !OccursAt(s, needle, p - offset);
      }
    }
  }

  /**
   * The missing terminator changes the answer: "bz" does not occur in "ab",
   * yet the as-written search reports position 1 when the byte after the
   * copy happens to be 'z'.
   */
  lemma StrPosUnterminatedCopy()
    ensures StrPos("ab", "bz", 0) == -1
    ensures StrPosAsWritten("ab", "bz", 0, "z") == 1
  {
    assert "ab"[0..2] != "bz" by { assert "ab"[0..2][0] == 'a'; }
    assert "ab"[1..3 - 1] == "b";
    var s := "ab"[0..] + "z";
    assert s == "abz";
    assert !OccursAt(s, "bz", 0);
    assert OccursAt(s, "bz", 1);
  }
}

=== FILE: text.dfy ===
/**
 * C-string helpers the collector relies on: emptiness, `strstr`, Arduino
 * `String::replace` for quotes, `tolower`/`toupper` and the fixed-width
 * truncation of a `char[]` field.  A C string is modelled as a `string`
 * without its terminating NUL.
 */
module Text {

  datatype Option<T> = None | Some(value: T)

  /** `isEmpty(s)`: the string has no characters before its terminator. */
  predicate IsEmpty(s: string) {
    |s| == 0
  }

  /** `needle` occurs in `hay` starting at position `p`. */
  predicate OccursAt(hay: string, needle: string, p: int) {
    0 <= p && p + |needle| <= |hay| && hay[p..p + |needle|] == needle
  }

  /** `strstr(hay, needle) != NULL`. */
  predicate Contains(hay: string, needle: string) {
    exists p | 0 <= p <= |hay| - |needle| :: OccursAt(hay, needle, p)
  }

  /** Number of occurrences of `c` in `s`. */
  function Count(s: string, c: char): nat {
    if |s| == 0 then 0 else (if s[0] == c then 1 else 0) + Count(s[1..], c)
  }

  lemma {:induction false} CountZeroIffAbsent(s: string, c: char)
    ensures Count(s, c) == 0 <==> c !in s
  {
    if |s| > 0 {
      CountZeroIffAbsent(s[1..], c);
      assert s == [s[0]] + s[1..];
    }
  }

  /**
   * `String::replace("'", "''")`: every single quote doubled, which is how
   * the collector escapes free text before writing it into an SQL literal.
   */
  function DoubleQuotes(s: string): (r: string)
    ensures |r| == |s| + Count(s, '\'')
  {
    if |s| == 0 then ""
    else (if s[0] == '\'' then "''" else [s[0]]) + DoubleQuotes(s[1..])
  }

  /** How the SQL engine reads the body of a quoted literal: `''` stands for `'`. */
  function UnescapeQuotes(t: string): string
  {
    if |t| == 0 then ""
    else if |t| >= 2 && t[0] == '\'' && t[1] == '\'' then "'" + UnescapeQuotes(t[2..])
    else [t[0]] + UnescapeQuotes(t[1..])
  }

  /** A literal body in which every quote is part of a doubled pair. */
  predicate QuotesPaired(t: string)
  {
    if |t| == 0 then true
    else if t[0] == '\'' then |t| >= 2 && t[1] == '\'' && QuotesPaired(t[2..])
    else QuotesPaired(t[1..])
  }

  /** Escaping then reading back the literal gives the original text. */
  lemma {:induction false} UnescapeDoubleQuotes(s: string)
    ensures UnescapeQuotes(DoubleQuotes(s)) == s
  {
    if |s| > 0 {
      UnescapeDoubleQuotes(s[1..]);
      var rest := DoubleQuotes(s[1..]);
      if s[0] == '\'' {
        assert DoubleQuotes(s) == "''" + rest;
        assert ("''" + rest)[2..] == rest;
      } else {
        assert DoubleQuotes(s) == [s[0]] + rest;
        assert ([s[0]] + rest)[1..] == rest;
      }
      assert s == [s[0]] + s[1..];
    }
  }

  /** Escaped text never leaves a lone quote that would end the literal early. */
  lemma {:induction false} DoubleQuotesPaired(s: string)
    ensures QuotesPaired(DoubleQuotes(s))
  {
    if |s| > 0 {
      DoubleQuotesPaired(s[1..]);
      var rest := DoubleQuotes(s[1..]);
      if s[0] == '\'' {
        assert DoubleQuotes(s) == "''" + rest;
        assert ("''" + rest)[2..] == rest;
      } else {
        assert DoubleQuotes(s) == [s[0]] + rest;
        assert ([s[0]] + rest)[1..] == rest;
      }
    }
  }

  /** `String::replace(c, "")`: every occurrence of `c` removed. */
  function RemoveChar(s: string, c: char): (r: string)
    ensures c !in r
    ensures |r| == |s| - Count(s, c)
  {
    if |s| == 0 then ""
    else if s[0] == c then RemoveChar(s[1..], c)
    else [s[0]] + RemoveChar(s[1..], c)
  }

  /** Removing a character that is not there changes nothing. */
  lemma {:induction false} RemoveAbsentChar(s: string, c: char)
    requires c !in s
    ensures RemoveChar(s, c) == s
  {
    if |s| > 0 {
      assert s[0] in s;
      assert forall x :: x in s[1..] ==> x in s;
      RemoveAbsentChar(s[1..], c);
      assert s == [s[0]] + s[1..];
    }
  }

  /** Removal is idempotent. */
  lemma RemoveCharIdempotent(s: string, c: char)
    ensures RemoveChar(RemoveChar(s, c), c) == RemoveChar(s, c)
  {
    RemoveAbsentChar(RemoveChar(s, c), c);
  }

  /** C `tolower` on the ASCII range. */
  function ToLowerChar(ch: char): char {
    if 'A' <= ch <= 'Z' then (ch as int + 32) as char else ch
  }

  /** C `toupper` on the ASCII range (SQLite `UPPER`). */
  function ToUpperChar(ch: char): char {
    if 'a' <= ch <= 'z' then (ch as int - 32) as char else ch
  }

  function ToLower(s: string): (r: string)
    ensures |r| == |s|
    ensures forall i :: 0 <= i < |s| ==> r[i] == ToLowerChar(s[i])
  {
    if |s| == 0 then "" else [ToLowerChar(s[0])] + ToLower(s[1..])
  }

  function ToUpper(s: string): (r: string)
    ensures |r| == |s|
    ensures forall i :: 0 <= i < |s| ==> r[i] == ToUpperChar(s[i])
  {
    if |s| == 0 then "" else [ToUpperChar(s[0])] + ToUpper(s[1..])
  }

  /**
   * Copying `s` into a `char[n]` field whose last byte is forced to NUL:
   * at most `n - 1` characters survive.
   */
  function Truncate(s: string, n: nat): (r: string)
    requires n > 0
    ensures |r| <= n - 1
    ensures |s| < n ==> r == s
    ensures |s| >= n ==> r == s[..n - 1]
  {
    if |s| < n then s else s[..n - 1]
  }
}
